=== FILE: README.md ===
# aoc2025 puzzle solvers in Dafny

This project models five of the repository's Advent of Code 2025 solvers. Each is a pure batch computation over the puzzle input. The project proves what each one computes.

- **Day 4, "Printing Department"** (`day4.dfy`, module `Day4`):
  - A grid of paper rolls (`@`).
  - Part 1 counts the rolls with fewer than four rolls among their eight neighbours.
  - Part 2 removes all such rolls at once, round after round, until none is left to remove.
- **Day 6, "Trash Compactor"** (`day6.dfy`, module `Day6`):
  - A worksheet of arithmetic problems.
  - Part 1 folds each column of numbers with the `+` or `*` written under it, then sums the columns.
  - Part 2 reads the worksheet as character columns, right to left, one block of columns per operator.
- **Day 8, "Playground"** (`day8.dfy`, module `Day8`):
  - Junction boxes in 3-D are joined into circuits, closest pair first.
  - Each step picks the closest pair strictly beyond the floor, the previous step's distance, when some pair lies beyond it; when none does, every pair ties and the first one is taken. The floor then becomes the chosen pair's distance, which may be lower than before. The step then updates the free boxes and the circuits.
  - Part 1 runs a fixed number of steps and multiplies the three largest circuit sizes.
  - Part 2 runs until one circuit holds every box.
- **Day 9, "Movie Theater"** (`day9.dfy`, module `Day9`):
  - Red tiles on a plane.
  - Part 1 finds the largest rectangle with two red tiles as corners.
  - Part 2 works on a compressed grid:
    - it compresses the coordinates;
    - marks the loop the tiles draw;
    - flood-fills the outside from the grid's edges;
    - keeps the largest rectangle whose cells all lie on or inside the loop.
- **Day 12, "Christmas Tree Farm"** (`day12.dfy`, module `Day12`):
  - Present shapes drawn with `#` cells.
  - Rotations and flips of a shape, and the set of its orientations.
  - Region lines `WxH: c0 c1 ...`.
  - Part 1 counts the regions whose area covers the cells of the presents they list.

Two shared modules model the Kotlin library calls the solvers rely on:
- `text.dfy` (module `Text`): `split` on one character, `trim`, and `toInt`/`toLong` with their range checks.
- `results.dfy` (module `Results`): `Option`, `Result`, and `MapAll`, a `map` whose elements may fail.

Every exception the source can throw becomes an `Err` value. Examples are a `maxBy` over an empty list, a `toInt` that refuses a token, or an unknown operator. Kotlin's `Int`/`Long` arithmetic is modelled with unbounded integers. Parsing applies the `Int`/`Long` range checks.

## Model

| member | source | states |
|---|---|---|
| Results.MapAll | src/main/kotlin/Day8.kt:98-101 | a list parse succeeds exactly when every line parses, and then yields each line's value in order; otherwise it reports the error of the first line that fails |
| Text.ParseInteger | src/main/kotlin/Day9.kt:170 | `toInt()` accepts exactly an optional `+` or `-` followed by one or more digits whose signed value is in range, and gives that signed value; anything else is refused |
| Text.ParseShowInt | src/main/kotlin/Day9.kt:170 | every in-range integer, written in decimal, parses back to itself |
| Text.ParseAll | src/main/kotlin/Day8.kt:99 | `map { it.toInt() }` succeeds exactly when every piece parses; otherwise it names the first piece that does not |
| Text.Split | src/main/kotlin/Day8.kt:99 | `split(",")` pieces contain no separator, and joined back with it they give the line |
| Text.SplitJoin | src/main/kotlin/Day8.kt:99 | splitting separator-free pieces joined with the separator gives the pieces back |
| Text.SplitAppend | src/main/kotlin/Day6.kt:56 | a separator cuts a string into the pieces before it followed by the pieces after it |
| Text.Tokens | src/main/kotlin/Day6.kt:56-57 | `split(" ").filter { it.isNotEmpty() }` yields non-empty tokens without spaces, each non-empty piece of the split as often as it occurs there |
| Text.TokensWord | src/main/kotlin/Day6.kt:56-57 | a line without spaces is one token, or none when it is empty |
| Text.TokensSpace | src/main/kotlin/Day6.kt:56-57 | the tokens of two texts joined by a space are the first's tokens followed by the second's, so the tokens are the line's words, left to right, duplicates included |
| Text.NonEmpty | src/main/kotlin/Day6.kt:57 | the filter keeps exactly the non-empty pieces, each as often as it occurs |
| Text.NonEmptyAppend | src/main/kotlin/Day6.kt:57 | the filter works piece by piece, so it keeps the pieces in order |
| Text.Trim | src/main/kotlin/Day12.kt:146-147 | `trim()` is an infix with only whitespace before and after it, and it neither starts nor ends with whitespace |
| Text.TrimUnchanged | src/main/kotlin/Day12.kt:146-147 | a string without whitespace at either end is its own trim |
| Day4.HasRollIsRolls | src/main/kotlin/Day4.kt:174-181 | `hasRollInMap` holds exactly at the in-range `@` cells, so it is false at any out-of-range position |
| Day4.CountAround | src/main/kotlin/Day4.kt:183-194 | the neighbour count is at most 8 |
| Day4.CountOverReached | src/main/kotlin/Day4.kt:183-194 | counting over a duplicate-free list of offsets counts each reached roll exactly once |
| Day4.CountMatchesNeighbours | src/main/kotlin/Day4.kt:183-194 | `countRollsAround` is the number of distinct rolls among the eight cells around the centre |
| Day4.CountIgnoresCentre | src/main/kotlin/Day4.kt:183-194 | changing the centre cell leaves the count unchanged, so the centre is never counted |
| Day4.CountColumns | src/main/kotlin/Day4.kt:198-203 | the column-by-column scan counts exactly the accessible rolls of the columns scanned |
| Day4.Part1 | src/main/kotlin/Day4.kt:196-204 | the answer is the number of rolls with fewer than four neighbouring rolls, so it is at most the number of rolls |
| Day4.RoundChangesOnlyAccessible | src/main/kotlin/Day4.kt:214-220 | a round turns exactly the rolls accessible on the unmodified grid into empty cells; every other cell keeps its character |
| Day4.RemoveAllRolls | src/main/kotlin/Day4.kt:214-220 | removing a set of rolls leaves exactly the other rolls, one fewer per removed roll |
| Day4.RemoveNothing | src/main/kotlin/Day4.kt:221-224 | a round with nothing to remove leaves the grid as it is, which is when the loop stops |
| Day4.CountMonotone | src/main/kotlin/Day4.kt:183-194 | a grid with more rolls gives every cell at least as many neighbouring rolls |
| Day4.StableNotAccessible | src/main/kotlin/Day4.kt:206-228 | a set of rolls that holds itself in place (each keeps four neighbours among the set alone) has no accessible roll while it is all still on the grid |
| Day4.KeptRound | src/main/kotlin/Day4.kt:214-224 | a round removes exactly the accessible rolls, keeps every other cell of the original, and never removes a roll of a set that holds itself in place |
| Day4.Part2 | src/main/kotlin/Day4.kt:206-228 | the final grid keeps the original's shape: each removed roll's cell is empty and every other cell keeps its character; the total is the number of rolls removed, at least the part 1 answer; no remaining roll is accessible, so the rolls left hold themselves in place, and every set of original rolls that does so is still there, which makes the rolls left (and the total) the only possible answer |
| Day6.Apply | src/main/kotlin/Day6.kt:70-74 | `+` adds and `*` multiplies; any other operator is an `UnknownOperation` error |
| Day6.ParseNumbers | src/main/kotlin/Day6.kt:56-58 | a number line parses exactly when each token is a `Long`, and then gives their values in order; otherwise it names the first bad token |
| Day6.ParseRows | src/main/kotlin/Day6.kt:56-58 | the number lines parse exactly when every line does, and then give each line's values in order; otherwise the error is that of the first line that fails |
| Day6.OperatorOf | src/main/kotlin/Day6.kt:61 | the operator is the first character of the trimmed token, and fails on an all-whitespace token |
| Day6.Operators | src/main/kotlin/Day6.kt:59-61 | the operator line succeeds exactly when no token is all whitespace, and then gives one operator per token, in order, each the token's first non-blank character |
| Day6.StepRow | src/main/kotlin/Day6.kt:67-76 | one `mapIndexed` pass succeeds exactly when every column has a `+`/`*` operator and the row is long enough, and then combines column i with the row's i-th value |
| Day6.FoldRowsColumns | src/main/kotlin/Day6.kt:63-78 | the loop over the later rows gives, in each column, the first row's value folded with that column's operator over the later rows in order; it fails exactly when an operator is unknown or a row is short |
| Day6.Parse | src/main/kotlin/Day6.kt:56-61 | an empty worksheet is an error; otherwise it parses exactly when every line but the last is a number line and the last is an operator line, and then gives those number rows and operators; a failing number line is reported first |
| Day6.EvaluateColumns | src/main/kotlin/Day6.kt:63-80 | the arithmetic of part 1 succeeds exactly when there is one number row, or more rows with a `+`/`*` operator for every column and no later row shorter than the first; it then gives the grand total, the sum over the columns of each column folded with its operator down the rows |
| Day6.Part1 | src/main/kotlin/Day6.kt:55-81 | part 1 passes on a parse failure; on a parsed worksheet it succeeds exactly when the arithmetic goes through, and then is the grand total; with no number row it fails |
| Day6.Part1UnknownOperator | src/main/kotlin/Day6.kt:73 | an operator other than `+`/`*` under a column fails part 1 once there is a second number row |
| Day6.MaxLength | src/main/kotlin/Day6.kt:84 | the maximum line length bounds every line and is reached by one |
| Day6.Columns | src/main/kotlin/Day6.kt:85-87 | there is one column per position up to the longest line, each as tall as the input; a line's character, or a space past its end, sits at its row |
| Day6.OperatorColumn | src/main/kotlin/Day6.kt:92-93 | the operator column is the rightmost one whose bottom character is not a space; if none is, there is none |
| Day6.RemoveSpacesChars | src/main/kotlin/Day6.kt:98 | removing spaces keeps exactly the other characters |
| Day6.AddColumn | src/main/kotlin/Day6.kt:98-105 | a column without digits is skipped; otherwise an unknown operator fails; with `+`/`*` it succeeds exactly when the column's text parses as a signed 64-bit integer (a leading sign allowed), combining the accumulator with that value, and fails with the bad text otherwise |
| Day6.EmptyBlockValue | src/main/kotlin/Day6.kt:95-106 | a block without digits yields the starting value: 1 under `*`, 0 otherwise |
| Day6.BlockWithoutDigits | src/main/kotlin/Day6.kt:96-106 | columns without digits leave the block accumulator unchanged |
| Day6.BlockUnknownOperator | src/main/kotlin/Day6.kt:103 | under an unknown operator, any column with a digit makes the block fail |
| Day6.ConsumeBlock | src/main/kotlin/Day6.kt:95-106 | the right-to-left loop over a block computes the block's value as the recursive definition does |
| Day6.Part2 | src/main/kotlin/Day6.kt:83-114 | the loop that drops each consumed block computes the recursive right-to-left definition, and it fails on empty input |
| Day6.ConsumeRound | src/main/kotlin/Day6.kt:91-110 | one round evaluates the block of the rightmost operator column first, then the columns to its left |
| Day6.LastOperatorColumn | src/main/kotlin/Day6.kt:92-93 | the column a round starts from is the rightmost operator column, and there is none exactly when no column has an operator |
| Day6.SumOfBlocksStep | src/main/kotlin/Day6.kt:91-110 | adding the next block on the right, evaluated first, keeps the result the sum of the blocks, failing exactly when some block fails |
| Day6.ConsumeBlocks | src/main/kotlin/Day6.kt:83-114 | when the leftmost column carries an operator, part 2 is the sum over the operator columns of each column's block value (the block reaching to the next operator column), succeeding exactly when every block does; a failure is some block's |
| Day6.ConsumeLeadingSpace | src/main/kotlin/Day6.kt:91-93 | when the leftmost column carries no operator, part 2 fails |
| Day8.SqDistProperties | src/main/kotlin/Day8.kt:68-73 | the distance is symmetric and zero exactly between equal points |
| Day8.RootOrder | src/main/kotlin/Day8.kt:68-73 | comparing square roots orders pairs as comparing the squared distances does, so the integer key replaces `sqrt` |
| Day8.ParsePoint | src/main/kotlin/Day8.kt:98-101 | a line parses exactly when it has at least three pieces and every piece is an `Int`; the first three are the coordinates |
| Day8.ParseShowPoint | src/main/kotlin/Day8.kt:98-101 | a box written as `x,y,z` parses back to itself |
| Day8.RowBestNone | src/main/kotlin/Day8.kt:111-118 | the inner `minBy` has no candidate exactly when every entry equals the row's entry |
| Day8.RowBestMin | src/main/kotlin/Day8.kt:111-118 | the inner `minBy`'s choice has the smallest masked key among the other entries, and the earliest among equal keys |
| Day8.PairBestNone | src/main/kotlin/Day8.kt:110-127 | the outer `minBy` has no result exactly when there are no rows or one row has no partner |
| Day8.PairBestMin | src/main/kotlin/Day8.kt:120-127 | no row's best pair has a smaller key than the chosen pair |
| Day8.PairBestFirst | src/main/kotlin/Day8.kt:120-127 | the chosen pair's key is strictly below the best pair of every earlier row |
| Day8.Select | src/main/kotlin/Day8.kt:110-127 | both `minBy`s give two different entries whose masked key no pair of different entries beats, with ties to the earliest row and then the earliest partner; they fail exactly when all entries are equal |
| Day8.Swap | src/main/kotlin/Day8.kt:129-132 | after the swap, if exactly one entry is in a circuit it is the second; a pair not of the form (tagged, free) keeps its order |
| Day8.Choose | src/main/kotlin/Day8.kt:108-132 | the chosen entries are two different entries of `allPoints`, and the first is free whenever the second is |
| Day8.ChooseFails | src/main/kotlin/Day8.kt:110-127 | nothing can be chosen exactly when all entries are equal, and then the error is `NoSuchElement` |
| Day8.ChooseMinimal | src/main/kotlin/Day8.kt:110-127 | no pair of different entries has a smaller masked key than the chosen pair |
| Day8.ChooseAbove | src/main/kotlin/Day8.kt:110-127 | when some pair lies beyond the floor, the chosen distance is strictly above the floor and at most that pair's distance |
| Day8.Init | src/main/kotlin/Day8.kt:98-105 | the start state holds every input box once as a free box, one component each; it is a valid partition exactly when the boxes are distinct |
| Day8.EntryOrigin | src/main/kotlin/Day8.kt:108 | a free entry is a free box, and a tagged entry is a box of the circuit carrying its tag |
| Day8.WithoutMembers | src/main/kotlin/Day8.kt:137 | the filter keeps exactly the free boxes other than the two chosen |
| Day8.WithoutCount | src/main/kotlin/Day8.kt:137 | the filter removes every copy of the two boxes, keeps the rest, and shortens the list by their copies |
| Day8.ExtendShape | src/main/kotlin/Day8.kt:140-148 | the circuit carrying the id gains the box at its end, and every other circuit stays as it is, in place |
| Day8.ExtendCount | src/main/kotlin/Day8.kt:140-148 | the box is added once per circuit carrying the id, and no id changes |
| Day8.KeepDropMembers | src/main/kotlin/Day8.kt:158-160 | the two filters keep exactly the circuits carrying one of the tags, and exactly the others |
| Day8.KeepDropPoints | src/main/kotlin/Day8.kt:158-161 | between them, the two filters hold every box of the circuits exactly as often as before |
| Day8.KeepPointsIn | src/main/kotlin/Day8.kt:160-161 | the merged circuit's boxes are the boxes of the circuits carrying either tag |
| Day8.Connect | src/main/kotlin/Day8.kt:134-166 | the update records the pair's distance as the new floor and never lowers the id counter |
| Day8.ConnectNew | src/main/kotlin/Day8.kt:136-155 | two free boxes leave the free list and form a new two-box circuit with a fresh id after the old circuits; the partition and its boxes are kept, and one component fewer remains |
| Day8.ConnectJoin | src/main/kotlin/Day8.kt:136-148 | a free box leaves the free list and is appended to its partner's circuit, and every other circuit is unchanged; the partition and its boxes are kept, and one component fewer remains |
| Day8.ConnectMerge | src/main/kotlin/Day8.kt:156-162 | two circuits are replaced, after the untouched ones, by one circuit with a fresh id holding exactly their boxes; the free list is unchanged, the partition is kept, and one component fewer remains |
| Day8.ConnectSame | src/main/kotlin/Day8.kt:163-166 | two boxes of the same circuit change nothing but the distance floor |
| Day8.ConnectStep | src/main/kotlin/Day8.kt:134-166 | in every case the partition and its boxes are kept; the component count drops by one unless the boxes already shared a circuit; afterwards they share one |
| Day8.StepPreserves | src/main/kotlin/Day8.kt:107-168 | one loop iteration keeps the partition and its boxes, removes at most one component, joins the chosen boxes and sets the floor to their distance, which lies above the old floor only when some pair did (`Day8.ChooseAbove`) |
| Day8.StepsPreserve | src/main/kotlin/Day8.kt:107-168 | any number of iterations keep the partition and its boxes, and remove at most one component each |
| Day8.IterateKeeps | src/main/kotlin/Day8.kt:107 | what every iteration keeps holds after any number of them |
| Day8.SortDescending | src/main/kotlin/Day8.kt:170 | `sortedDescending()` gives a descending permutation of the sizes |
| Day8.TopThree | src/main/kotlin/Day8.kt:170 | `take(3)` keeps min(3, n) of the sizes, descending, and none of the sizes left out is larger than one kept |
| Day8.LargestProduct | src/main/kotlin/Day8.kt:170-171 | `reduce` fails exactly when there is no circuit, and otherwise multiplies the (up to) three largest sizes |
| Day8.Part1 | src/main/kotlin/Day8.kt:97-172 | part 1 passes on a parse or step failure and fails with no circuit; otherwise it succeeds: after exactly `iterations` steps (none when negative), the answer is the product of the three largest circuit sizes, and with distinct boxes the circuits hold every input box once and at least `|boxes| - iterations` components remain |
| Day8.Part1Partition | src/main/kotlin/Day8.kt:107-171 | with distinct boxes, the circuits part 1 measures hold only input boxes, each once, and at least `|boxes| - iterations` components remain |
| Day8.Settle | src/main/kotlin/Day8.kt:186-250 | the loop stops at the first state with no free box and one circuit; no earlier state was done; a failure is reported from the iteration that failed |
| Day8.Part2 | src/main/kotlin/Day8.kt:174-253 | part 2 passes on a parse or step failure; once the loop stops it succeeds with the product of the x coordinates of the last pair joined; then there is no free box and one circuit, and with distinct boxes that circuit holds every input box once, including the last pair |
| Day8.Part2Settles | src/main/kotlin/Day8.kt:186-252 | with distinct boxes, when part 2 stops its one circuit holds every box exactly once, including the last pair joined |
| Day9.AreaProperties | src/main/kotlin/Day9.kt:146-149 | the area is at least 1, symmetric in its corners, and equal to the product of the extents part 2 computes |
| Day9.ParseTile | src/main/kotlin/Day9.kt:169-171 | a line parses exactly when it has at least two pieces and every piece is an `Int`; the first two are the coordinates |
| Day9.ParseShowTile | src/main/kotlin/Day9.kt:169-171 | a tile written as `x,y` parses back to itself |
| Day9.RowBestIsMax | src/main/kotlin/Day9.kt:175-177 | the inner `maxBy` finds a partner whenever another tile exists, and none has a larger area |
| Day9.AllBestIsMax | src/main/kotlin/Day9.kt:174-178 | the outer `maxBy` finds a pair whenever two tiles differ, and no pair of different tiles has a larger area |
| Day9.ParseTiles | src/main/kotlin/Day9.kt:169-172 | the tiles parse exactly when every line does, and then each line gives its tile in order; otherwise the error is that of the first line that fails |
| Day9.LargestArea | src/main/kotlin/Day9.kt:174-180 | the search fails with `NoSuchElement` exactly when there are no two different tiles; otherwise it is the area of some pair of different tiles and no such pair has a larger area |
| Day9.Part1 | src/main/kotlin/Day9.kt:168-181 | part 1 passes on a parse failure; otherwise it answers for the parsed tiles as the search does: no answer exactly when no two tiles differ, else the largest area of a pair of different tiles |
| Day9.SortedDistinct | src/main/kotlin/Day9.kt:193-194 | `distinct().sorted()` is strictly increasing and holds exactly the input's values |
| Day9.IncreasingUnique | src/main/kotlin/Day9.kt:193-194 | a strictly increasing list is fixed by its values, so the compressed axis is unique |
| Day9.IndexMap | src/main/kotlin/Day9.kt:197-198 | the index map has exactly the axis values as keys and maps `xs[i]` to `i` |
| Day9.IndexMapMonotone | src/main/kotlin/Day9.kt:193-198 | compression keeps the order: a < b exactly when their indices are, and likewise for equality |
| Day9.CellOf | src/main/kotlin/Day9.kt:212-216 | a tile's compressed cell lies on the grid and indexes the tile's own coordinates |
| Day9.EdgeCellsShape | src/main/kotlin/Day9.kt:218-232 | a diagonal pair marks nothing; an aligned pair marks both ends; every marked cell lies between the ends |
| Day9.BoundaryUpTo | src/main/kotlin/Day9.kt:209-233 | the boundary holds exactly the cells marked by some edge, the last tile wrapping to the first |
| Day9.SeedEdges | src/main/kotlin/Day9.kt:241-260 | the edge loops mark, and queue, exactly the open cells on the grid's border |
| Day9.VisitNeighbours | src/main/kotlin/Day9.kt:263-282 | one turn marks and queues the open unmarked neighbours, never marks a boundary cell, and leaves the cell closed under its neighbours |
| Day9.Flood | src/main/kotlin/Day9.kt:235-282 | the flood fill's result is the least set that holds the border seeds and every open neighbour of its cells; so it never holds a boundary cell and is closed under in-range steps onto open cells |
| Day9.ExteriorUnique | src/main/kotlin/Day9.kt:235-282 | that least set is unique |
| Day9.AllowedCells | src/main/kotlin/Day9.kt:287-294 | a cell is allowed exactly when it is on the grid and on the boundary or not outside |
| Day9.BoundaryAllowed | src/main/kotlin/Day9.kt:287-294 | every boundary cell is allowed |
| Day9.SpanArea | src/main/kotlin/Day9.kt:334-336 | the width times height from the extremes is the rectangle's area |
| Day9.LargestAllowed | src/main/kotlin/Day9.kt:297-339 | the best area is 0 or the area of some pair i < j whose whole compressed rectangle is allowed, and no such pair has a larger area |
| Day9.LargestInside | src/main/kotlin/Day9.kt:192-342 | for parsed tiles, the answer is the largest allowed area with respect to the unique exterior of the compressed loop |
| Day9.Part2 | src/main/kotlin/Day9.kt:184-342 | part 2 passes on a parse failure; otherwise it succeeds with the largest area of a pair of tiles whose compressed rectangle lies on or inside the loop (0 when there is none), measured against the exterior flooded from the grid's border |
| Day12.Rotate | src/main/kotlin/Day12.kt:103-112 | the rotation of an h×w shape is a rectangular w×h shape with the same index |
| Day12.RotateCells | src/main/kotlin/Day12.kt:103-112 | cell (r, c) of the rotation is cell (h-1-c, r) of the shape |
| Day12.RotateFour | src/main/kotlin/Day12.kt:103-112 | four rotations give the shape back |
| Day12.RotateNPeriodic | src/main/kotlin/Day12.kt:125-126 | rotating n + 4 times is rotating n times, so trying 0 to 3 rotations covers them all |
| Day12.FlipH | src/main/kotlin/Day12.kt:114-117 | `flipHorizontally` mirrors the shape left to right: the index, the number of rows and each row's length are kept, and each cell is the one at the mirrored column of its row |
| Day12.FlipV | src/main/kotlin/Day12.kt:119-122 | `flipVertically` mirrors the shape top to bottom: the index and number of rows are kept, and each row is the one at the mirrored height |
| Day12.FlipHInvolutive | src/main/kotlin/Day12.kt:114-117 | flipping horizontally twice gives the shape back |
| Day12.FlipVInvolutive | src/main/kotlin/Day12.kt:119-122 | flipping vertically twice gives the shape back |
| Day12.FlipsKeepDimensions | src/main/kotlin/Day12.kt:114-122 | both flips keep a rectangular shape rectangular, with the same height and width |
| Day12.CellCountPreserved | src/main/kotlin/Day12.kt:103-122 | a rotation and both flips keep the number of `#` cells |
| Day12.Orientations | src/main/kotlin/Day12.kt:124-129 | the orientations contain the shape itself, and all carry its index |
| Day12.OrientationsCard | src/main/kotlin/Day12.kt:124-129 | there are at most 16 orientations |
| Day12.ParseSize | src/main/kotlin/Day12.kt:148 | the size parses exactly when it splits at `x` into at least two `Int`s, the first being the width and the second the height |
| Day12.ParseRegionFields | src/main/kotlin/Day12.kt:144-151 | a line without `:` is an error; a parsed region's size and counts are those parsed from the trimmed halves around the first `:` |
| Day12.ParseShowRegion | src/main/kotlin/Day12.kt:144-151 | a region written as `WxH: c0 c1 ...` parses back to its width, height and counts |
| Day12.ParseRegions | src/main/kotlin/Day12.kt:144-151 | the region lines parse exactly when every line does, and then each gives its region in order; otherwise the error is that of the first line that fails |
| Day12.ShapeTableKeys | src/main/kotlin/Day12.kt:137-142 | the shape table has an entry for exactly the indices the shapes carry |
| Day12.ShapeTableLatest | src/main/kotlin/Day12.kt:137-142 | an index maps to the cell count of the last shape carrying it |
| Day12.NeededFrom | src/main/kotlin/Day12.kt:157-159 | the cells needed are found exactly when every listed present type has a shape; otherwise the error names a listed type without one |
| Day12.NeededMonotone | src/main/kotlin/Day12.kt:157-161 | asking for fewer presents never needs more cells |
| Day12.CountFits | src/main/kotlin/Day12.kt:153-162 | the count is the number of regions whose needed cells fit in width × height, so at most the number of regions |
| Day12.Part1 | src/main/kotlin/Day12.kt:133-163 | part 1 fails on an ill-formed shape, a bad region line or a missing shape; otherwise it counts exactly the regions that fit, at most one per line |

## Left out

- The `main` functions read input files and print answers. They are I/O and are not modelled. So are the progress `println`s inside `Day8.solvePart2` and `Day9.solvePart2`.
- `build.gradle.kts` is build configuration. It is not part of this model.
- Kotlin's 32-bit `Int` and 64-bit `Long` arithmetic is modelled with unbounded integers. Sums, products and areas do not wrap around. Parsing still enforces the `Int`/`Long` ranges.
- Day 8 distances are `Double` square roots in the source. The model uses the integer squared distance. `Day8.RootOrder` shows that square roots and squares order pairs the same way, so `sqrt`'s rounding is not modelled.
- Day 8 circuit ids are random UUIDs in the source. The model hands them out from a counter, so two fresh ids never collide.
- Day8.Settle: part 2's `while` loop gets a step budget (`fuel`), because the model cannot prove the loop ends on every input. When the budget runs out, the result is `OutOfFuel`. Inputs whose loop would never stop return that error instead of running forever.
- The sample answers in the source's documentation comments are not asserted. These are 13 and 43 (Day 4), 4277556 and 3263827 (Day 6), 50 and 24 (Day 9), 40 and 25272 (Day 8), and 2 (Day 12). Evaluating the solvers on them is not something the verifier does symbolically. For Day 8, the `<= lastDistance` mask skips pairs at the same distance as the previous one, so tie behaviour is not shown to match. For Day 12, the area check is not the packing the puzzle asks for.
- Day 12 `solvePart2` is a stub that returns 0. It is not modelled.
- Day 12 splits the input into sections and builds the shape table from each section's header line (Day12.kt:135-142). This is not modelled. `Day12.Part1` receives the already-parsed shapes and the region lines.
- Real two-dimensional packing of presents into regions is not modelled, since the source only compares areas.
- Day 9 `LineSegment` and its helpers are unused by the solvers. They are not modelled.
- `Char.isWhitespace` is modelled on the ASCII range only. `toInt`/`toLong` accept ASCII digits only, not other Unicode digits.
- Day 8 `Circuit.distanceTo` is never called by the solvers. It is not modelled.
- Day4.Part1 and Day4.Part2: they require a non-empty grid with no row shorter than the first (`WellFormed`). On other grids the source throws an index exception, which is not modelled.

=== FILE: day12.dfy ===
/** Day 12, "Christmas Tree Farm": present shapes drawn with '#' cells, and
    regions `WxH: c0 c1 ...` asking for c_i presents of shape i. The shapes
    can be rotated and flipped; part 1 only checks that the presents' cells
    add up to no more than the region's area. */
module Day12 {
  import opened Results
  import opened Text

  const HASH: char := '#'

  datatype PresentShape = PresentShape(index: int, shape: seq<string>)

  datatype Region = Region(height: int, width: int, counts: seq<int>)

  datatype Error =
    | BadShape(index: int)           // `getAllOrientations` reads past a row or builds an empty shape
    | MissingCounts(line: string)    // no ':' in a region line, so `parts[1]` throws
    | BadNumber(token: string)       // `toInt()` fails
    | MissingDimension(line: string) // `val (width, height)` on fewer than two numbers
    | MissingShape(presentType: int) // `presentShapes[presentType]!!` on an unknown index

  // ---------------------------------------------------------------- shapes

  function Height(p: PresentShape): nat {
    |p.shape|
  }

  function Width(p: PresentShape): nat
    requires |p.shape| > 0
  {
    |p.shape[0]|
  }

  /** What `getAllOrientations` needs: a first row (the constructor reads
      it), a non-empty one (a rotation of a zero-width shape has no rows),
      and no row shorter than it (rotation reads every row up to that
      width). */
  predicate WellFormed(p: PresentShape) {
    && |p.shape| > 0
    && |p.shape[0]| > 0
    && forall r :: 0 <= r < |p.shape| ==> |p.shape[r]| >= |p.shape[0]|
  }

  predicate Rectangular(p: PresentShape) {
    && |p.shape| > 0
    && |p.shape[0]| > 0
    && forall r :: 0 <= r < |p.shape| ==> |p.shape[r]| == |p.shape[0]|
  }

  /** `rotate`: a quarter turn clockwise. Row `r` of the result is column `r`
      read from the bottom up. */
  function Rotate(p: PresentShape): (q: PresentShape)
    requires WellFormed(p)
    ensures q.index == p.index && Rectangular(q)
    ensures Height(q) == Width(p) && Width(q) == Height(p)
  {
    var h, w := |p.shape|, |p.shape[0]|;
    PresentShape(p.index, seq(w, r requires 0 <= r < w =>
                                seq(h, c requires 0 <= c < h => p.shape[h - 1 - c][r])))
  }

  /** Cell (r, c) of the rotation is cell (h-1-c, r) of the shape. */
  lemma RotateCells(p: PresentShape)
    requires WellFormed(p)
    ensures forall r, c :: 0 <= r < Width(p) && 0 <= c < Height(p) ==>
              Rotate(p).shape[r][c] == p.shape[Height(p) - 1 - c][r]
  {
  }

  function Reverse<T>(s: seq<T>): (r: seq<T>)
    ensures |r| == |s| && forall i :: 0 <= i < |s| ==> r[i] == s[|s| - 1 - i]
  {
    seq(|s|, i requires 0 <= i < |s| => s[|s| - 1 - i])
  }

  lemma ReverseReverse<T>(s: seq<T>)
    ensures Reverse(Reverse(s)) == s
  {
  }

  /** `flipHorizontally`: every row reversed, so each cell moves to the
      mirror position in its own row. */
  function FlipH(p: PresentShape): (q: PresentShape)
    ensures q.index == p.index && |q.shape| == |p.shape|
    ensures forall r :: 0 <= r < |p.shape| ==> |q.shape[r]| == |p.shape[r]|
    ensures forall r, c :: 0 <= r < |p.shape| && 0 <= c < |p.shape[r]| ==>
              q.shape[r][c] == p.shape[r][|p.shape[r]| - 1 - c]
  {
    PresentShape(p.index, seq(|p.shape|, r requires 0 <= r < |p.shape| => Reverse(p.shape[r])))
  }

  /** `flipVertically`: the rows in reverse order, so each row moves to the
      mirror position, unchanged. */
  function FlipV(p: PresentShape): (q: PresentShape)
    ensures q.index == p.index && |q.shape| == |p.shape|
    ensures forall r :: 0 <= r < |p.shape| ==> q.shape[r] == p.shape[|p.shape| - 1 - r]
  {
    PresentShape(p.index, Reverse(p.shape))
  }

  /** Flipping horizontally twice gives the shape back. */
  lemma FlipHInvolutive(p: PresentShape)
    ensures FlipH(FlipH(p)) == p
  {
    forall r | 0 <= r < |p.shape| ensures FlipH(FlipH(p)).shape[r] == p.shape[r] {
      ReverseReverse(p.shape[r]);
    }
  }

  /** Flipping vertically twice gives the shape back. */
  lemma FlipVInvolutive(p: PresentShape)
    ensures FlipV(FlipV(p)) == p
  {
    ReverseReverse(p.shape);
  }

  /** Both flips keep a rectangular shape rectangular, with the same
      dimensions. */
  lemma FlipsKeepDimensions(p: PresentShape)
    requires Rectangular(p)
    ensures Rectangular(FlipH(p)) && Height(FlipH(p)) == Height(p) && Width(FlipH(p)) == Width(p)
    ensures Rectangular(FlipV(p)) && Height(FlipV(p)) == Height(p) && Width(FlipV(p)) == Width(p)
  {
  }

  /** A half turn sends cell (i, j) to the opposite corner. */
  lemma RotateTwice(p: PresentShape)
    requires Rectangular(p)
    ensures var q := Rotate(Rotate(p));
            && Rectangular(q) && Height(q) == Height(p) && Width(q) == Width(p) && q.index == p.index
            && forall i, j :: 0 <= i < Height(p) && 0 <= j < Width(p) ==>
                 q.shape[i][j] == p.shape[Height(p) - 1 - i][Width(p) - 1 - j]
  {
    RotateCells(p);
    RotateCells(Rotate(p));
  }

  /** Four quarter turns are the identity on a rectangular shape, which is
      why `getAllOrientations` stops after three. */
  lemma RotateFour(p: PresentShape)
    requires Rectangular(p)
    ensures Rotate(Rotate(Rotate(Rotate(p)))) == p
  {
    var q := Rotate(Rotate(p));
    RotateTwice(p);
    RotateTwice(q);
    var q2 := Rotate(Rotate(q));
    forall i | 0 <= i < Height(p) ensures q2.shape[i] == p.shape[i] {
      assert |q2.shape[i]| == |p.shape[i]|;
    }
  }

  /** `(0 until n).fold(this) { acc, _ -> acc.rotate() }`. */
  function RotateN(p: PresentShape, n: nat): (q: PresentShape)
    requires WellFormed(p)
    ensures WellFormed(q) && q.index == p.index
    ensures n > 0 ==> Rectangular(q)
  {
    if n == 0 then p else Rotate(RotateN(p, n - 1))
  }

  lemma RotateNPeriodic(p: PresentShape, n: nat)
    requires Rectangular(p)
    ensures RotateN(p, n + 4) == RotateN(p, n)
  {
    if n == 0 {
      assert RotateN(p, 1) == Rotate(p);
      assert RotateN(p, 2) == Rotate(Rotate(p));
      assert RotateN(p, 3) == Rotate(Rotate(Rotate(p)));
      assert RotateN(p, 4) == Rotate(Rotate(Rotate(Rotate(p))));
      RotateFour(p);
    } else {
      RotateNPeriodic(p, n - 1);
    }
  }

  /** The four shapes `getAllOrientations` lists for one rotation. */
  function Variants(q: PresentShape): set<PresentShape> {
    {q, FlipV(q), FlipH(q), FlipH(FlipV(q))}
  }

  lemma VariantsIndex(q: PresentShape)
    ensures q in Variants(q)
    ensures forall x :: x in Variants(q) ==> x.index == q.index
  {
  }

  lemma UnionCard<T>(a: set<T>, b: set<T>)
    ensures |a + b| <= |a| + |b|
  {
    assert a + b == a + (b - a);
    assert |b - a| <= |b| by {
      assert b == (b - a) + (b * a);
    }
  }

  lemma VariantsCard(q: PresentShape)
    ensures |Variants(q)| <= 4
  {
    var a, b, c, d := q, FlipV(q), FlipH(q), FlipH(FlipV(q));
    UnionCard({a, b}, {c, d});
    assert Variants(q) == {a, b} + {c, d};
  }

  /** `getAllOrientations`: 0 to 3 quarter turns, each with its flips. */
  function Orientations(p: PresentShape): (o: set<PresentShape>)
    requires WellFormed(p)
    ensures p in o
    ensures forall q :: q in o ==> q.index == p.index
  {
    var r0, r1, r2, r3 := RotateN(p, 0), RotateN(p, 1), RotateN(p, 2), RotateN(p, 3);
    VariantsIndex(r0);
    VariantsIndex(r1);
    VariantsIndex(r2);
    VariantsIndex(r3);
    Variants(r0) + Variants(r1) + Variants(r2) + Variants(r3)
  }

  /** There are at most 16 orientations. */
  lemma OrientationsCard(p: PresentShape)
    requires WellFormed(p)
    ensures |Orientations(p)| <= 16
  {
    var r0, r1, r2, r3 := RotateN(p, 0), RotateN(p, 1), RotateN(p, 2), RotateN(p, 3);
    var v0, v1, v2, v3 := Variants(r0), Variants(r1), Variants(r2), Variants(r3);
    VariantsCard(r0);
    VariantsCard(r1);
    VariantsCard(r2);
    VariantsCard(r3);
    UnionCard(v0, v1);
    UnionCard(v0 + v1, v2);
    UnionCard(v0 + v1 + v2, v3);
  }

  // -------------------------------------------------------------- counting

  function Hit(s: string, j: int): nat {
    if 0 <= j < |s| && s[j] == HASH then 1 else 0
  }

  /** The '#' cells among the first `k` characters of a row. */
  function CountPrefix(s: string, k: nat): nat {
    if k == 0 then 0 else CountPrefix(s, k - 1) + Hit(s, k - 1)
  }

  /** `row.count { it == '#' }`. */
  function RowCount(s: string): nat {
    CountPrefix(s, |s|)
  }

  /** `shape.sumOf { row -> row.count { it == '#' } }`. */
  function CellCount(shape: seq<string>): nat {
    if |shape| == 0 then 0 else CellCount(shape[..|shape| - 1]) + RowCount(shape[|shape| - 1])
  }

  /** The '#' cells in column `r` of the first `k` rows. */
  function ColCount(shape: seq<string>, r: int, k: nat): nat
    requires k <= |shape|
  {
    if k == 0 then 0 else ColCount(shape, r, k - 1) + Hit(shape[k - 1], r)
  }

  /** The column counts of the first `w` columns, over the first `k` rows. */
  function ColSum(shape: seq<string>, w: nat, k: nat): nat
    requires k <= |shape|
  {
    if w == 0 then 0 else ColSum(shape, w - 1, k) + ColCount(shape, w - 1, k)
  }

  lemma {:induction false} ColSumStep(shape: seq<string>, w: nat, k: nat)
    requires k < |shape|
    ensures ColSum(shape, w, k + 1) == ColSum(shape, w, k) + CountPrefix(shape[k], w)
  {
    if w > 0 {
      ColSumStep(shape, w - 1, k);
    }
  }

  /** Counting by columns gives the same as counting by rows. */
  lemma {:induction false} ColSumRows(shape: seq<string>, w: nat, k: nat)
    requires k <= |shape|
    requires forall i :: 0 <= i < k ==> |shape[i]| == w
    ensures ColSum(shape, w, k) == CellCount(shape[..k])
  {
    if k == 0 {
      ColSumZero(shape, w);
    } else {
      ColSumRows(shape, w, k - 1);
      ColSumStep(shape, w, k - 1);
      assert shape[..k][..k - 1] == shape[..k - 1];
    }
  }

  /** Base case of `ColSumRows`: no rows give a zero sum at every width. */
  lemma {:induction false} ColSumZero(shape: seq<string>, w: nat)
    ensures ColSum(shape, w, 0) == 0
  {
    if w > 0 {
      ColSumZero(shape, w - 1);
    }
  }

  /** A row read backwards: its first `m` characters are the last `m` of
      the original. */
  lemma {:induction false} CountReversed(s: string, m: nat)
    requires m <= |s|
    ensures CountPrefix(Reverse(s), m) + CountPrefix(s, |s| - m) == RowCount(s)
  {
    if m > 0 {
      CountReversed(s, m - 1);
    }
  }

  /** A rotated row is a column read bottom up. */
  lemma {:induction false} CountRotatedRow(p: PresentShape, r: nat, m: nat)
    requires WellFormed(p) && r < Width(p) && m <= Height(p)
    ensures CountPrefix(Rotate(p).shape[r], m) + ColCount(p.shape, r, Height(p) - m) == ColCount(p.shape, r, Height(p))
  {
    if m > 0 {
      CountRotatedRow(p, r, m - 1);
      RotateCells(p);
    }
  }

  lemma {:induction false} CountRotatedRows(p: PresentShape, k: nat)
    requires WellFormed(p) && k <= Width(p)
    ensures CellCount(Rotate(p).shape[..k]) == ColSum(p.shape, k, Height(p))
  {
    if k > 0 {
      var q := Rotate(p);
      CountRotatedRows(p, k - 1);
      assert q.shape[..k][..k - 1] == q.shape[..k - 1];
      CountRotatedRow(p, k - 1, Height(p));
    }
  }

  lemma {:induction false} CellCountRowwise(a: seq<string>, b: seq<string>)
    requires |a| == |b|
    requires forall i :: 0 <= i < |a| ==> RowCount(a[i]) == RowCount(b[i])
    ensures CellCount(a) == CellCount(b)
  {
    if |a| > 0 {
      CellCountRowwise(a[..|a| - 1], b[..|b| - 1]);
    }
  }

  lemma {:induction false} CellCountReversed(shape: seq<string>, m: nat)
    requires m <= |shape|
    ensures CellCount(Reverse(shape)[..m]) + CellCount(shape[..|shape| - m]) == CellCount(shape)
  {
    if m == 0 {
      assert shape[..|shape|] == shape;
    } else {
      CellCountReversed(shape, m - 1);
      var n := |shape|;
      assert Reverse(shape)[..m][..m - 1] == Reverse(shape)[..m - 1];
      assert shape[..n - m + 1][..n - m] == shape[..n - m];
      assert CellCount(shape[..n - m + 1]) == CellCount(shape[..n - m]) + RowCount(shape[n - m]);
    }
  }

  /** A rotation and both flips keep the number of '#' cells of a
      rectangular shape. */
  lemma CellCountPreserved(p: PresentShape)
    requires Rectangular(p)
    ensures CellCount(Rotate(p).shape) == CellCount(p.shape)
    ensures CellCount(FlipH(p).shape) == CellCount(p.shape)
    ensures CellCount(FlipV(p).shape) == CellCount(p.shape)
  {
    var q := Rotate(p);
    CountRotatedRows(p, Width(p));
    assert q.shape[..Width(p)] == q.shape;
    ColSumRows(p.shape, Width(p), Height(p));
    assert p.shape[..Height(p)] == p.shape;
    forall r | 0 <= r < |p.shape| ensures RowCount(FlipH(p).shape[r]) == RowCount(p.shape[r]) {
      CountReversed(p.shape[r], |p.shape[r]|);
    }
    CellCountRowwise(FlipH(p).shape, p.shape);
    CellCountReversed(p.shape, |p.shape|);
    assert Reverse(p.shape)[..|p.shape|] == Reverse(p.shape);
  }

  // --------------------------------------------------------------- regions

  /** `sizePart.split("x").map { it.toInt() }` destructured as
      `(width, height)`. */
  function ParseSize(text: string): (r: Result<(int, int), Error>)
    ensures r.Ok? <==> ParseInts(Split(text, 'x')).Ok? && |Split(text, 'x')| >= 2
    ensures r.Ok? ==> var dims := ParseInts(Split(text, 'x')).value;
                      r.value == (dims[0], dims[1])
  {
    var dims :- ParseInts(Split(text, 'x')).MapError(t => BadNumber(t));
    if |dims| < 2 then Err(MissingDimension(text)) else Ok((dims[0], dims[1]))
  }

  /** `countsPart.split(" ").map { it.toInt() }`: a double space or an empty
      count list leaves an empty piece, which does not parse. */
  function ParseCounts(text: string): Result<seq<int>, Error> {
    ParseInts(Split(text, ' ')).MapError(t => BadNumber(t))
  }

  /** One region line `WxH: c0 c1 ...`: split at ':', both halves trimmed,
      then the size and the counts. */
  function ParseRegion(line: string): Result<Region, Error> {
    var parts := Split(line, ':');
    if |parts| < 2 then Err(MissingCounts(line))
    else
      var size :- ParseSize(Trim(parts[0]));
      var counts :- ParseCounts(Trim(parts[1]));
      Ok(Region(size.1, size.0, counts))
  }

  /** A line without ':' is an error; a parsed region is exactly the size
      and counts of the two trimmed halves. */
  lemma ParseRegionFields(line: string)
    ensures |Split(line, ':')| < 2 ==> ParseRegion(line) == Err(MissingCounts(line))
    ensures var r := ParseRegion(line);
            r.Ok? ==> var parts := Split(line, ':');
                      && |parts| >= 2
                      && ParseSize(Trim(parts[0])) == Ok((r.value.width, r.value.height))
                      && ParseCounts(Trim(parts[1])) == Ok(r.value.counts)
  {
    var parts := Split(line, ':');
    if |parts| >= 2 {
      var size := ParseSize(Trim(parts[0]));
      var counts := ParseCounts(Trim(parts[1]));
      if size.Ok? && counts.Ok? {
        assert ParseRegion(line) == Ok(Region(size.value.1, size.value.0, counts.value));
      }
    }
  }

  function ShowAll(values: seq<int>): (r: seq<string>)
    ensures |r| == |values| && forall i :: 0 <= i < |values| ==> r[i] == ShowInt(values[i])
  {
    seq(|values|, i requires 0 <= i < |values| => ShowInt(values[i]))
  }

  function SizeText(width: int, height: int): string {
    ShowInt(width) + "x" + ShowInt(height)
  }

  function CountsText(counts: seq<int>): string
    requires |counts| >= 1
  {
    " " + Join(ShowAll(counts), ' ')
  }

  /** The line a region is written as: `WxH`, then ':', then the counts,
      each after one space. */
  function ShowRegion(r: Region): string
    requires |r.counts| >= 1
  {
    Join([SizeText(r.width, r.height), CountsText(r.counts)], ':')
  }

  predicate InIntRange(v: int) {
    INT_MIN <= v <= INT_MAX
  }

  /** Splitting numbers rendered and joined with `sep` gives back the
      numbers. */
  lemma ParseShowAll(values: seq<int>, sep: char)
    requires |values| >= 1 && sep != '-' && !IsDigit(sep)
    requires forall i :: 0 <= i < |values| ==> InIntRange(values[i])
    ensures ParseInts(Split(Join(ShowAll(values), sep), sep)) == Ok(values)
  {
    var parts := ShowAll(values);
    forall i | 0 <= i < |parts| ensures sep !in parts[i] && ParseInteger(parts[i], INT_MIN, INT_MAX) == Some(values[i]) {
      ShowIntChars(values[i]);
      ParseShowInt(values[i], INT_MIN, INT_MAX);
    }
    SplitJoin(parts, sep);
    var got := ParseInts(parts);
    assert got.Ok?;
    assert got.value == values by {
      assert forall i :: 0 <= i < |values| ==> Some(got.value[i]) == Some(values[i]);
    }
  }

  /** The size half of a written region parses back, trimmed or not. */
  lemma SizeRoundTrip(width: int, height: int)
    requires InIntRange(width) && InIntRange(height)
    ensures ':' !in SizeText(width, height) && ParseSize(Trim(SizeText(width, height))) == Ok((width, height))
  {
    var size := SizeText(width, height);
    SizeTextShape(width, height);
    ParseShowAll([width, height], 'x');
    assert ParseInts(Split(size, 'x')) == Ok([width, height]);
  }

  /** The size text is the two numbers joined with 'x'; it holds no ':' and
      is its own trim. */
  lemma SizeTextShape(width: int, height: int)
    ensures var size := SizeText(width, height);
            && size == Join(ShowAll([width, height]), 'x')
            && ':' !in size && Trim(size) == size
  {
    var a, b := ShowInt(width), ShowInt(height);
    assert ShowAll([width, height]) == [a, b];
    assert Join([a, b], 'x') == a + "x" + b by {
      assert Join([a, b][1..], 'x') == b;
    }
    ShowIntChars(width);
    ShowIntChars(height);
    GluedNumber(a, b);
  }

  /** Two renderings glued with 'x' hold no ':' and are their own trim. */
  lemma GluedNumber(a: string, b: string)
    requires |a| >= 1 && |b| >= 1
    requires forall i :: 0 <= i < |a| ==> IsDigit(a[i]) || (i == 0 && a[i] == '-')
    requires IsDigit(b[|b| - 1])
    requires forall i :: 0 <= i < |b| ==> IsDigit(b[i]) || (i == 0 && b[i] == '-')
    ensures ':' !in a + "x" + b && Trim(a + "x" + b) == a + "x" + b
  {
    var size := a + "x" + b;
    assert ':' !in size by {
      assert ':' !in a && ':' !in b;
    }
    assert size[0] == a[0];
    assert size[|size| - 1] == b[|b| - 1];
    TrimUnchanged(size);
  }

  /** The counts half, with its leading space, parses back too. */
  lemma CountsRoundTrip(counts: seq<int>)
    requires |counts| >= 1
    requires forall i :: 0 <= i < |counts| ==> InIntRange(counts[i])
    ensures ':' !in CountsText(counts) && ParseCounts(Trim(CountsText(counts))) == Ok(counts)
  {
    var parts := ShowAll(counts);
    var joined := Join(parts, ' ');
    forall i | 0 <= i < |counts| ensures ':' !in parts[i] && |parts[i]| >= 1 {
      ShowIntChars(counts[i]);
    }
    JoinAvoids(parts, ' ', ':');
    JoinEnds(parts, ' ');
    ShowIntChars(counts[0]);
    ShowIntChars(counts[|counts| - 1]);
    TrimPadded(joined);
    ParseShowAll(counts, ' ');
  }

  /** A line made of a size part and a counts part, neither holding ':',
      parses to the region both parts describe. */
  lemma ParseRegionOfParts(size: string, rest: string, r: Region)
    requires ':' !in size && ':' !in rest
    requires ParseSize(Trim(size)) == Ok((r.width, r.height))
    requires ParseCounts(Trim(rest)) == Ok(r.counts)
    ensures ParseRegion(Join([size, rest], ':')) == Ok(r)
  {
    SplitJoinTwo(size, rest, ':');
    RegionOfSplit(Join([size, rest], ':'), [size, rest], r);
  }

  lemma SplitJoinTwo(a: string, b: string, sep: char)
    requires sep !in a && sep !in b
    ensures Split(Join([a, b], sep), sep) == [a, b]
  {
    SplitJoin([a, b], sep);
  }

  /** A line whose first two ':'-separated pieces parse as a size and as
      counts parses to the region they describe. */
  lemma RegionOfSplit(line: string, parts: seq<string>, r: Region)
    requires Split(line, ':') == parts && |parts| >= 2
    requires ParseSize(Trim(parts[0])) == Ok((r.width, r.height))
    requires ParseCounts(Trim(parts[1])) == Ok(r.counts)
    ensures ParseRegion(line) == Ok(r)
  {
  }

  /** Writing a region out and parsing it back gives the region, whenever
      it has at least one count and all numbers fit in an `Int`. */
  lemma ParseShowRegion(r: Region)
    requires |r.counts| >= 1
    requires InIntRange(r.width) && InIntRange(r.height)
    requires forall i :: 0 <= i < |r.counts| ==> InIntRange(r.counts[i])
    ensures ParseRegion(ShowRegion(r)) == Ok(r)
  {
    SizeRoundTrip(r.width, r.height);
    CountsRoundTrip(r.counts);
    ParseRegionOfParts(SizeText(r.width, r.height), CountsText(r.counts), r);
  }

  function ParseRegions(lines: seq<string>): (r: Result<seq<Region>, Error>)
    ensures r.Ok? ==> |r.value| == |lines|
    ensures r.Ok? ==> forall k :: 0 <= k < |lines| ==> ParseRegion(lines[k]) == Ok(r.value[k])
    ensures r.Ok? <==> forall k :: 0 <= k < |lines| ==> ParseRegion(lines[k]).Ok?
    ensures r.Err? ==> exists k :: 0 <= k < |lines| && ParseRegion(lines[k]) == Err(r.error)
                                   && forall j :: 0 <= j < k ==> ParseRegion(lines[j]).Ok?
  {
    MapAll(ParseRegion, lines)
  }

  // ---------------------------------------------------------------- part 1

  function Indices(shapes: seq<PresentShape>): set<int> {
    set i | 0 <= i < |shapes| :: shapes[i].index
  }

  /** `presentShapes` reduced to what part 1 reads: each index to its
      shape's cell count, a later shape with the same index replacing an
      earlier one. */
  function ShapeTable(shapes: seq<PresentShape>): map<int, nat> {
    if |shapes| == 0 then map[]
    else
      var last := shapes[|shapes| - 1];
      ShapeTable(shapes[..|shapes| - 1])[last.index := CellCount(last.shape)]
  }

  /** The table has an entry for exactly the indices the shapes carry. */
  lemma {:induction false} ShapeTableKeys(shapes: seq<PresentShape>)
    ensures ShapeTable(shapes).Keys == Indices(shapes)
  {
    if |shapes| > 0 {
      ShapeTableKeys(shapes[..|shapes| - 1]);
      IndicesSnoc(shapes);
    }
  }

  lemma IndicesSnoc(shapes: seq<PresentShape>)
    requires |shapes| > 0
    ensures Indices(shapes) == Indices(shapes[..|shapes| - 1]) + {shapes[|shapes| - 1].index}
  {
    var init := shapes[..|shapes| - 1];
    assert forall i :: 0 <= i < |init| ==> init[i] == shapes[i];
  }

  /** The count an index maps to is the one of the last shape carrying it. */
  lemma {:induction false} ShapeTableLatest(shapes: seq<PresentShape>, i: nat)
    requires i < |shapes|
    requires forall j :: i < j < |shapes| ==> shapes[j].index != shapes[i].index
    ensures shapes[i].index in ShapeTable(shapes)
    ensures ShapeTable(shapes)[shapes[i].index] == CellCount(shapes[i].shape)
  {
    var n := |shapes|;
    if i < n - 1 {
      var init := shapes[..n - 1];
      assert forall j :: i < j < n - 1 ==> init[j] == shapes[j];
      ShapeTableLatest(init, i);
    }
  }

  /** The cells needed by the counts from position `i` on:
      `count * presentShapes[presentType]!!.second`, summed. */
  function NeededFrom(counts: seq<int>, table: map<int, nat>, i: nat): (r: Result<int, Error>)
    requires i <= |counts|
    ensures r.Ok? <==> forall t :: i <= t < |counts| ==> t in table
    ensures r.Err? ==> r.error.MissingShape? && i <= r.error.presentType < |counts|
                       && r.error.presentType !in table
                       && forall t :: i <= t < r.error.presentType ==> t in table
    decreases |counts| - i
  {
    if i == |counts| then Ok(0)
    else if i !in table then Err(MissingShape(i))
    else
      var rest :- NeededFrom(counts, table, i + 1);
      Ok(counts[i] * table[i] + rest)
  }

  function Needed(counts: seq<int>, table: map<int, nat>): Result<int, Error> {
    NeededFrom(counts, table, 0)
  }

  /** A region fits when its presents need no more cells than it has. */
  predicate Fits(region: Region, table: map<int, nat>)
    requires Needed(region.counts, table).Ok?
  {
    Needed(region.counts, table).value <= region.height * region.width
  }

  /** Asking for fewer presents never needs more cells, so a region that
      fits keeps fitting when counts go down. */
  lemma {:induction false} NeededMonotone(a: seq<int>, b: seq<int>, table: map<int, nat>, i: nat)
    requires |a| == |b| && i <= |a|
    requires forall t :: 0 <= t < |a| ==> a[t] <= b[t]
    requires NeededFrom(b, table, i).Ok?
    ensures NeededFrom(a, table, i).Ok?
    ensures NeededFrom(a, table, i).value <= NeededFrom(b, table, i).value
    decreases |a| - i
  {
    if i < |a| {
      NeededMonotone(a, b, table, i + 1);
      var c := table[i];
      assert a[i] * c <= b[i] * c by {
        assert (b[i] - a[i]) * c >= 0;
      }
    }
  }

  /** The regions among the first `k` that fit, in order; the first region
      naming an unknown shape stops the count. */
  function CountFits(regions: seq<Region>, table: map<int, nat>, k: nat): (r: Result<nat, Error>)
    requires k <= |regions|
    ensures r.Ok? <==> forall j :: 0 <= j < k ==> Needed(regions[j].counts, table).Ok?
    ensures r.Ok? ==> r.value <= k
    ensures r.Ok? ==> r.value == |set j | 0 <= j < k && Fits(regions[j], table)|
  {
    if k == 0 then Ok(0)
    else
      var n :- CountFits(regions, table, k - 1);
      var need :- Needed(regions[k - 1].counts, table);
      var more: nat := if need <= regions[k - 1].height * regions[k - 1].width then 1 else 0;
      FitsStep(regions, table, k);
      Ok(n + more)
  }

  lemma FitsStep(regions: seq<Region>, table: map<int, nat>, k: nat)
    requires 0 < k <= |regions|
    requires forall j :: 0 <= j < k ==> Needed(regions[j].counts, table).Ok?
    ensures var before := set j | 0 <= j < k - 1 && Fits(regions[j], table);
            var after := set j | 0 <= j < k && Fits(regions[j], table);
            && (Fits(regions[k - 1], table) ==> after == before + {k - 1} && k - 1 !in before)
            && (!Fits(regions[k - 1], table) ==> after == before)
  {
  }

  function FirstBadShape(shapes: seq<PresentShape>): (r: Option<nat>)
    ensures r.None? <==> forall i :: 0 <= i < |shapes| ==> WellFormed(shapes[i])
    ensures r.Some? ==> r.value < |shapes| && !WellFormed(shapes[r.value])
                        && forall i :: 0 <= i < r.value ==> WellFormed(shapes[i])
  {
    if |shapes| == 0 then None
    else if !WellFormed(shapes[0]) then Some(0)
    else
      match FirstBadShape(shapes[1..])
      case None => None
      case Some(i) => Some(i + 1)
  }

  /** `solvePart1` from the parsed shapes and the region lines: every
      shape's orientations are built first, then every region is parsed,
      then the regions whose presents' cells fit in their area are counted. */
  function Part1(shapes: seq<PresentShape>, lines: seq<string>): (r: Result<nat, Error>)
    ensures r.Ok? <==> && (forall i :: 0 <= i < |shapes| ==> WellFormed(shapes[i]))
                       && ParseRegions(lines).Ok?
                       && forall k :: 0 <= k < |lines| ==>
                            Needed(ParseRegions(lines).value[k].counts, ShapeTable(shapes)).Ok?
    ensures r.Ok? ==> r.value <= |lines|
    ensures r.Ok? ==> r.value == |set k | 0 <= k < |lines| && Fits(ParseRegions(lines).value[k], ShapeTable(shapes))|
    ensures FirstBadShape(shapes).Some? ==> r == Err(BadShape(shapes[FirstBadShape(shapes).value].index))
  {
    match FirstBadShape(shapes)
    case Some(i) => Err(BadShape(shapes[i].index))
    case None =>
      var regions :- ParseRegions(lines);
      CountFits(regions, ShapeTable(shapes), |regions|)
  }
}

=== FILE: day4.dfy ===
/** Day 4, "Printing Department": rolls of paper ('@') on a character grid.
    A roll is accessible when fewer than four of its eight neighbours are
    rolls; part 1 counts the accessible rolls, part 2 keeps removing every
    accessible roll at once until none is left. */
module Day4 {

  type Grid = seq<seq<char>>

  /** A position as (row, column). */
  type Cell = (int, int)

  const ROLL: char := '@'
  const EMPTY: char := '.'

  /** The solver takes the width from the first row and indexes every row
      below that width, so it needs a first row and no row shorter than it. */
  predicate WellFormed(g: Grid) {
    |g| > 0 && forall r :: 0 <= r < |g| ==> |g[r]| >= |g[0]|
  }

  function Width(g: Grid): nat
    requires |g| > 0
  {
    |g[0]|
  }

  predicate InRange(g: Grid, r: int, c: int)
    requires |g| > 0
  {
    0 <= r < |g| && 0 <= c < Width(g)
  }

  /** `hasRollInMap`: positions outside the grid hold no roll. */
  predicate HasRoll(g: Grid, r: int, c: int)
    requires WellFormed(g)
  {
    if !InRange(g, r, c) then false else g[r][c] == ROLL
  }

  /** Every roll of the grid, as a set of cells. */
  function Rolls(g: Grid): set<Cell>
    requires WellFormed(g)
  {
    set r, c | 0 <= r < |g| && 0 <= c < Width(g) && g[r][c] == ROLL :: (r, c)
  }

  lemma HasRollIsRolls(g: Grid, r: int, c: int)
    requires WellFormed(g)
    ensures HasRoll(g, r, c) <==> (r, c) in Rolls(g)
    ensures HasRoll(g, r, c) ==> InRange(g, r, c)
  {
  }

  // ------------------------------------------------------------ neighbours

  /** The eight neighbour offsets, in the order of the Kotlin solver's `dr`/`dc`
      loops with the centre skipped. */
  const OFFSETS: seq<(int, int)> :=
    [(-1, -1), (-1, 0), (-1, 1), (0, -1), (0, 1), (1, -1), (1, 0), (1, 1)]

  function CountOver(g: Grid, r: int, c: int, offs: seq<(int, int)>): (n: nat)
    requires WellFormed(g)
    ensures n <= |offs|
  {
    if |offs| == 0 then 0
    else CountOver(g, r, c, offs[..|offs| - 1])
         + (if HasRoll(g, r + offs[|offs| - 1].0, c + offs[|offs| - 1].1) then 1 else 0)
  }

  /** The rolls among the eight cells around (r, c); the centre is not one. */
  function NeighbourRolls(g: Grid, r: int, c: int): set<Cell>
    requires WellFormed(g)
  {
    set q | q in Rolls(g) && q != (r, c) && r - 1 <= q.0 <= r + 1 && c - 1 <= q.1 <= c + 1
  }

  /** `countRollsAround`: the number of neighbouring rolls, at most eight. */
  function CountAround(g: Grid, r: int, c: int): (n: nat)
    requires WellFormed(g)
    ensures n <= 8
  {
    CountOver(g, r, c, OFFSETS)
  }

  /** The rolls around (r, c) whose offset from it is one of `offs`. */
  function Reached(g: Grid, r: int, c: int, offs: seq<(int, int)>): set<Cell>
    requires WellFormed(g)
  {
    set q | q in Rolls(g) && (q.0 - r, q.1 - c) in offs
  }

  lemma ReachedSnoc(g: Grid, r: int, c: int, init: seq<(int, int)>, d: (int, int))
    requires WellFormed(g) && d !in init
    ensures var q := (r + d.0, c + d.1);
            Reached(g, r, c, init + [d])
            == Reached(g, r, c, init) + (if HasRoll(g, q.0, q.1) then {q} else {})
    ensures (r + d.0, c + d.1) !in Reached(g, r, c, init)
  {
    HasRollIsRolls(g, r + d.0, c + d.1);
  }

  /** The last offset of a duplicate-free list is not among the others. */
  lemma LastNotInInit(offs: seq<(int, int)>)
    requires |offs| > 0
    requires forall i, j :: 0 <= i < j < |offs| ==> offs[i] != offs[j]
    ensures offs[|offs| - 1] !in offs[..|offs| - 1]
  {
    var init := offs[..|offs| - 1];
    forall i | 0 <= i < |init| ensures init[i] != offs[|offs| - 1] {
      assert init[i] == offs[i];
    }
  }

  /** Over a list of distinct offsets, the last one adds one reached roll
      exactly when that neighbour holds a roll. */
  lemma ReachedCount(g: Grid, r: int, c: int, offs: seq<(int, int)>)
    requires WellFormed(g) && |offs| > 0
    requires forall i, j :: 0 <= i < j < |offs| ==> offs[i] != offs[j]
    ensures var d := offs[|offs| - 1];
            |Reached(g, r, c, offs)|
            == |Reached(g, r, c, offs[..|offs| - 1])| + (if HasRoll(g, r + d.0, c + d.1) then 1 else 0)
  {
    var init := offs[..|offs| - 1];
    var d := offs[|offs| - 1];
    LastNotInInit(offs);
    assert offs == init + [d];
    ReachedSnoc(g, r, c, init, d);
    CardSnoc(Reached(g, r, c, init), (r + d.0, c + d.1), HasRoll(g, r + d.0, c + d.1));
  }

  lemma CardSnoc(a: set<Cell>, q: Cell, add: bool)
    requires q !in a
    ensures |a + (if add then {q} else {})| == |a| + (if add then 1 else 0)
  {
    if add {
      assert |a + {q}| == |a| + 1;
    } else {
      assert a + {} == a;
    }
  }

  lemma {:induction false} CountOverReached(g: Grid, r: int, c: int, offs: seq<(int, int)>)
    requires WellFormed(g)
    requires forall i, j :: 0 <= i < j < |offs| ==> offs[i] != offs[j]
    ensures CountOver(g, r, c, offs) == |Reached(g, r, c, offs)|
  {
    if |offs| > 0 {
      var init := offs[..|offs| - 1];
      assert forall i :: 0 <= i < |init| ==> init[i] == offs[i];
      CountOverReached(g, r, c, init);
      ReachedCount(g, r, c, offs);
    }
  }

  /** The count is the number of distinct rolls among the eight cells
      around (r, c), the centre excluded. */
  lemma CountMatchesNeighbours(g: Grid, r: int, c: int)
    requires WellFormed(g)
    ensures CountAround(g, r, c) == |NeighbourRolls(g, r, c)|
  {
    CountOverReached(g, r, c, OFFSETS);
    forall q ensures q in Reached(g, r, c, OFFSETS) <==> q in NeighbourRolls(g, r, c) {
      OffsetsAreNeighbours((q.0 - r, q.1 - c));
    }
    assert Reached(g, r, c, OFFSETS) == NeighbourRolls(g, r, c);
  }

  /** The eight offsets are exactly the non-zero steps of at most one in
      each direction. */
  lemma OffsetsAreNeighbours(d: (int, int))
    ensures d in OFFSETS <==> d != (0, 0) && -1 <= d.0 <= 1 && -1 <= d.1 <= 1
  {
  }

  /** Whatever stands in the centre cell, the neighbour count is the same. */
  lemma CountIgnoresCentre(g: Grid, r: int, c: int, x: char)
    requires WellFormed(g) && InRange(g, r, c)
    ensures WellFormed(g[r := g[r][c := x]])
    ensures CountAround(g[r := g[r][c := x]], r, c) == CountAround(g, r, c)
  {
    var h := g[r := g[r][c := x]];
    CountMatchesNeighbours(g, r, c);
    CountMatchesNeighbours(h, r, c);
    assert NeighbourRolls(h, r, c) == NeighbourRolls(g, r, c) by {
      forall q | q in NeighbourRolls(g, r, c) ensures q in NeighbourRolls(h, r, c) {
        HasRollIsRolls(g, q.0, q.1);
        HasRollIsRolls(h, q.0, q.1);
      }
      forall q | q in NeighbourRolls(h, r, c) ensures q in NeighbourRolls(g, r, c) {
        HasRollIsRolls(g, q.0, q.1);
        HasRollIsRolls(h, q.0, q.1);
      }
    }
  }

  // ---------------------------------------------------------------- part 1

  /** A roll the forklifts can reach: fewer than four rolls around it. */
  predicate Accessible(g: Grid, r: int, c: int)
    requires WellFormed(g)
  {
    HasRoll(g, r, c) && CountAround(g, r, c) < 4
  }

  function AccessibleSet(g: Grid): set<Cell>
    requires WellFormed(g)
  {
    set q | q in Rolls(g) && CountAround(g, q.0, q.1) < 4
  }

  /** Accessible cells in the columns before `col`, and in column `col`
      above row `row`: the part of the column-major scan already done. */
  function Scanned(g: Grid, col: int, row: int): set<Cell>
    requires WellFormed(g)
  {
    set q | q in AccessibleSet(g) && (q.1 < col || (q.1 == col && q.0 < row))
  }

  lemma ScannedStep(g: Grid, col: nat, row: nat)
    requires WellFormed(g) && col < Width(g) && 0 < row <= |g|
    ensures var cell := (row - 1, col);
            Scanned(g, col, row)
            == Scanned(g, col, row - 1) + (if Accessible(g, row - 1, col) then {cell} else {})
    ensures (row - 1, col) !in Scanned(g, col, row - 1)
  {
    HasRollIsRolls(g, row - 1, col);
  }

  /** Number of accessible rolls in rows `0 .. row-1` of column `col`. */
  function CountColumn(g: Grid, col: nat, row: nat): (n: nat)
    requires WellFormed(g) && col < Width(g) && row <= |g|
    ensures n == |Scanned(g, col, row)| - |Scanned(g, col, 0)|
    ensures Scanned(g, col, 0) <= Scanned(g, col, row)
  {
    if row == 0 then 0
    else
      var n := CountColumn(g, col, row - 1);
      var cell := (row - 1, col);
      ScannedStep(g, col, row);
      if Accessible(g, row - 1, col) then n + 1 else n
  }

  /** Number of accessible rolls in the columns `0 .. col-1`. */
  function CountColumns(g: Grid, col: nat): (n: nat)
    requires WellFormed(g) && col <= Width(g)
    ensures n == |Scanned(g, col, 0)|
  {
    if col == 0 then
      assert Scanned(g, 0, 0) == {};
      0
    else
      assert Scanned(g, col - 1, |g|) == Scanned(g, col, 0);
      CountColumns(g, col - 1) + CountColumn(g, col - 1, |g|)
  }

  /** `solvePart1`: the number of accessible rolls, scanning column by column. */
  function Part1(g: Grid): (n: nat)
    requires WellFormed(g)
    ensures n == |AccessibleSet(g)|
    ensures n <= |Rolls(g)|
  {
    assert Scanned(g, Width(g), 0) == AccessibleSet(g);
    assert AccessibleSet(g) <= Rolls(g);
    SubsetCard(AccessibleSet(g), Rolls(g));
    CountColumns(g, Width(g))
  }

  lemma SubsetCard<T>(a: set<T>, b: set<T>)
    requires a <= b
    ensures |a| <= |b|
    ensures |b - a| == |b| - |a|
  {
    assert b == a + (b - a);
  }

  // ---------------------------------------------------------------- part 2

  /** Replaces every cell of `s` by an empty cell. */
  function RemoveAll(g: Grid, s: set<Cell>): (h: Grid)
    requires WellFormed(g)
    ensures |h| == |g| && forall r :: 0 <= r < |g| ==> |h[r]| == |g[r]|
    ensures WellFormed(h)
  {
    seq(|g|, r requires 0 <= r < |g| =>
      seq(|g[r]|, c requires 0 <= c < |g[r]| => if (r, c) in s then EMPTY else g[r][c]))
  }

  /** One round of part 2. The whole removal set is computed on the grid as
      it stood before the round; exactly those cells change, each from a
      roll to an empty cell. */
  lemma RoundChangesOnlyAccessible(g: Grid)
    requires WellFormed(g)
    ensures var h := RemoveAll(g, AccessibleSet(g));
            forall r, c :: 0 <= r < |g| && 0 <= c < |g[r]| ==>
              (h[r][c] != g[r][c] <==> (r, c) in AccessibleSet(g))
              && ((r, c) in AccessibleSet(g) ==> g[r][c] == ROLL && h[r][c] == EMPTY)
  {
  }

  lemma RemoveAllRolls(g: Grid, s: set<Cell>)
    requires WellFormed(g) && s <= Rolls(g)
    ensures Rolls(RemoveAll(g, s)) == Rolls(g) - s
    ensures |Rolls(RemoveAll(g, s))| == |Rolls(g)| - |s|
  {
    var h := RemoveAll(g, s);
    assert Rolls(h) == Rolls(g) - s;
    SubsetCard(s, Rolls(g));
  }

  lemma RemoveNothing(g: Grid)
    requires WellFormed(g)
    ensures RemoveAll(g, {}) == g
  {
    var h := RemoveAll(g, {});
    forall r | 0 <= r < |g| ensures h[r] == g[r] {
    }
  }

  /** The rolls `S` of `g` hold each other in place: with only they left
      on the grid, none of them is accessible. */
  predicate Stable(g: Grid, S: set<Cell>)
    requires WellFormed(g)
  {
    S <= Rolls(g) && AccessibleSet(RemoveAll(g, Rolls(g) - S)) == {}
  }

  /** Neighbour counts only grow when rolls are added. */
  lemma CountMonotone(g: Grid, h: Grid, r: int, c: int)
    requires WellFormed(g) && WellFormed(h) && Rolls(g) <= Rolls(h)
    ensures CountAround(g, r, c) <= CountAround(h, r, c)
  {
    CountMatchesNeighbours(g, r, c);
    CountMatchesNeighbours(h, r, c);
    assert NeighbourRolls(g, r, c) <= NeighbourRolls(h, r, c);
    SubsetCard(NeighbourRolls(g, r, c), NeighbourRolls(h, r, c));
  }

  /** A stable set of rolls that is still on the grid has no accessible
      roll: each of its rolls already had four neighbours among the set. */
  lemma StableNotAccessible(g0: Grid, g: Grid, S: set<Cell>)
    requires WellFormed(g0) && WellFormed(g)
    requires Stable(g0, S) && S <= Rolls(g)
    ensures forall q :: q in S ==> q !in AccessibleSet(g)
  {
    var h := RemoveAll(g0, Rolls(g0) - S);
    RemoveAllRolls(g0, Rolls(g0) - S);
    assert Rolls(h) == S;
    forall q | q in S ensures q !in AccessibleSet(g) {
      assert q !in AccessibleSet(h);
      CountMonotone(h, g, q.0, q.1);
    }
  }

  /** Emptying `a` and then `b` is emptying both at once. */
  lemma RemoveAllTwice(g: Grid, a: set<Cell>, b: set<Cell>)
    requires WellFormed(g)
    ensures RemoveAll(RemoveAll(g, a), b) == RemoveAll(g, a + b)
  {
    var h, k := RemoveAll(RemoveAll(g, a), b), RemoveAll(g, a + b);
    forall r | 0 <= r < |g| ensures h[r] == k[r] {
    }
  }

  /** What the rounds of part 2 keep: the grid is the original with some
      rolls emptied, and every stable set of the original rolls is still
      there. */
  ghost predicate Kept(g0: Grid, g: Grid)
    requires WellFormed(g0)
  {
    && WellFormed(g) && |g| == |g0|
    && (forall r :: 0 <= r < |g0| ==> |g[r]| == |g0[r]|)
    && Rolls(g) <= Rolls(g0)
    && g == RemoveAll(g0, Rolls(g0) - Rolls(g))
    && forall S :: Stable(g0, S) ==> S <= Rolls(g)
  }

  lemma KeptStart(g0: Grid)
    requires WellFormed(g0)
    ensures Kept(g0, g0)
  {
    RemoveNothing(g0);
    assert Rolls(g0) - Rolls(g0) == {};
  }

  /** One round removes exactly the accessible rolls and keeps `Kept`. */
  lemma KeptRound(g0: Grid, g: Grid)
    requires WellFormed(g0) && Kept(g0, g)
    ensures var h := RemoveAll(g, AccessibleSet(g));
            && Kept(g0, h)
            && Rolls(h) == Rolls(g) - AccessibleSet(g)
            && |Rolls(h)| == |Rolls(g)| - |AccessibleSet(g)|
  {
    var toRemove := AccessibleSet(g);
    RemoveAllRolls(g, toRemove);
    StableSurvive(g0, g);
    RemovedSoFar(g0, g, toRemove);
  }

  /** Emptying more rolls of a grid that is the original with some rolls
      emptied leaves the original with all of them emptied. */
  lemma RemovedSoFar(g0: Grid, g: Grid, t: set<Cell>)
    requires WellFormed(g0) && WellFormed(g) && t <= Rolls(g) && Rolls(g) <= Rolls(g0)
    requires g == RemoveAll(g0, Rolls(g0) - Rolls(g))
    ensures RemoveAll(g, t) == RemoveAll(g0, Rolls(g0) - Rolls(RemoveAll(g, t)))
  {
    var before, h := Rolls(g0) - Rolls(g), RemoveAll(g, t);
    RemoveAllRolls(g, t);
    RemoveAllTwice(g0, before, t);
    assert before + t == Rolls(g0) - Rolls(h);
  }

  /** No stable set of the original rolls loses a roll in a round. */
  lemma StableSurvive(g0: Grid, g: Grid)
    requires WellFormed(g0) && WellFormed(g)
    requires forall S :: Stable(g0, S) ==> S <= Rolls(g)
    ensures forall S :: Stable(g0, S) ==> S <= Rolls(g) - AccessibleSet(g)
  {
    forall S | Stable(g0, S) ensures S <= Rolls(g) - AccessibleSet(g) {
      StableNotAccessible(g0, g, S);
    }
  }

  /** When the rounds stop, the rolls left are stable, and every other
      cell is as it was, or emptied when it was a removed roll. */
  lemma KeptFinal(g0: Grid, g: Grid)
    requires WellFormed(g0) && Kept(g0, g) && AccessibleSet(g) == {}
    ensures Stable(g0, Rolls(g))
    ensures forall r, c :: 0 <= r < |g0| && 0 <= c < |g0[r]| ==>
              g[r][c] == (if (r, c) in Rolls(g0) - Rolls(g) then EMPTY else g0[r][c])
  {
    var removed := Rolls(g0) - Rolls(g);
    assert g == RemoveAll(g0, removed);
    forall r, c | 0 <= r < |g0| && 0 <= c < |g0[r]|
      ensures g[r][c] == (if (r, c) in removed then EMPTY else g0[r][c])
    {
      assert g[r][c] == RemoveAll(g0, removed)[r][c];
    }
  }

  /** `solvePart2`: removes accessible rolls round after round until a round
      removes nothing, and returns how many were removed in total together
      with the grid that is left. The rolls left are the largest stable set
      of the original rolls: they are stable, and every stable set of the
      original rolls is still there. */
  method Part2(g0: Grid) returns (total: nat, g: Grid)
    requires WellFormed(g0)
    ensures WellFormed(g) && |g| == |g0|
    ensures forall r :: 0 <= r < |g0| ==> |g[r]| == |g0[r]|
    ensures Rolls(g) <= Rolls(g0)
    ensures forall r, c :: 0 <= r < |g0| && 0 <= c < |g0[r]| ==>
              g[r][c] == (if (r, c) in Rolls(g0) - Rolls(g) then EMPTY else g0[r][c])
    ensures total == |Rolls(g0)| - |Rolls(g)|
    ensures AccessibleSet(g) == {}
    ensures Stable(g0, Rolls(g))
    ensures forall S :: Stable(g0, S) ==> S <= Rolls(g)
    ensures total >= Part1(g0)
  {
    total := 0;
    g := g0;
    KeptStart(g0);
    var done := false;
    while !done
      invariant Kept(g0, g)
      invariant total + |Rolls(g)| == |Rolls(g0)|
      invariant done ==> AccessibleSet(g) == {}
      invariant (g == g0 && total == 0) || total >= |AccessibleSet(g0)|
      decreases |Rolls(g)| + (if done then 0 else 1)
    {
      var toRemove := AccessibleSet(g);
      var removed := |toRemove|;
      KeptRound(g0, g);
      if removed == 0 {
        RemoveNothing(g);
      }
      g := RemoveAll(g, toRemove);
      total := total + removed;
      done := removed == 0;
    }
    KeptFinal(g0, g);
  }
}

=== FILE: day6.dfy ===
/** Day 6, "Trash Compactor": a worksheet of arithmetic problems.
    Part 1 reads the numbers row by row and folds each column with the
    operator written under it; part 2 reads the worksheet as character
    columns, right to left, one block of columns per operator. */
module Day6 {
  import opened Results
  import opened Text

  /** What the Kotlin solver throws. */
  datatype Error =
    | NoInput                   // `last()` or `max()` on an empty worksheet
    | NoNumberRows              // `numbers.first()` when only the operator line exists
    | BadNumber(token: string)  // `toLong()` refused a token
    | IndexOutOfRange           // a list or string index past its end
    | UnknownOperation(op: char)
    | NoOperator                // no column with a non-space bottom character

  /** The two operators the worksheet knows. */
  predicate IsOperator(op: char) {
    op == '+' || op == '*'
  }

  function Op(op: char, a: int, b: int): int
    requires IsOperator(op)
  {
    if op == '+' then a + b else a * b
  }

  /** The `when (op)` of both parts: `+` adds, `*` multiplies, anything
      else is an error. */
  function Apply(op: char, a: int, b: int): (r: Result<int, Error>)
    ensures r.Ok? <==> IsOperator(op)
    ensures r.Ok? ==> r.value == Op(op, a, b)
    ensures r.Err? ==> r.error == UnknownOperation(op)
  {
    match op
    case '+' => Ok(a + b)
    case '*' => Ok(a * b)
    case _ => Err(UnknownOperation(op))
  }

  function Sum(xs: seq<int>): int {
    if |xs| == 0 then 0 else Sum(xs[..|xs| - 1]) + xs[|xs| - 1]
  }

  // ---------------------------------------------------------------- part 1

  /** `toLong()` on each non-empty space-separated token of a number line. */
  function ParseNumbers(toks: seq<string>): (r: Result<seq<int>, Error>)
    ensures r.Ok? ==> |r.value| == |toks|
    ensures r.Ok? ==> forall i :: 0 <= i < |toks| ==>
                        ParseInteger(toks[i], LONG_MIN, LONG_MAX) == Some(r.value[i])
    ensures r.Ok? <==> forall i :: 0 <= i < |toks| ==> ParseInteger(toks[i], LONG_MIN, LONG_MAX).Some?
    ensures r.Err? ==> exists i :: 0 <= i < |toks| && r.error == BadNumber(toks[i])
                                   && ParseInteger(toks[i], LONG_MIN, LONG_MAX).None?
                                   && forall j :: 0 <= j < i ==> ParseInteger(toks[j], LONG_MIN, LONG_MAX).Some?
  {
    match ParseAll(toks, LONG_MIN, LONG_MAX)
    case Err(i) => Err(BadNumber(toks[i]))
    case Ok(values) => Ok(values)
  }

  /** One number line: its tokens, each through `toLong()`. */
  function ParseLine(line: string): Result<seq<int>, Error> {
    ParseNumbers(Tokens(line))
  }

  /** The number lines, in order: all their values, or the error of the
      first line that does not parse. */
  function ParseRows(lines: seq<string>): (r: Result<seq<seq<int>>, Error>)
    ensures r.Ok? <==> forall i :: 0 <= i < |lines| ==> ParseLine(lines[i]).Ok?
    ensures r.Ok? ==> |r.value| == |lines|
    ensures r.Ok? ==> forall i :: 0 <= i < |lines| ==> ParseLine(lines[i]) == Ok(r.value[i])
    ensures r.Err? ==> exists i :: 0 <= i < |lines| && ParseLine(lines[i]) == Err(r.error)
                                   && forall j :: 0 <= j < i ==> ParseLine(lines[j]).Ok?
  {
    MapAll(ParseLine, lines)
  }

  /** `it.trim()[0]`: the first character of a token once trimmed. */
  function OperatorOf(tok: string): (r: Result<char, Error>)
    ensures r.Ok? <==> |Trim(tok)| > 0
    ensures r.Ok? ==> r.value == Trim(tok)[0] && !IsWhitespace(r.value)
    ensures r.Err? ==> r.error == IndexOutOfRange
  {
    var t := Trim(tok);
    if |t| == 0 then Err(IndexOutOfRange) else Ok(t[0])
  }

  /** The operator of each token of the operator line. */
  function Operators(toks: seq<string>): (r: Result<seq<char>, Error>)
    ensures r.Ok? <==> forall i :: 0 <= i < |toks| ==> OperatorOf(toks[i]).Ok?
    ensures r.Err? ==> r.error == IndexOutOfRange
    ensures r.Ok? ==> |r.value| == |toks|
    ensures r.Ok? ==> forall i :: 0 <= i < |toks| ==> OperatorOf(toks[i]) == Ok(r.value[i])
  {
    MapAll(OperatorOf, toks)
  }

  /** The value `mapIndexed` computes for column `i`: `operations[i]` and
      `numbers.first()[i]` are read first, then the operator is applied. */
  function Entry(acc: seq<int>, ops: seq<char>, row: seq<int>, i: nat): Result<int, Error>
    requires i < |acc|
  {
    if i >= |ops| || i >= |row| then Err(IndexOutOfRange) else Apply(ops[i], acc[i], row[i])
  }

  /** The first `k` entries of one `mapIndexed` pass, in index order. */
  function StepRow(acc: seq<int>, ops: seq<char>, row: seq<int>, k: nat): (r: Result<seq<int>, Error>)
    requires k <= |acc|
    ensures r.Ok? ==> |r.value| == k
    ensures r.Ok? <==> k <= |ops| && k <= |row| && forall i :: 0 <= i < k ==> IsOperator(ops[i])
    ensures r.Ok? ==> forall i :: 0 <= i < k ==> r.value[i] == Op(ops[i], acc[i], row[i])
  {
    if k == 0 then Ok([])
    else
      var init :- StepRow(acc, ops, row, k - 1);
      var v :- Entry(acc, ops, row, k - 1);
      Ok(init + [v])
  }

  /** The `while (numbers.isNotEmpty())` loop: one pass per later row. */
  function FoldRows(acc: seq<int>, ops: seq<char>, rows: seq<seq<int>>): (r: Result<seq<int>, Error>)
    ensures r.Ok? ==> |r.value| == |acc|
    decreases |rows|
  {
    if |rows| == 0 then Ok(acc)
    else
      var next :- StepRow(acc, ops, rows[0], |acc|);
      FoldRows(next, ops, rows[1..])
  }

  /** Column `i` folded down the rows with one operator, in row order. */
  function ColumnFold(op: char, v: int, rows: seq<seq<int>>, i: nat): int
    requires IsOperator(op)
    requires forall k :: 0 <= k < |rows| ==> i < |rows[k]|
    decreases |rows|
  {
    if |rows| == 0 then v else ColumnFold(op, Op(op, v, rows[0][i]), rows[1..], i)
  }

  /** The fold succeeds exactly when there is nothing to fold, or every
      column has one of the two operators and every later row is at least as
      wide as the first; each result is then the column's own fold. */
  lemma {:induction false} FoldRowsColumns(acc: seq<int>, ops: seq<char>, rows: seq<seq<int>>)
    ensures FoldRows(acc, ops, rows).Ok? <==>
              |rows| == 0
              || (|acc| <= |ops| && (forall i :: 0 <= i < |acc| ==> IsOperator(ops[i]))
                  && forall k :: 0 <= k < |rows| ==> |acc| <= |rows[k]|)
    ensures FoldRows(acc, ops, rows).Ok? && |rows| > 0 ==>
              forall i :: 0 <= i < |acc| ==>
                FoldRows(acc, ops, rows).value[i] == ColumnFold(ops[i], acc[i], rows, i)
    ensures |rows| == 0 ==> FoldRows(acc, ops, rows) == Ok(acc)
    decreases |rows|
  {
    if |rows| > 0 {
      var step := StepRow(acc, ops, rows[0], |acc|);
      if step.Ok? {
        var next := step.value;
        FoldRowsColumns(next, ops, rows[1..]);
        assert forall k :: 1 <= k < |rows| ==> rows[k] == rows[1..][k - 1];
        forall i | 0 <= i < |acc| && FoldRows(acc, ops, rows).Ok?
          ensures FoldRows(acc, ops, rows).value[i] == ColumnFold(ops[i], acc[i], rows, i)
        {
          if |rows| > 1 {
            assert FoldRows(acc, ops, rows).value[i] == ColumnFold(ops[i], next[i], rows[1..], i);
          }
        }
      }
    }
  }

  /** The parsing half of `solvePart1`: the number rows above, the operators
      of the last line, in the order the Kotlin solver evaluates them. */
  function Parse(lines: seq<string>): (r: Result<(seq<seq<int>>, seq<char>), Error>)
    ensures |lines| == 0 ==> r == Err(NoInput)
    ensures r.Ok? <==> |lines| > 0 && (forall i :: 0 <= i < |lines| - 1 ==> ParseLine(lines[i]).Ok?)
                       && Operators(Tokens(lines[|lines| - 1])).Ok?
    ensures r.Ok? ==> |r.value.0| == |lines| - 1
                      && forall i :: 0 <= i < |lines| - 1 ==> ParseLine(lines[i]) == Ok(r.value.0[i])
    ensures r.Ok? ==> var toks := Tokens(lines[|lines| - 1]);
                      |r.value.1| == |toks| && forall i :: 0 <= i < |toks| ==> OperatorOf(toks[i]) == Ok(r.value.1[i])
    ensures |lines| > 0 && ParseRows(lines[..|lines| - 1]).Err? ==> r == Err(ParseRows(lines[..|lines| - 1]).error)
  {
    if |lines| == 0 then Err(NoInput)
    else
      PrefixRows(lines);
      match ParseRows(lines[..|lines| - 1])
      case Err(e) => Err(e)
      case Ok(numbers) =>
        match Operators(Tokens(lines[|lines| - 1]))
        case Err(e) => Err(e)
        case Ok(ops) => Ok((numbers, ops))
  }

  /** The rows parsed from every line but the last, indexed by line. */
  lemma PrefixRows(lines: seq<string>)
    requires |lines| > 0
    ensures var rows := ParseRows(lines[..|lines| - 1]);
            && (rows.Ok? <==> forall i :: 0 <= i < |lines| - 1 ==> ParseLine(lines[i]).Ok?)
            && (rows.Ok? ==> |rows.value| == |lines| - 1
                             && forall i :: 0 <= i < |lines| - 1 ==> ParseLine(lines[i]) == Ok(rows.value[i]))
  {
    var front := lines[..|lines| - 1];
    assert forall i :: 0 <= i < |front| ==> front[i] == lines[i];
  }

  /** The arithmetic half of `solvePart1`: the first row is the starting
      accumulator, the later rows are folded in, the columns are summed. */
  function Evaluate(numbers: seq<seq<int>>, ops: seq<char>): Result<int, Error> {
    if |numbers| == 0 then Err(NoNumberRows)
    else
      var results :- FoldRows(numbers[0], ops, numbers[1..]);
      Ok(Sum(results))
  }

  /** When the arithmetic of part 1 goes through: there is a number row,
      and once there is a second one, every column of the first row has a
      `+` or `*` operator and no later row is narrower than the first. */
  predicate Evaluable(numbers: seq<seq<int>>, ops: seq<char>) {
    || |numbers| == 1
    || (&& |numbers| > 1 && |numbers[0]| <= |ops|
        && (forall i :: 0 <= i < |numbers[0]| ==> IsOperator(ops[i]))
        && forall k :: 1 <= k < |numbers| ==> |numbers[0]| <= |numbers[k]|)
  }

  /** The worksheet's grand total: over the columns of the first row, each
      value folded with its column's operator down the later rows, summed. */
  function GrandTotal(numbers: seq<seq<int>>, ops: seq<char>): int
    requires Evaluable(numbers, ops)
  {
    if |numbers| == 1 then Sum(numbers[0])
    else
      var rest := numbers[1..];
      assert forall k :: 0 <= k < |rest| ==> rest[k] == numbers[k + 1];
      Sum(seq(|numbers[0]|, i requires 0 <= i < |numbers[0]| => ColumnFold(ops[i], numbers[0][i], rest, i)))
  }

  /** `solvePart1`: the grand total of the parsed worksheet, failing when
      it does not parse or its arithmetic does not go through. */
  function Part1(lines: seq<string>): (r: Result<int, Error>)
    ensures Parse(lines).Err? ==> r == Err(Parse(lines).error)
    ensures Parse(lines).Ok? ==>
              var (numbers, ops) := Parse(lines).value;
              && (r.Ok? <==> Evaluable(numbers, ops))
              && (r.Ok? ==> r.value == GrandTotal(numbers, ops))
              && (|numbers| == 0 ==> r == Err(NoNumberRows))
  {
    var parsed :- Parse(lines);
    EvaluateColumns(parsed.0, parsed.1);
    Evaluate(parsed.0, parsed.1)
  }

  /** Part 1's arithmetic yields the grand total, and fails exactly when
      there is no number row, or some column lacks a `+`/`*` operator, or
      some later row is too short. */
  lemma {:induction false} EvaluateColumns(numbers: seq<seq<int>>, ops: seq<char>)
    ensures Evaluate(numbers, ops).Ok? <==> Evaluable(numbers, ops)
    ensures Evaluate(numbers, ops).Ok? ==> Evaluate(numbers, ops).value == GrandTotal(numbers, ops)
  {
    if |numbers| > 0 {
      var rest := numbers[1..];
      FoldRowsColumns(numbers[0], ops, rest);
      assert (forall k :: 0 <= k < |rest| ==> |numbers[0]| <= |rest[k]|)
         <==> (forall k :: 1 <= k < |numbers| ==> |numbers[0]| <= |numbers[k]|) by {
        assert forall k :: 1 <= k < |numbers| ==> numbers[k] == rest[k - 1];
      }
      if Evaluate(numbers, ops).Ok? && |numbers| > 1 {
        var results := FoldRows(numbers[0], ops, rest).value;
        assert results == seq(|numbers[0]|, i requires 0 <= i < |numbers[0]| => ColumnFold(ops[i], numbers[0][i], rest, i));
      }
    }
  }

  /** Any operator other than `+` or `*` under a column of the first row is
      an error as soon as there is a second number row. */
  lemma Part1UnknownOperator(lines: seq<string>, i: nat)
    requires Parse(lines).Ok?
    requires var (numbers, ops) := Parse(lines).value;
             |numbers| >= 2 && i < |numbers[0]| && i < |ops| && !IsOperator(ops[i])
    ensures Part1(lines).Err?
  {
    var (numbers, ops) := Parse(lines).value;
    EvaluateColumns(numbers, ops);
  }

  // ---------------------------------------------------------------- part 2

  function MaxLength(lines: seq<string>): (m: nat)
    requires |lines| > 0
    ensures forall r :: 0 <= r < |lines| ==> |lines[r]| <= m
    ensures exists r :: 0 <= r < |lines| && |lines[r]| == m
  {
    if |lines| == 1 then |lines[0]|
    else
      var m := MaxLength(lines[..|lines| - 1]);
      assert forall r :: 0 <= r < |lines| - 1 ==> lines[r] == lines[..|lines| - 1][r];
      if |lines[|lines| - 1]| > m then |lines[|lines| - 1]| else m
  }

  /** The worksheet as character columns, left to right: every line padded
      with spaces to the longest one (`line.getOrNull(index) ?: ' '`). */
  function Columns(lines: seq<string>): (cols: seq<string>)
    requires |lines| > 0
    ensures |cols| == MaxLength(lines)
    ensures forall i :: 0 <= i < |cols| ==> |cols[i]| == |lines|
    ensures forall i, r :: 0 <= i < |cols| && 0 <= r < |lines| ==>
              cols[i][r] == (if i < |lines[r]| then lines[r][i] else ' ')
  {
    seq(MaxLength(lines), i requires 0 <= i < MaxLength(lines) =>
      seq(|lines|, r requires 0 <= r < |lines| => if i < |lines[r]| then lines[r][i] else ' '))
  }

  predicate Rectangular(cols: seq<string>, height: nat) {
    forall i :: 0 <= i < |cols| ==> |cols[i]| == height
  }

  function Bottom(col: string): char
    requires |col| > 0
  {
    col[|col| - 1]
  }

  /** The rightmost column whose bottom character is not a space. */
  function OperatorColumn(cols: seq<string>, height: nat): (k: Option<nat>)
    requires height > 0 && Rectangular(cols, height)
    ensures k.Some? ==> k.value < |cols| && Bottom(cols[k.value]) != ' '
    ensures k.Some? ==> forall j :: k.value < j < |cols| ==> Bottom(cols[j]) == ' '
    ensures k.None? ==> forall j :: 0 <= j < |cols| ==> Bottom(cols[j]) == ' '
  {
    if |cols| == 0 then None
    else if Bottom(cols[|cols| - 1]) != ' ' then Some(|cols| - 1)
    else
      assert forall j :: 0 <= j < |cols| - 1 ==> cols[j] == cols[..|cols| - 1][j];
      OperatorColumn(cols[..|cols| - 1], height)
  }

  function RemoveSpaces(s: string): string {
    if |s| == 0 then []
    else RemoveSpaces(s[..|s| - 1]) + (if s[|s| - 1] == ' ' then [] else [s[|s| - 1]])
  }

  /** Removing spaces keeps exactly the other characters. */
  lemma {:induction false} RemoveSpacesChars(s: string)
    ensures forall c :: c in RemoveSpaces(s) <==> c in s && c != ' '
  {
    if |s| > 0 {
      RemoveSpacesChars(s[..|s| - 1]);
      assert s == s[..|s| - 1] + [s[|s| - 1]];
    }
  }

  /** `columns[index].dropLast(1).filter { it != ' ' }.joinToString("")`:
      the column's characters above the bottom row, spaces removed. */
  function ColumnDigits(col: string): string
    requires |col| > 0
  {
    RemoveSpaces(col[..|col| - 1])
  }

  /** One column of a block: a column without digits is skipped; otherwise
      its characters, read top to bottom, must parse as a signed 64-bit
      integer that is added to or multiplied into the accumulator. */
  function AddColumn(op: char, acc: int, col: string): (r: Result<int, Error>)
    requires |col| > 0
    ensures |ColumnDigits(col)| == 0 ==> r == Ok(acc)
    ensures |ColumnDigits(col)| > 0 && !IsOperator(op) ==> r == Err(UnknownOperation(op))
    ensures |ColumnDigits(col)| > 0 && IsOperator(op) && AllDigits(ColumnDigits(col))
            && DigitsValue(ColumnDigits(col)) <= LONG_MAX
            ==> r == Ok(Op(op, acc, DigitsValue(ColumnDigits(col))))
    ensures |ColumnDigits(col)| > 0 && IsOperator(op)
            ==> (r.Ok? <==> ParseInteger(ColumnDigits(col), LONG_MIN, LONG_MAX).Some?)
    ensures |ColumnDigits(col)| > 0 && IsOperator(op)
            && ParseInteger(ColumnDigits(col), LONG_MIN, LONG_MAX).None?
            ==> r == Err(BadNumber(ColumnDigits(col)))
    ensures r.Ok? && |ColumnDigits(col)| > 0
            ==> r.value == Op(op, acc, ParseInteger(ColumnDigits(col), LONG_MIN, LONG_MAX).value)
  {
    var s := ColumnDigits(col);
    if |s| == 0 then Ok(acc)
    else if !IsOperator(op) then Err(UnknownOperation(op))
    else
      match ParseInteger(s, LONG_MIN, LONG_MAX)
      case None => Err(BadNumber(s))
      case Some(v) => Ok(Op(op, acc, v))
  }

  /** The block loop: columns `hi-1` down to `lo`, right to left. */
  function Block(cols: seq<string>, height: nat, op: char, lo: nat, hi: nat, acc: int): Result<int, Error>
    requires height > 0 && Rectangular(cols, height) && lo <= hi <= |cols|
    decreases hi
  {
    if hi == lo then Ok(acc)
    else
      var acc' :- AddColumn(op, acc, cols[hi - 1]);
      Block(cols, height, op, lo, hi - 1, acc')
  }

  /** The value accumulated for the block from column `k` to the end:
      1 for `*`, 0 for anything else, to begin with. */
  function BlockValue(cols: seq<string>, height: nat, k: nat): Result<int, Error>
    requires height > 0 && Rectangular(cols, height) && k < |cols|
  {
    var op := Bottom(cols[k]);
    Block(cols, height, op, k, |cols|, if op == '*' then 1 else 0)
  }

  /** Columns without digits leave the accumulator alone, so a block made
      only of such columns is worth its starting value: 1 under `*`, 0
      under anything else. */
  lemma {:induction false} BlockWithoutDigits(cols: seq<string>, height: nat, op: char, lo: nat, hi: nat, acc: int)
    requires height > 0 && Rectangular(cols, height) && lo <= hi <= |cols|
    requires forall j :: lo <= j < hi ==> |ColumnDigits(cols[j])| == 0
    ensures Block(cols, height, op, lo, hi, acc) == Ok(acc)
    decreases hi
  {
    if hi > lo {
      BlockWithoutDigits(cols, height, op, lo, hi - 1, acc);
    }
  }

  lemma EmptyBlockValue(cols: seq<string>, height: nat, k: nat)
    requires height > 0 && Rectangular(cols, height) && k < |cols|
    requires forall j :: k <= j < |cols| ==> |ColumnDigits(cols[j])| == 0
    ensures BlockValue(cols, height, k) == Ok(if Bottom(cols[k]) == '*' then 1 else 0)
  {
    BlockWithoutDigits(cols, height, Bottom(cols[k]), k, |cols|, if Bottom(cols[k]) == '*' then 1 else 0);
  }

  /** Under an operator other than `+` or `*`, any column with a digit in
      the block makes part 2 fail. */
  lemma {:induction false} BlockUnknownOperator(cols: seq<string>, height: nat, op: char, lo: nat, hi: nat, acc: int, j: nat)
    requires height > 0 && Rectangular(cols, height) && lo <= j < hi <= |cols|
    requires !IsOperator(op) && |ColumnDigits(cols[j])| > 0
    ensures Block(cols, height, op, lo, hi, acc).Err?
    decreases hi
  {
    if j == hi - 1 {
      TopColumnFails(cols, height, op, lo, hi, acc);
    } else if |ColumnDigits(cols[hi - 1])| > 0 {
      TopColumnFails(cols, height, op, lo, hi, acc);
    } else {
      BlockUnknownOperator(cols, height, op, lo, hi - 1, acc, j);
      TopColumnSkipped(cols, height, op, lo, hi, acc);
    }
  }

  /** A column without digits is skipped, whatever the operator. */
  lemma TopColumnSkipped(cols: seq<string>, height: nat, op: char, lo: nat, hi: nat, acc: int)
    requires height > 0 && Rectangular(cols, height) && lo < hi <= |cols|
    requires |ColumnDigits(cols[hi - 1])| == 0
    ensures Block(cols, height, op, lo, hi, acc) == Block(cols, height, op, lo, hi - 1, acc)
  {
  }

  /** Under an operator other than `+` or `*`, a column with digits fails. */
  lemma TopColumnFails(cols: seq<string>, height: nat, op: char, lo: nat, hi: nat, acc: int)
    requires height > 0 && Rectangular(cols, height) && lo < hi <= |cols|
    requires !IsOperator(op) && |ColumnDigits(cols[hi - 1])| > 0
    ensures Block(cols, height, op, lo, hi, acc) == Err(UnknownOperation(op))
  {
  }

  /** Part 2 over the remaining columns: the block of the rightmost operator
      first, then what lies to its left. */
  function Consume(cols: seq<string>, height: nat): Result<int, Error>
    requires height > 0 && Rectangular(cols, height)
    decreases |cols|
  {
    if |cols| == 0 then Ok(0)
    else
      match OperatorColumn(cols, height)
      case None => Err(NoOperator)
      case Some(k) =>
        var number :- BlockValue(cols, height, k);
        var rest :- Consume(cols[..k], height);
        Ok(number + rest)
  }

  /** One round's result: the block's failure, else the failure of the
      columns to its left, else the sum of the two. */
  function Round(block: Result<int, Error>, rest: Result<int, Error>): Result<int, Error> {
    match block
    case Err(e) => Err(e)
    case Ok(number) =>
      match rest
      case Err(e) => Err(e)
      case Ok(value) => Ok(number + value)
  }

  function AddTo(a: int, r: Result<int, Error>): Result<int, Error> {
    match r
    case Ok(v) => Ok(a + v)
    case Err(e) => Err(e)
  }

  /** `ks` lists the operator columns (bottom character not a space) of
      `cols`, left to right. */
  predicate IsOperatorColumns(cols: seq<string>, height: nat, ks: seq<nat>)
    requires height > 0 && Rectangular(cols, height)
  {
    && (forall i :: 0 <= i < |ks| ==> ks[i] < |cols| && Bottom(cols[ks[i]]) != ' ')
    && (forall i, j :: 0 <= i < j < |ks| ==> ks[i] < ks[j])
    && (forall j :: 0 <= j < |cols| && Bottom(cols[j]) != ' ' ==> j in ks)
  }

  /** Where the block of the `i`-th operator column ends: at the next
      operator column, or at the right edge. */
  function BlockEnd(cols: seq<string>, ks: seq<nat>, i: nat): nat
    requires i < |ks|
  {
    if i + 1 < |ks| then ks[i + 1] else |cols|
  }

  /** The block of the `i`-th operator column, read on its own. */
  function BlockAt(cols: seq<string>, height: nat, ks: seq<nat>, i: nat): Result<int, Error>
    requires height > 0 && Rectangular(cols, height) && IsOperatorColumns(cols, height, ks) && i < |ks|
  {
    assert i + 1 < |ks| ==> ks[i] < ks[i + 1] < |cols|;
    var op := Bottom(cols[ks[i]]);
    Block(cols, height, op, ks[i], BlockEnd(cols, ks, i), if op == '*' then 1 else 0)
  }

  /** A block reads only the columns it spans. */
  lemma {:induction false} BlockPrefix(cols: seq<string>, height: nat, m: nat, op: char, lo: nat, hi: nat, acc: int)
    requires height > 0 && Rectangular(cols, height) && lo <= hi <= m <= |cols|
    ensures Rectangular(cols[..m], height)
    ensures Block(cols[..m], height, op, lo, hi, acc) == Block(cols, height, op, lo, hi, acc)
    decreases hi
  {
    assert Rectangular(cols[..m], height) by {
      assert forall j :: 0 <= j < m ==> cols[..m][j] == cols[j];
    }
    if hi > lo {
      assert cols[..m][hi - 1] == cols[hi - 1];
      match AddColumn(op, acc, cols[hi - 1])
      case Err(_) =>
      case Ok(acc') => BlockPrefix(cols, height, m, op, lo, hi - 1, acc');
    }
  }

  /** The rightmost operator column is the last one listed. */
  lemma LastOperatorColumn(cols: seq<string>, height: nat, ks: seq<nat>)
    requires height > 0 && Rectangular(cols, height) && IsOperatorColumns(cols, height, ks)
    ensures |ks| == 0 <==> OperatorColumn(cols, height).None?
    ensures |ks| > 0 ==> OperatorColumn(cols, height) == Some(ks[|ks| - 1])
  {
    var k := OperatorColumn(cols, height);
    if |ks| > 0 {
      var last := ks[|ks| - 1];
      assert Bottom(cols[last]) != ' ';
      assert k.value in ks && last <= k.value;
      assert forall t :: 0 <= t < |ks| - 1 ==> ks[t] < last;
    }
  }

  /** An operator under the leftmost column is the first one listed. */
  lemma LeadingOperatorColumn(cols: seq<string>, height: nat, ks: seq<nat>)
    requires height > 0 && Rectangular(cols, height) && IsOperatorColumns(cols, height, ks)
    requires |cols| > 0 && Bottom(cols[0]) != ' '
    ensures |ks| > 0 && ks[0] == 0
  {
    assert 0 in ks;
  }

  /** Left of the last operator column, the other operator columns are
      listed as before, and their blocks are the same. */
  lemma OperatorColumnsPrefix(cols: seq<string>, height: nat, ks: seq<nat>)
    requires height > 0 && Rectangular(cols, height) && IsOperatorColumns(cols, height, ks) && |ks| > 0
    ensures Rectangular(cols[..ks[|ks| - 1]], height)
    ensures IsOperatorColumns(cols[..ks[|ks| - 1]], height, ks[..|ks| - 1])
    ensures forall i :: 0 <= i < |ks| - 1 ==>
              BlockAt(cols[..ks[|ks| - 1]], height, ks[..|ks| - 1], i) == BlockAt(cols, height, ks, i)
  {
    var n := |ks| - 1;
    var k, ks', prefix := ks[n], ks[..n], cols[..ks[n]];
    BlockPrefix(cols, height, k, ' ', 0, 0, 0);
    forall j | 0 <= j < |prefix| && Bottom(prefix[j]) != ' '
      ensures j in ks'
    {
      assert prefix[j] == cols[j];
      var t :| 0 <= t < |ks| && ks[t] == j;
      assert t != n;
      assert ks'[t] == j;
    }
    assert IsOperatorColumns(prefix, height, ks') by {
      forall i | 0 <= i < |ks'|
        ensures ks'[i] < |prefix| && Bottom(prefix[ks'[i]]) != ' '
      {
        assert ks[i] < ks[n];
        assert prefix[ks'[i]] == cols[ks[i]];
      }
    }
    forall i | 0 <= i < n
      ensures BlockAt(prefix, height, ks', i) == BlockAt(cols, height, ks, i)
    {
      assert BlockEnd(prefix, ks', i) == BlockEnd(cols, ks, i);
      assert prefix[ks'[i]] == cols[ks[i]];
      assert i + 1 < |ks| ==> ks[i] < ks[i + 1];
      var op := Bottom(cols[ks[i]]);
      BlockPrefix(cols, height, k, op, ks[i], BlockEnd(cols, ks, i), if op == '*' then 1 else 0);
    }
  }

  /** The blocks of the operator columns, left to right. */
  function Blocks(cols: seq<string>, height: nat, ks: seq<nat>): seq<Result<int, Error>>
    requires height > 0 && Rectangular(cols, height) && IsOperatorColumns(cols, height, ks)
  {
    seq(|ks|, i requires 0 <= i < |ks| => BlockAt(cols, height, ks, i))
  }

  /** `r` is the sum of the block values `bs`: it succeeds exactly when
      every block does, and a failure is the failure of some block. */
  predicate SumOfBlocks(bs: seq<Result<int, Error>>, r: Result<int, Error>) {
    && (r.Ok? <==> forall i :: 0 <= i < |bs| ==> bs[i].Ok?)
    && (r.Ok? ==> r.value == Sum(seq(|bs|, i requires 0 <= i < |bs| => bs[i].value)))
    && (r.Err? ==> exists i :: 0 <= i < |bs| && bs[i] == Err(r.error))
  }

  /** Adding one more block on the right, evaluated first as the loop does,
      keeps the result the sum of the blocks. */
  lemma SumOfBlocksStep(bs: seq<Result<int, Error>>, c: Result<int, Error>, a: Result<int, Error>)
    requires |bs| > 0 && SumOfBlocks(bs[..|bs| - 1], c)
    requires a == Round(bs[|bs| - 1], c)
    ensures SumOfBlocks(bs, a)
  {
    var n := |bs| - 1;
    assert forall i :: 0 <= i < n ==> bs[..n][i] == bs[i];
    if a.Ok? {
      var vals := seq(|bs|, i requires 0 <= i < |bs| => bs[i].value);
      assert vals[..n] == seq(n, i requires 0 <= i < n => bs[..n][i].value);
    }
  }

  /** One round of part 2: the block of the rightmost operator column is
      evaluated first, then the columns to its left. */
  lemma ConsumeRound(cols: seq<string>, height: nat, k: nat)
    requires height > 0 && Rectangular(cols, height) && |cols| > 0
    requires OperatorColumn(cols, height) == Some(k)
    ensures Rectangular(cols[..k], height)
    ensures Consume(cols, height) == Round(BlockValue(cols, height, k), Consume(cols[..k], height))
  {
    assert forall j :: 0 <= j < k ==> cols[..k][j] == cols[j];
  }

  /** Part 2 is the sum, over the operator columns, of each column's block
      value, provided the leftmost column carries an operator: it succeeds
      exactly when every block does, and a failure is some block's. */
  lemma {:induction false} ConsumeBlocks(cols: seq<string>, height: nat, ks: seq<nat>)
    requires height > 0 && Rectangular(cols, height) && IsOperatorColumns(cols, height, ks)
    requires |cols| > 0 ==> Bottom(cols[0]) != ' '
    ensures SumOfBlocks(Blocks(cols, height, ks), Consume(cols, height))
    decreases |cols|
  {
    LastOperatorColumn(cols, height, ks);
    if |cols| > 0 {
      LeadingOperatorColumn(cols, height, ks);
      var n := |ks| - 1;
      var k, ks' := ks[n], ks[..n];
      var prefix := cols[..k];
      ConsumeRound(cols, height, k);
      var bs := Blocks(cols, height, ks);
      assert BlockValue(cols, height, k) == bs[n];
      OperatorColumnsPrefix(cols, height, ks);
      if k > 0 {
        assert prefix[0] == cols[0];
      }
      assert Blocks(prefix, height, ks') == bs[..n];
      ConsumeBlocks(prefix, height, ks');
      assert |bs| - 1 == n;
      SumOfBlocksStep(bs, Consume(prefix, height), Consume(cols, height));
    }
  }

  /** Without an operator under the leftmost column, part 2 fails. */
  lemma {:induction false} ConsumeLeadingSpace(cols: seq<string>, height: nat)
    requires height > 0 && Rectangular(cols, height) && |cols| > 0 && Bottom(cols[0]) == ' '
    ensures Consume(cols, height).Err?
    decreases |cols|
  {
    match OperatorColumn(cols, height)
    case None =>
    case Some(k) =>
      BlockPrefix(cols, height, k, ' ', 0, 0, 0);
      assert cols[..k][0] == cols[0];
      ConsumeLeadingSpace(cols[..k], height);
  }

  /** The inner `for` loop of `solvePart2`: the block from column `stop` to
      the last column, walked right to left. */
  method ConsumeBlock(columns: seq<string>, height: nat, stop: nat) returns (r: Result<int, Error>)
    requires height > 0 && Rectangular(columns, height) && stop < |columns|
    ensures r == BlockValue(columns, height, stop)
  {
    var operator := Bottom(columns[stop]);
    var number := if operator == '*' then 1 else 0;
    var index := |columns|;
    while index > stop
      invariant stop <= index <= |columns|
      invariant BlockValue(columns, height, stop) == Block(columns, height, operator, stop, index, number)
      decreases index
    {
      var step := AddColumn(operator, number, columns[index - 1]);
      if step.Err? {
        return Err(step.error);
      }
      number := step.value;
      index := index - 1;
    }
    return Ok(number);
  }

  /** `solvePart2`, as the Kotlin solver's loop: the columns shrink by at least one
      on every round, each round consuming the block of the rightmost
      operator column. */
  method Part2(lines: seq<string>) returns (r: Result<int, Error>)
    ensures |lines| == 0 ==> r == Err(NoInput)
    ensures |lines| > 0 ==> r == Consume(Columns(lines), |lines|)
  {
    if |lines| == 0 {
      return Err(NoInput);
    }
    var height := |lines|;
    var columns := Columns(lines);
    var result := 0;
    while |columns| > 0
      invariant Rectangular(columns, height)
      invariant Consume(Columns(lines), height) == AddTo(result, Consume(columns, height))
      decreases |columns|
    {
      var opColumn := OperatorColumn(columns, height);
      if opColumn.None? {
        return Err(NoOperator);
      }
      var stop := opColumn.value;
      var number := ConsumeBlock(columns, height, stop);
      if number.Err? {
        return Err(number.error);
      }
      result := result + number.value;
      columns := columns[..stop];
    }
    return Ok(result);
  }
}

=== FILE: day8.dfy ===
/** Day 8, "Playground": junction boxes at integer 3-D positions are joined
    into circuits, closest pair first. Each step picks the pair of entries
    (a free box, or a box tagged with its circuit) at the smallest distance
    strictly above the floor, the previous step's distance, when some pair
    lies above it; when none does, every pair ties and the first pair in
    entry order is taken. The floor then becomes the chosen pair's
    distance, which can be lower than before. The step then updates the
    list of free boxes and the list of circuits. Part 1 runs a fixed
    number of steps and multiplies the three largest circuit sizes; part 2
    runs until one circuit holds every box and multiplies the x coordinates
    of the last pair joined. */
module Day8 {
  import opened Results
  import opened Text

  datatype Point3D = Point3D(x: int, y: int, z: int)

  /** A circuit and its boxes, in the order they joined. The Kotlin solver names a
      circuit by a random UUID; here the ids are handed out by a counter. */
  datatype Circuit = Circuit(id: nat, points: seq<Point3D>)

  /** `PointWithFlag`: a box and the id of its circuit, if it has one. */
  datatype Entry = Entry(point: Point3D, circuit: Option<nat>)

  /** The solver's loop variables: free boxes, circuits, the distance of
      the last pair joined (squared), and the next unused circuit id. */
  datatype State = State(points: seq<Point3D>, circuits: seq<Circuit>, last: nat, nextId: nat)

  datatype Error =
    | NoSuchElement          // `minBy` over an empty collection
    | EmptyReduce            // `reduce` over an empty collection
    | BadNumber(token: string)
    | MissingCoordinate      // `val (x, y, z)` on a list with fewer than three elements
    | OutOfFuel              // part 2 has not settled within the step budget

  // ------------------------------------------------------------ distance

  /** The square of `Point3D.distanceTo`. */
  function SqDist(p: Point3D, q: Point3D): nat {
    var dx := p.x - q.x;
    var dy := p.y - q.y;
    var dz := p.z - q.z;
    Square(dx) + Square(dy) + Square(dz)
  }

  /** `v * v`, by repeated addition: (v - 1)² + 2v - 1. */
  function Square(v: int): nat
    decreases if v < 0 then 1 - 2 * v else 2 * v
  {
    if v < 0 then Square(-v) else if v == 0 then 0 else Square(v - 1) + 2 * v - 1
  }

  lemma {:induction false} SquareIsProduct(v: int)
    ensures Square(v) == v * v
    decreases if v < 0 then 1 - 2 * v else 2 * v
  {
    if v < 0 {
      SquareIsProduct(-v);
    } else if v > 0 {
      SquareIsProduct(v - 1);
    }
  }

  lemma SquareZero(v: int)
    ensures Square(v) == Square(-v)
    ensures Square(v) == 0 <==> v == 0
  {
    SquareIsProduct(v);
    SquareIsProduct(-v);
    if v != 0 {
      var a := if v < 0 then -v else v;
      assert a >= 1;
      assert a * a >= a * 1;
    }
  }

  /** The distance is symmetric and vanishes exactly between equal points. */
  lemma SqDistProperties(p: Point3D, q: Point3D)
    ensures SqDist(p, q) == SqDist(q, p)
    ensures SqDist(p, q) == 0 <==> p == q
  {
    SquareZero(p.x - q.x);
    SquareZero(p.y - q.y);
    SquareZero(p.z - q.z);
  }

  /** Comparing non-negative square roots is comparing the squares, so the
      Kotlin solver's `sqrt` distances and the squared distances used here order
      every two pairs the same way. */
  lemma RootOrder(d1: real, d2: real, n1: nat, n2: nat)
    requires d1 >= 0.0 && d2 >= 0.0
    requires d1 * d1 == n1 as real && d2 * d2 == n2 as real
    ensures d1 <= d2 <==> n1 <= n2
  {
    if d1 < d2 {
      SquareLess(d1, d2);
    } else if d2 < d1 {
      SquareLess(d2, d1);
    }
  }

  lemma SquareLess(a: real, b: real)
    requires 0.0 <= a < b
    ensures a * a < b * b
  {
    var e := b - a;
    assert e * e > 0.0;
    assert a * e >= 0.0;
    assert b * b == a * a + 2.0 * (a * e) + e * e;
  }

  // -------------------------------------------------------------- parsing

  /** One input line `x,y,z`: every comma-separated piece goes through
      `toInt()`, then the first three are the coordinates. */
  function ParsePoint(line: string): (r: Result<Point3D, Error>)
    ensures var parts := Split(line, ',');
            r.Ok? <==> |parts| >= 3 && forall i :: 0 <= i < |parts| ==> ParseInteger(parts[i], INT_MIN, INT_MAX).Some?
    ensures var parts := Split(line, ',');
            r.Ok? ==> |parts| >= 3 && Some(r.value.x) == ParseInteger(parts[0], INT_MIN, INT_MAX)
                                   && Some(r.value.y) == ParseInteger(parts[1], INT_MIN, INT_MAX)
                                   && Some(r.value.z) == ParseInteger(parts[2], INT_MIN, INT_MAX)
  {
    var values :- ParseInts(Split(line, ',')).MapError(t => BadNumber(t));
    if |values| < 3 then Err(MissingCoordinate) else Ok(Point3D(values[0], values[1], values[2]))
  }

  function ParsePoints(lines: seq<string>): (r: Result<seq<Point3D>, Error>)
    ensures r.Ok? ==> |r.value| == |lines|
    ensures r.Ok? ==> forall i :: 0 <= i < |lines| ==> ParsePoint(lines[i]) == Ok(r.value[i])
    ensures r.Err? <==> exists i :: 0 <= i < |lines| && ParsePoint(lines[i]).Err?
  {
    MapAll(ParsePoint, lines)
  }

  /** A box written back as `x,y,z` parses to itself. */
  lemma ParseShowPoint(p: Point3D)
    requires INT_MIN <= p.x <= INT_MAX && INT_MIN <= p.y <= INT_MAX && INT_MIN <= p.z <= INT_MAX
    ensures ParsePoint(ShowInt(p.x) + "," + ShowInt(p.y) + "," + ShowInt(p.z)) == Ok(p)
  {
    var parts := [ShowInt(p.x), ShowInt(p.y), ShowInt(p.z)];
    ShowIntChars(p.x);
    ShowIntChars(p.y);
    ShowIntChars(p.z);
    assert Join(parts[2..], ',') == ShowInt(p.z);
    assert Join(parts[1..], ',') == ShowInt(p.y) + "," + ShowInt(p.z);
    assert Join(parts, ',') == ShowInt(p.x) + "," + ShowInt(p.y) + "," + ShowInt(p.z);
    SplitJoin(parts, ',');
    ParseShowInt(p.x, INT_MIN, INT_MAX);
    ParseShowInt(p.y, INT_MIN, INT_MAX);
    ParseShowInt(p.z, INT_MIN, INT_MAX);
  }

  // ------------------------------------------------------- pair selection

  /** The `minBy` key: a distance, or `Double.MAX_VALUE` standing for a pair
      already at or below the previous step's distance. */
  datatype Key = Finite(d: nat) | Masked

  predicate Below(a: Key, b: Key) {
    a.Finite? && (b.Masked? || a.d < b.d)
  }

  function MaskedKey(p: Entry, o: Entry, last: nat): Key {
    var d := SqDist(p.point, o.point);
    if d <= last then Masked else Finite(d)
  }

  /** The inner `minBy`: among the first `k` entries different from entry
      `i`, the index of the first one with the smallest key, if any. */
  function RowBest(all: seq<Entry>, key: (Entry, Entry) -> Key, i: nat, k: nat): (r: Option<nat>)
    requires i < |all| && k <= |all|
    ensures r.Some? ==> r.value < k && all[r.value] != all[i]
  {
    if k == 0 then None
    else
      var prev := RowBest(all, key, i, k - 1);
      if all[k - 1] == all[i] then prev
      else if prev.None? || Below(key(all[i], all[k - 1]), key(all[i], all[prev.value])) then Some(k - 1)
      else prev
  }

  /** A row has no partner exactly when every entry looked at equals it. */
  lemma {:induction false} RowBestNone(all: seq<Entry>, key: (Entry, Entry) -> Key, i: nat, k: nat)
    requires i < |all| && k <= |all|
    ensures RowBest(all, key, i, k).None? <==> forall j :: 0 <= j < k ==> all[j] == all[i]
    decreases k
  {
    if k > 0 {
      RowBestNone(all, key, i, k - 1);
    }
  }

  /** The row's choice is not beaten by any other partner, and is strictly
      below every partner before it. */
  lemma {:induction false} RowBestMin(all: seq<Entry>, key: (Entry, Entry) -> Key, i: nat, k: nat, j: nat)
    requires i < |all| && j < k <= |all| && all[j] != all[i]
    ensures RowBest(all, key, i, k).Some?
    ensures var m := RowBest(all, key, i, k).value;
            !Below(key(all[i], all[j]), key(all[i], all[m]))
            && (j < m ==> Below(key(all[i], all[m]), key(all[i], all[j])))
    decreases k
  {
    var here := key(all[i], all[k - 1]);
    if j < k - 1 {
      RowBestMin(all, key, i, k - 1, j);
      var prev := RowBest(all, key, i, k - 1).value;
      var there := key(all[i], all[prev]);
      if all[k - 1] != all[i] && Below(here, there) {
        assert RowBest(all, key, i, k) == Some(k - 1);
        BelowPast(here, there, key(all[i], all[j]));
      } else {
        assert RowBest(all, key, i, k) == Some(prev);
      }
    }
  }

  /** The outer `minBy` over the rows `0 .. k-1`, each paired with its own
      best partner; `None` when there are no rows or one of them has no
      partner, where the Kotlin solver's inner `minBy` throws. */
  function PairBest(all: seq<Entry>, key: (Entry, Entry) -> Key, k: nat): (r: Option<(nat, nat)>)
    requires k <= |all|
    ensures r.Some? ==> r.value.0 < k && RowBest(all, key, r.value.0, |all|) == Some(r.value.1)
  {
    if k == 0 then None
    else
      var row := RowBest(all, key, k - 1, |all|);
      if row.None? then None
      else if k == 1 then Some((0, row.value))
      else
        var prev := PairBest(all, key, k - 1);
        if prev.None? then prev
        else if Below(key(all[k - 1], all[row.value]), key(all[prev.value.0], all[prev.value.1])) then Some((k - 1, row.value))
        else prev
  }

  /** There is no pair exactly when there are no rows or one row has no
      partner. */
  lemma {:induction false} PairBestNone(all: seq<Entry>, key: (Entry, Entry) -> Key, k: nat)
    requires k <= |all|
    ensures PairBest(all, key, k).None? <==> k == 0 || exists i :: 0 <= i < k && RowBest(all, key, i, |all|).None?
    decreases k
  {
    if k > 0 {
      if RowBest(all, key, k - 1, |all|).None? {
        assert PairBest(all, key, k).None?;
        assert exists i :: 0 <= i < k && RowBest(all, key, i, |all|).None? by {
          assert 0 <= k - 1 < k && RowBest(all, key, k - 1, |all|).None?;
        }
      } else if k == 1 {
        assert PairBest(all, key, k).Some?;
      } else {
        PairBestNone(all, key, k - 1);
        if PairBest(all, key, k).None? {
          assert PairBest(all, key, k - 1).None?;
          var i :| 0 <= i < k - 1 && RowBest(all, key, i, |all|).None?;
        } else {
          assert PairBest(all, key, k - 1).Some?;
          assert forall i :: 0 <= i < k - 1 ==> RowBest(all, key, i, |all|).Some?;
        }
      }
    }
  }

  /** A key below `b` is below every key that is not below `b`. */
  lemma BelowPast(a: Key, b: Key, c: Key)
    requires Below(a, b) && !Below(c, b)
    ensures Below(a, c)
  {
  }

  /** One step of the outer `minBy`: row `k-1` either takes over, being
      strictly below the best of the earlier rows, or leaves it in place. */
  lemma PairBestStep(all: seq<Entry>, key: (Entry, Entry) -> Key, k: nat)
    requires 1 < k <= |all| && PairBest(all, key, k).Some?
    ensures PairBest(all, key, k - 1).Some? && RowBest(all, key, k - 1, |all|).Some?
    ensures var best := PairBest(all, key, k).value;
            var prev := PairBest(all, key, k - 1).value;
            var j := RowBest(all, key, k - 1, |all|).value;
            if Below(key(all[k - 1], all[j]), key(all[prev.0], all[prev.1])) then best == (k - 1, j)
            else best == prev
  {
  }

  /** No row's best pair is below the chosen one. */
  lemma {:induction false} PairBestMin(all: seq<Entry>, key: (Entry, Entry) -> Key, k: nat, i: nat)
    requires k <= |all| && i < k && PairBest(all, key, k).Some?
    ensures RowBest(all, key, i, |all|).Some?
    ensures var best := PairBest(all, key, k).value;
            var j := RowBest(all, key, i, |all|).value;
            !Below(key(all[i], all[j]), key(all[best.0], all[best.1]))
    decreases k
  {
    if k > 1 {
      PairBestStep(all, key, k);
      if i < k - 1 {
        PairBestMin(all, key, k - 1, i);
      }
    }
  }

  /** The chosen pair is strictly below the best pair of every earlier row. */
  lemma {:induction false} PairBestFirst(all: seq<Entry>, key: (Entry, Entry) -> Key, k: nat, i: nat)
    requires k <= |all| && PairBest(all, key, k).Some? && i < PairBest(all, key, k).value.0
    ensures RowBest(all, key, i, |all|).Some?
    ensures var best := PairBest(all, key, k).value;
            var j := RowBest(all, key, i, |all|).value;
            Below(key(all[best.0], all[best.1]), key(all[i], all[j]))
    decreases k
  {
    PairBestStep(all, key, k);
    var best := PairBest(all, key, k).value;
    var prev := PairBest(all, key, k - 1).value;
    var j := RowBest(all, key, k - 1, |all|).value;
    var prevKey := key(all[prev.0], all[prev.1]);
    if Below(key(all[k - 1], all[j]), prevKey) {
      assert best == (k - 1, j);
      PairBestMin(all, key, k - 1, i);
      var m := RowBest(all, key, i, |all|).value;
      BelowPast(key(all[k - 1], all[j]), prevKey, key(all[i], all[m]));
    } else {
      assert best == prev;
      PairBestFirst(all, key, k - 1, i);
    }
  }

  /** The pair chosen by both `minBy`s: two different entries whose key is
      not beaten by any pair of different entries; ties go to the earliest
      row, then to the earliest partner in that row. There is no such pair
      exactly when all entries are equal (in particular, fewer than two). */
  function Select(all: seq<Entry>, key: (Entry, Entry) -> Key): (r: Result<(nat, nat), Error>)
    ensures r.Err? <==> forall i, j :: 0 <= i < |all| && 0 <= j < |all| ==> all[i] == all[j]
    ensures r.Err? ==> r.error == NoSuchElement
    ensures r.Ok? ==> r.value.0 < |all| && r.value.1 < |all| && all[r.value.0] != all[r.value.1]
    ensures r.Ok? ==> forall i, j :: 0 <= i < |all| && 0 <= j < |all| && all[i] != all[j] ==>
                        !Below(key(all[i], all[j]), key(all[r.value.0], all[r.value.1]))
    ensures r.Ok? ==> forall i, j :: 0 <= i < r.value.0 && 0 <= j < |all| && all[i] != all[j] ==>
                        Below(key(all[r.value.0], all[r.value.1]), key(all[i], all[j]))
    ensures r.Ok? ==> forall j :: 0 <= j < r.value.1 && all[j] != all[r.value.0] ==>
                        Below(key(all[r.value.0], all[r.value.1]), key(all[r.value.0], all[j]))
  {
    SelectNone(all, key);
    match PairBest(all, key, |all|)
    case None => Err(NoSuchElement)
    case Some(best) =>
      SelectMin(all, key, best);
      Ok(best)
  }

  /** Some row has no partner exactly when every entry is the same. */
  lemma SelectNone(all: seq<Entry>, key: (Entry, Entry) -> Key)
    ensures PairBest(all, key, |all|).None? <==> forall i, j :: 0 <= i < |all| && 0 <= j < |all| ==> all[i] == all[j]
  {
    PairBestNone(all, key, |all|);
    if PairBest(all, key, |all|).None? && |all| > 0 {
      var i :| 0 <= i < |all| && RowBest(all, key, i, |all|).None?;
      RowBestNone(all, key, i, |all|);
      assert forall j :: 0 <= j < |all| ==> all[j] == all[i];
    }
    if (forall i, j :: 0 <= i < |all| && 0 <= j < |all| ==> all[i] == all[j]) && |all| > 0 {
      RowBestNone(all, key, 0, |all|);
      assert RowBest(all, key, 0, |all|).None?;
    }
  }

  /** The row minima bound every pair, so the selected pair is a global
      minimum, and strictly below every pair of an earlier row. */
  lemma SelectMin(all: seq<Entry>, key: (Entry, Entry) -> Key, best: (nat, nat))
    requires PairBest(all, key, |all|) == Some(best)
    ensures best.0 < |all| && best.1 < |all| && all[best.0] != all[best.1]
    ensures forall i, j :: 0 <= i < |all| && 0 <= j < |all| && all[i] != all[j] ==>
              !Below(key(all[i], all[j]), key(all[best.0], all[best.1]))
    ensures forall i, j :: 0 <= i < best.0 && 0 <= j < |all| && all[i] != all[j] ==>
              Below(key(all[best.0], all[best.1]), key(all[i], all[j]))
    ensures forall j :: 0 <= j < best.1 && all[j] != all[best.0] ==>
              Below(key(all[best.0], all[best.1]), key(all[best.0], all[j]))
  {
    forall i, j | 0 <= i < |all| && 0 <= j < |all| && all[i] != all[j]
      ensures !Below(key(all[i], all[j]), key(all[best.0], all[best.1]))
      ensures i < best.0 ==> Below(key(all[best.0], all[best.1]), key(all[i], all[j]))
      ensures i == best.0 && j < best.1 ==> Below(key(all[best.0], all[best.1]), key(all[i], all[j]))
    {
      RowBestMin(all, key, i, |all|, j);
      var m := RowBest(all, key, i, |all|).value;
      PairBestMin(all, key, |all|, i);
      if i < best.0 {
        PairBestFirst(all, key, |all|, i);
        BelowPast(key(all[best.0], all[best.1]), key(all[i], all[m]), key(all[i], all[j]));
      }
    }
  }

  /** The first entry is free whenever the second is: the Kotlin solver swaps a
      (circuit, free) pair and leaves every other pair as it is. */
  function Swap(a: Entry, b: Entry): (r: (Entry, Entry))
    ensures r == (a, b) || r == (b, a)
    ensures r.0.circuit.Some? ==> r.1.circuit.Some?
    ensures a.circuit.None? || b.circuit.Some? ==> r == (a, b)
  {
    if a.circuit.Some? && b.circuit.None? then (b, a) else (a, b)
  }

  // ------------------------------------------------------ entries, state

  function FreeEntries(points: seq<Point3D>): (r: seq<Entry>)
    ensures |r| == |points| && forall k :: 0 <= k < |points| ==> r[k] == Entry(points[k], None)
  {
    seq(|points|, k requires 0 <= k < |points| => Entry(points[k], None))
  }

  function Tagged(c: Circuit): (r: seq<Entry>)
    ensures |r| == |c.points| && forall k :: 0 <= k < |c.points| ==> r[k] == Entry(c.points[k], Some(c.id))
  {
    seq(|c.points|, k requires 0 <= k < |c.points| => Entry(c.points[k], Some(c.id)))
  }

  /** `circuits.flatMap { ... PointWithFlag(p, it.id) }`. */
  function CircuitEntries(cs: seq<Circuit>): seq<Entry> {
    if |cs| == 0 then [] else CircuitEntries(cs[..|cs| - 1]) + Tagged(cs[|cs| - 1])
  }

  /** `allPoints`: the free boxes, untagged, then every circuit's boxes
      tagged with its id. */
  function Entries(s: State): seq<Entry> {
    FreeEntries(s.points) + CircuitEntries(s.circuits)
  }

  /** `circuits.flatMap { it.points }`. */
  function CircuitPoints(cs: seq<Circuit>): seq<Point3D> {
    if |cs| == 0 then [] else CircuitPoints(cs[..|cs| - 1]) + cs[|cs| - 1].points
  }

  /** How many circuits carry the id. */
  function Occurs(cs: seq<Circuit>, id: nat): nat {
    if |cs| == 0 then 0 else Occurs(cs[..|cs| - 1], id) + (if cs[|cs| - 1].id == id then 1 else 0)
  }

  /** Every box of the puzzle, free or in a circuit, with multiplicity. */
  function Members(s: State): multiset<Point3D> {
    multiset(s.points) + multiset(CircuitPoints(s.circuits))
  }

  /** The number of connected components: free boxes and circuits. */
  function Components(s: State): nat {
    |s.points| + |s.circuits|
  }

  /** No box is counted twice. */
  ghost predicate Distinct(s: State) {
    forall p :: Members(s)[p] <= 1
  }

  /** No two circuits share an id, and the counter is above every id. */
  ghost predicate FreshIds(cs: seq<Circuit>, nextId: nat) {
    && (forall id :: Occurs(cs, id) <= 1)
    && (forall k :: 0 <= k < |cs| ==> cs[k].id < nextId)
  }

  /** The state is a partition of distinct boxes into free boxes and
      circuits, and circuit ids are unique and below the counter. */
  ghost predicate Valid(s: State) {
    Distinct(s) && FreshIds(s.circuits, s.nextId)
  }

  /** The state before the first step. */
  function Init(points: seq<Point3D>): (s: State)
    ensures Members(s) == multiset(points) && Components(s) == |points|
    ensures Valid(s) <==> forall p :: multiset(points)[p] <= 1
  {
    State(points, [], 0, 0)
  }

  lemma {:induction false} CircuitEntryOrigin(cs: seq<Circuit>, e: Entry)
    requires e in CircuitEntries(cs)
    ensures e.circuit.Some?
    ensures exists k :: 0 <= k < |cs| && cs[k].id == e.circuit.value && e.point in cs[k].points
  {
    var n := |cs| - 1;
    if e in Tagged(cs[n]) {
      var i :| 0 <= i < |cs[n].points| && Tagged(cs[n])[i] == e;
      assert e.point in cs[n].points;
    } else {
      CircuitEntryOrigin(cs[..n], e);
      var k :| 0 <= k < n && cs[..n][k].id == e.circuit.value && e.point in cs[..n][k].points;
      assert cs[k] == cs[..n][k];
    }
  }

  /** A free entry is a free box; a tagged entry is a box of the circuit
      carrying its tag. */
  lemma EntryOrigin(s: State, e: Entry)
    requires e in Entries(s)
    ensures e.circuit.None? ==> e.point in s.points
    ensures e.circuit.Some? ==> exists k :: 0 <= k < |s.circuits| && s.circuits[k].id == e.circuit.value
                                            && e.point in s.circuits[k].points
  {
    if e in FreeEntries(s.points) {
      var i :| 0 <= i < |s.points| && FreeEntries(s.points)[i] == e;
    } else {
      CircuitEntryOrigin(s.circuits, e);
    }
  }

  lemma {:induction false} InCircuitPoints(cs: seq<Circuit>, k: nat, p: Point3D)
    requires k < |cs| && p in cs[k].points
    ensures p in CircuitPoints(cs)
  {
    var n := |cs| - 1;
    if k < n {
      assert cs[..n][k] == cs[k];
      InCircuitPoints(cs[..n], k, p);
    }
  }

  lemma {:induction false} CircuitPointsOrigin(cs: seq<Circuit>, p: Point3D)
    requires p in CircuitPoints(cs)
    ensures exists k :: 0 <= k < |cs| && p in cs[k].points
  {
    var n := |cs| - 1;
    if p !in cs[n].points {
      CircuitPointsOrigin(cs[..n], p);
      var k :| 0 <= k < n && p in cs[..n][k].points;
      assert cs[..n][k] == cs[k];
    }
  }

  lemma CircuitPointsAppend(cs: seq<Circuit>, c: Circuit)
    ensures CircuitPoints(cs + [c]) == CircuitPoints(cs) + c.points
    ensures Occurs(cs + [c], c.id) == Occurs(cs, c.id) + 1
    ensures forall id :: id != c.id ==> Occurs(cs + [c], id) == Occurs(cs, id)
  {
    assert (cs + [c])[..|cs|] == cs;
  }

  lemma {:induction false} OccursAt(cs: seq<Circuit>, i: nat, j: nat)
    requires i < |cs| && j < |cs|
    ensures Occurs(cs, cs[i].id) >= 1
    ensures i != j && cs[i].id == cs[j].id ==> Occurs(cs, cs[i].id) >= 2
  {
    var n := |cs| - 1;
    if i < n && j < n {
      assert cs[..n][i] == cs[i] && cs[..n][j] == cs[j];
      OccursAt(cs[..n], i, j);
    } else if i < n {
      assert cs[..n][i] == cs[i];
      OccursAt(cs[..n], i, i);
    } else if j < n {
      assert cs[..n][j] == cs[j];
      OccursAt(cs[..n], j, j);
    }
  }

  lemma {:induction false} OccursAbsent(cs: seq<Circuit>, id: nat)
    requires forall k :: 0 <= k < |cs| ==> cs[k].id != id
    ensures Occurs(cs, id) == 0
  {
    if |cs| > 0 {
      var n := |cs| - 1;
      assert forall k :: 0 <= k < n ==> cs[..n][k] == cs[k];
      OccursAbsent(cs[..n], id);
    }
  }

  // ------------------------------------------------------------- updates

  /** `points.filter { it != p && it != q }`. */
  function Without(ps: seq<Point3D>, p: Point3D, q: Point3D): seq<Point3D> {
    if |ps| == 0 then []
    else
      var rest := Without(ps[..|ps| - 1], p, q);
      var x := ps[|ps| - 1];
      if x != p && x != q then rest + [x] else rest
  }

  /** The filter keeps exactly the boxes other than the two. */
  lemma {:induction false} WithoutMembers(ps: seq<Point3D>, p: Point3D, q: Point3D)
    ensures forall x :: x in Without(ps, p, q) <==> x in ps && x != p && x != q
  {
    if |ps| > 0 {
      var n := |ps| - 1;
      WithoutMembers(ps[..n], p, q);
      assert ps == ps[..n] + [ps[n]];
    }
  }

  /** Filtering removes every copy of the two boxes and keeps the rest. */
  lemma {:induction false} WithoutCount(ps: seq<Point3D>, p: Point3D, q: Point3D)
    ensures forall x :: multiset(Without(ps, p, q))[x] == if x == p || x == q then 0 else multiset(ps)[x]
    ensures |Without(ps, p, q)| + multiset(ps)[p] + (if q != p then multiset(ps)[q] else 0) == |ps|
  {
    WithoutMultiset(ps, p, q);
    WithoutSize(ps, p, q);
  }

  lemma {:induction false} WithoutMultiset(ps: seq<Point3D>, p: Point3D, q: Point3D)
    ensures forall x :: multiset(Without(ps, p, q))[x] == if x == p || x == q then 0 else multiset(ps)[x]
  {
    if |ps| > 0 {
      var n := |ps| - 1;
      var rest, x := Without(ps[..n], p, q), ps[n];
      WithoutMultiset(ps[..n], p, q);
      assert multiset(ps) == multiset(ps[..n]) + multiset{x} by {
        assert ps == ps[..n] + [x];
      }
      if x != p && x != q {
        assert multiset(Without(ps, p, q)) == multiset(rest) + multiset{x};
      } else {
        assert Without(ps, p, q) == rest;
      }
    }
  }

  lemma {:induction false} WithoutSize(ps: seq<Point3D>, p: Point3D, q: Point3D)
    ensures |Without(ps, p, q)| + multiset(ps)[p] + (if q != p then multiset(ps)[q] else 0) == |ps|
  {
    if |ps| > 0 {
      var n := |ps| - 1;
      var x := ps[n];
      WithoutSize(ps[..n], p, q);
      assert multiset(ps) == multiset(ps[..n]) + multiset{x} by {
        assert ps == ps[..n] + [x];
      }
    }
  }

  /** `circuits.map { if (it.id == id) it.copy(points = it.points + p) else it }`. */
  function Extend(cs: seq<Circuit>, id: nat, p: Point3D): seq<Circuit> {
    if |cs| == 0 then []
    else
      var c := cs[|cs| - 1];
      Extend(cs[..|cs| - 1], id, p) + [if c.id == id then Circuit(id, c.points + [p]) else c]
  }

  /** The circuit carrying the id gains the box at its end; every other
      circuit stays as it is, in place. */
  lemma {:induction false} ExtendShape(cs: seq<Circuit>, id: nat, p: Point3D)
    ensures |Extend(cs, id, p)| == |cs|
    ensures forall k :: 0 <= k < |cs| ==>
              Extend(cs, id, p)[k] == if cs[k].id == id then Circuit(id, cs[k].points + [p]) else cs[k]
  {
    if |cs| > 0 {
      var n := |cs| - 1;
      ExtendShape(cs[..n], id, p);
    }
  }

  /** The box is added once per circuit carrying the id; ids stay put. */
  lemma {:induction false} ExtendCount(cs: seq<Circuit>, id: nat, p: Point3D)
    ensures forall x :: multiset(CircuitPoints(Extend(cs, id, p)))[x]
                        == multiset(CircuitPoints(cs))[x] + (if x == p then Occurs(cs, id) else 0)
    ensures forall z :: Occurs(Extend(cs, id, p), z) == Occurs(cs, z)
  {
    if |cs| > 0 {
      var n := |cs| - 1;
      var e := Extend(cs, id, p);
      ExtendCount(cs[..n], id, p);
      ExtendShape(cs[..n], id, p);
      assert e[..n] == Extend(cs[..n], id, p);
    }
  }

  /** A circuit is one of the two being merged when its id is one of the
      entries' tags (an untagged entry matches no circuit). */
  predicate Belongs(c: Circuit, ia: Option<nat>, ib: Option<nat>) {
    Some(c.id) == ia || Some(c.id) == ib
  }

  /** `circuits.filter { it.id == first.circuitId || it.id == second.circuitId }`. */
  function Keep(cs: seq<Circuit>, ia: Option<nat>, ib: Option<nat>): seq<Circuit> {
    if |cs| == 0 then []
    else
      var rest := Keep(cs[..|cs| - 1], ia, ib);
      var c := cs[|cs| - 1];
      if Belongs(c, ia, ib) then rest + [c] else rest
  }

  /** `circuits.filter { it.id != first.circuitId && it.id != second.circuitId }`. */
  function Drop(cs: seq<Circuit>, ia: Option<nat>, ib: Option<nat>): seq<Circuit> {
    if |cs| == 0 then []
    else
      var rest := Drop(cs[..|cs| - 1], ia, ib);
      var c := cs[|cs| - 1];
      if Belongs(c, ia, ib) then rest else rest + [c]
  }

  /** The first filter keeps exactly the circuits carrying a tag, the
      second exactly the others. */
  lemma {:induction false} KeepDropMembers(cs: seq<Circuit>, ia: Option<nat>, ib: Option<nat>)
    ensures forall c :: c in Keep(cs, ia, ib) <==> c in cs && Belongs(c, ia, ib)
    ensures forall c :: c in Drop(cs, ia, ib) <==> c in cs && !Belongs(c, ia, ib)
  {
    if |cs| > 0 {
      var n := |cs| - 1;
      KeepDropMembers(cs[..n], ia, ib);
      assert cs == cs[..n] + [cs[n]];
    }
  }

  /** The two filters split the boxes of the circuits between them. */
  lemma KeepDropPoints(cs: seq<Circuit>, ia: Option<nat>, ib: Option<nat>)
    ensures multiset(CircuitPoints(Keep(cs, ia, ib))) + multiset(CircuitPoints(Drop(cs, ia, ib)))
            == multiset(CircuitPoints(cs))
  {
    forall x
      ensures multiset(CircuitPoints(Keep(cs, ia, ib)))[x] + multiset(CircuitPoints(Drop(cs, ia, ib)))[x]
              == multiset(CircuitPoints(cs))[x]
    {
      KeepDropCount(cs, ia, ib, x);
    }
  }

  /** Each box is counted as often between the two filters as before. */
  lemma {:induction false} KeepDropCount(cs: seq<Circuit>, ia: Option<nat>, ib: Option<nat>, x: Point3D)
    ensures multiset(CircuitPoints(Keep(cs, ia, ib)))[x] + multiset(CircuitPoints(Drop(cs, ia, ib)))[x]
            == multiset(CircuitPoints(cs))[x]
  {
    if |cs| > 0 {
      var n := |cs| - 1;
      var c := cs[n];
      var k, d := Keep(cs[..n], ia, ib), Drop(cs[..n], ia, ib);
      KeepDropCount(cs[..n], ia, ib, x);
      assert CircuitPoints(cs) == CircuitPoints(cs[..n]) + c.points;
      if Belongs(c, ia, ib) {
        CircuitPointsAppend(k, c);
        assert CircuitPoints(Keep(cs, ia, ib)) == CircuitPoints(k) + c.points;
        assert Drop(cs, ia, ib) == d;
      } else {
        CircuitPointsAppend(d, c);
        assert CircuitPoints(Drop(cs, ia, ib)) == CircuitPoints(d) + c.points;
        assert Keep(cs, ia, ib) == k;
      }
    }
  }

  /** Every circuit passes exactly one of the two filters. */
  lemma {:induction false} KeepDropSize(cs: seq<Circuit>, ia: Option<nat>, ib: Option<nat>)
    ensures |Keep(cs, ia, ib)| + |Drop(cs, ia, ib)| == |cs|
  {
    if |cs| > 0 {
      KeepDropSize(cs[..|cs| - 1], ia, ib);
    }
  }

  /** Each id is counted once between the two filters. */
  lemma {:induction false} KeepDropIds(cs: seq<Circuit>, ia: Option<nat>, ib: Option<nat>, z: nat)
    ensures Occurs(Keep(cs, ia, ib), z) + Occurs(Drop(cs, ia, ib), z) == Occurs(cs, z)
  {
    if |cs| > 0 {
      var n := |cs| - 1;
      var c := cs[n];
      KeepDropIds(cs[..n], ia, ib, z);
      var k, d := Keep(cs[..n], ia, ib), Drop(cs[..n], ia, ib);
      if Belongs(c, ia, ib) {
        assert Keep(cs, ia, ib) == k + [c] && Drop(cs, ia, ib) == d;
        OccursAppend(k, c, z);
      } else {
        assert Keep(cs, ia, ib) == k && Drop(cs, ia, ib) == d + [c];
        OccursAppend(d, c, z);
      }
    }
  }

  lemma OccursAppend(cs: seq<Circuit>, c: Circuit, z: nat)
    ensures Occurs(cs + [c], z) == Occurs(cs, z) + (if c.id == z then 1 else 0)
  {
    assert (cs + [c])[..|cs|] == cs;
  }

  /** No dropped circuit carries either tag. */
  lemma DropUntagged(cs: seq<Circuit>, ia: Option<nat>, ib: Option<nat>, z: nat)
    requires Some(z) == ia || Some(z) == ib
    ensures Occurs(Drop(cs, ia, ib), z) == 0
  {
    var d := Drop(cs, ia, ib);
    KeepDropMembers(cs, ia, ib);
    forall k | 0 <= k < |d| ensures d[k].id != z {
      assert d[k] in d;
    }
    OccursAbsent(d, z);
  }

  /** Kept circuits carry one of the two tags, so with two different tags
      the kept ones number the circuits carrying either. */
  lemma {:induction false} KeepSize(cs: seq<Circuit>, x: nat, y: nat)
    requires x != y
    ensures |Keep(cs, Some(x), Some(y))| == Occurs(cs, x) + Occurs(cs, y)
  {
    if |cs| > 0 {
      KeepSize(cs[..|cs| - 1], x, y);
    }
  }

  /** The boxes of the kept circuits are the boxes of the circuits that
      carry one of the two tags. */
  lemma KeepPointsIn(cs: seq<Circuit>, ia: Option<nat>, ib: Option<nat>, p: Point3D)
    ensures p in CircuitPoints(Keep(cs, ia, ib)) <==>
              exists k :: 0 <= k < |cs| && Belongs(cs[k], ia, ib) && p in cs[k].points
  {
    var kept := Keep(cs, ia, ib);
    KeepDropMembers(cs, ia, ib);
    if p in CircuitPoints(kept) {
      CircuitPointsOrigin(kept, p);
      var i :| 0 <= i < |kept| && p in kept[i].points;
      assert kept[i] in kept;
      var k :| 0 <= k < |cs| && cs[k] == kept[i];
    }
    if exists k :: 0 <= k < |cs| && Belongs(cs[k], ia, ib) && p in cs[k].points {
      var k :| 0 <= k < |cs| && Belongs(cs[k], ia, ib) && p in cs[k].points;
      assert cs[k] in kept;
      var i :| 0 <= i < |kept| && kept[i] == cs[k];
      InCircuitPoints(kept, i, p);
    }
  }

  // ------------------------------------------------------------- connect

  /** The update after the pair (a, b) has been chosen, `a` being free
      whenever `b` is: a new circuit for two free boxes, a free box joining
      `b`'s circuit, two circuits merged into a new one, or nothing when
      both are already in the same circuit. */
  function Connect(s: State, a: Entry, b: Entry): (t: State)
    ensures t.last == SqDist(a.point, b.point) && t.nextId >= s.nextId
  {
    var last := SqDist(a.point, b.point);
    if a.circuit.None? then
      var points := Without(s.points, a.point, b.point);
      if b.circuit.Some? then State(points, Extend(s.circuits, b.circuit.value, a.point), last, s.nextId)
      else State(points, s.circuits + [Circuit(s.nextId, [a.point, b.point])], last, s.nextId + 1)
    else if a.circuit != b.circuit then
      var merged := Circuit(s.nextId, CircuitPoints(Keep(s.circuits, a.circuit, b.circuit)));
      State(s.points, Drop(s.circuits, a.circuit, b.circuit) + [merged], last, s.nextId + 1)
    else
      s.(last := last)
  }

  /** Some circuit holds both boxes. */
  predicate Together(s: State, p: Point3D, q: Point3D) {
    exists k :: 0 <= k < |s.circuits| && p in s.circuits[k].points && q in s.circuits[k].points
  }

  /** A free entry's box is free exactly once and in no circuit. */
  lemma FreeEntry(s: State, a: Entry)
    requires Distinct(s) && a in Entries(s) && a.circuit.None?
    ensures multiset(s.points)[a.point] == 1 && multiset(CircuitPoints(s.circuits))[a.point] == 0
  {
    EntryOrigin(s, a);
    assert Members(s)[a.point] <= 1;
  }

  /** A tagged entry's box is not free, and its tag is the id of exactly
      one circuit, which holds the box. */
  lemma TaggedEntry(s: State, b: Entry) returns (k: nat)
    requires Valid(s) && b in Entries(s) && b.circuit.Some?
    ensures k < |s.circuits| && s.circuits[k].id == b.circuit.value && b.point in s.circuits[k].points
    ensures multiset(s.points)[b.point] == 0 && Occurs(s.circuits, b.circuit.value) == 1
  {
    EntryOrigin(s, b);
    k :| 0 <= k < |s.circuits| && s.circuits[k].id == b.circuit.value && b.point in s.circuits[k].points;
    InCircuitPoints(s.circuits, k, b.point);
    assert Members(s)[b.point] <= 1;
    OccursAt(s.circuits, k, k);
  }

  /** Two free boxes: both leave the free list and form a new circuit with a
      fresh id after the old circuits. */
  lemma ConnectNew(s: State, a: Entry, b: Entry)
    requires Valid(s) && a in Entries(s) && b in Entries(s) && a != b
    requires a.circuit.None? && b.circuit.None?
    ensures var t := Connect(s, a, b);
            Valid(t) && Members(t) == Members(s) && Components(t) + 1 == Components(s)
    ensures var t := Connect(s, a, b);
            forall p :: p in t.points <==> p in s.points && p != a.point && p != b.point
    ensures var t := Connect(s, a, b); var n := |s.circuits|;
            |t.circuits| == n + 1 && t.circuits[..n] == s.circuits
            && t.circuits[n].points == [a.point, b.point] && Occurs(s.circuits, t.circuits[n].id) == 0
    ensures Together(Connect(s, a, b), a.point, b.point)
  {
    var pa, pb := a.point, b.point;
    var c := Circuit(s.nextId, [pa, pb]);
    var t := Connect(s, a, b);
    assert t == State(Without(s.points, pa, pb), s.circuits + [c], SqDist(pa, pb), s.nextId + 1);
    NewCircuitMembers(s, a, b, s.nextId);
    assert Members(t) == Members(s);
    OccursAbsent(s.circuits, s.nextId);
    assert FreshIds(t.circuits, t.nextId);
    WithoutMembers(s.points, pa, pb);
    assert t.circuits[|s.circuits|] == c;
  }

  /** Moving two free boxes into a new circuit keeps every box once and
      shortens the free list by two. */
  lemma NewCircuitMembers(s: State, a: Entry, b: Entry, id: nat)
    requires Valid(s) && a in Entries(s) && b in Entries(s) && a != b
    requires a.circuit.None? && b.circuit.None?
    ensures var pts := Without(s.points, a.point, b.point);
            && multiset(pts) + multiset(CircuitPoints(s.circuits + [Circuit(id, [a.point, b.point])])) == Members(s)
            && |pts| + 2 == |s.points|
  {
    var pa, pb := a.point, b.point;
    FreeEntry(s, a);
    FreeEntry(s, b);
    WithoutTwo(s.points, pa, pb);
    CircuitPointsAppend(s.circuits, Circuit(id, [pa, pb]));
    assert multiset([pa, pb]) == multiset{pa, pb};
  }

  /** Filtering out two different boxes that occur once each. */
  lemma WithoutTwo(ps: seq<Point3D>, p: Point3D, q: Point3D)
    requires p != q && multiset(ps)[p] == 1 && multiset(ps)[q] == 1
    ensures multiset(Without(ps, p, q)) + multiset{p, q} == multiset(ps)
    ensures |Without(ps, p, q)| + 2 == |ps|
  {
    WithoutMultiset(ps, p, q);
    WithoutSize(ps, p, q);
    assert forall x :: (multiset(Without(ps, p, q)) + multiset{p, q})[x] == multiset(ps)[x];
  }

  /** Filtering out a box that occurs once and one that does not occur. */
  lemma WithoutOne(ps: seq<Point3D>, p: Point3D, q: Point3D)
    requires multiset(ps)[p] == 1 && multiset(ps)[q] == 0
    ensures multiset(Without(ps, p, q)) + multiset{p} == multiset(ps)
    ensures |Without(ps, p, q)| + 1 == |ps|
  {
    WithoutMultiset(ps, p, q);
    WithoutSize(ps, p, q);
    assert forall x :: (multiset(Without(ps, p, q)) + multiset{p})[x] == multiset(ps)[x];
  }

  /** A free box and a box in a circuit: the free box leaves the free list
      and is appended to that circuit; every other circuit is unchanged. */
  lemma ConnectJoin(s: State, a: Entry, b: Entry)
    requires Valid(s) && a in Entries(s) && b in Entries(s)
    requires a.circuit.None? && b.circuit.Some?
    ensures var t := Connect(s, a, b);
            Valid(t) && Members(t) == Members(s) && Components(t) + 1 == Components(s)
    ensures var t := Connect(s, a, b);
            forall p :: p in t.points <==> p in s.points && p != a.point
    ensures var t := Connect(s, a, b);
            |t.circuits| == |s.circuits|
            && (forall k :: 0 <= k < |s.circuits| && s.circuits[k].id != b.circuit.value ==> t.circuits[k] == s.circuits[k])
            && (forall k :: 0 <= k < |s.circuits| && s.circuits[k].id == b.circuit.value ==>
                  t.circuits[k] == s.circuits[k].(points := s.circuits[k].points + [a.point]))
    ensures Together(Connect(s, a, b), a.point, b.point)
  {
    var pa, pb, id := a.point, b.point, b.circuit.value;
    var k := TaggedEntry(s, b);
    var cs := Extend(s.circuits, id, pa);
    var t := Connect(s, a, b);
    assert t == State(Without(s.points, pa, pb), cs, SqDist(pa, pb), s.nextId);
    JoinMembers(s, a, b);
    assert Members(t) == Members(s);
    WithoutMembers(s.points, pa, pb);
    ExtendCount(s.circuits, id, pa);
    ExtendShape(s.circuits, id, pa);
    assert FreshIds(t.circuits, t.nextId);
    assert pa in t.circuits[k].points && pb in t.circuits[k].points;
  }

  /** Moving a free box into the circuit of a tagged one keeps every box
      once and shortens the free list by one. */
  lemma JoinMembers(s: State, a: Entry, b: Entry)
    requires Valid(s) && a in Entries(s) && b in Entries(s)
    requires a.circuit.None? && b.circuit.Some?
    ensures var pts := Without(s.points, a.point, b.point);
            && multiset(pts) + multiset(CircuitPoints(Extend(s.circuits, b.circuit.value, a.point))) == Members(s)
            && |pts| + 1 == |s.points|
  {
    var pa, pb := a.point, b.point;
    FreeEntry(s, a);
    var _ := TaggedEntry(s, b);
    WithoutOne(s.points, pa, pb);
    ExtendOnce(s.circuits, b.circuit.value, pa);
  }

  /** Extending the one circuit that carries the id adds the box once. */
  lemma ExtendOnce(cs: seq<Circuit>, id: nat, p: Point3D)
    requires Occurs(cs, id) == 1
    ensures multiset(CircuitPoints(Extend(cs, id, p))) == multiset(CircuitPoints(cs)) + multiset{p}
  {
    ExtendCount(cs, id, p);
    var grown := multiset(CircuitPoints(Extend(cs, id, p)));
    assert forall x :: grown[x] == (multiset(CircuitPoints(cs)) + multiset{p})[x];
  }

  /** Two different circuits: both are replaced, after the circuits that
      carry neither tag, by one circuit with a fresh id holding exactly
      their boxes; the free list is unchanged. */
  lemma ConnectMerge(s: State, a: Entry, b: Entry)
    requires Valid(s) && a in Entries(s) && b in Entries(s)
    requires a.circuit.Some? && b.circuit.Some? && a.circuit != b.circuit
    ensures var t := Connect(s, a, b);
            Valid(t) && Members(t) == Members(s) && Components(t) + 1 == Components(s)
    ensures Connect(s, a, b).points == s.points
    ensures var t := Connect(s, a, b);
            forall c :: c in s.circuits && !Belongs(c, a.circuit, b.circuit) ==> c in t.circuits
    ensures var t := Connect(s, a, b); var m := t.circuits[|t.circuits| - 1];
            && Occurs(s.circuits, m.id) == 0
            && forall p :: p in m.points <==> exists k :: 0 <= k < |s.circuits| && Belongs(s.circuits[k], a.circuit, b.circuit)
                                                           && p in s.circuits[k].points
    ensures Together(Connect(s, a, b), a.point, b.point)
  {
    var cs := s.circuits;
    var t := Connect(s, a, b);
    var m := t.circuits[|t.circuits| - 1];
    MergeCounts(s, a, b);
    MergeIds(s, a, b);
    OccursAbsent(cs, s.nextId);
    forall p ensures p in m.points <==> exists k :: 0 <= k < |cs| && Belongs(cs[k], a.circuit, b.circuit) && p in cs[k].points {
      KeepPointsIn(cs, a.circuit, b.circuit, p);
    }
    var ka := TaggedEntry(s, a);
    var kb := TaggedEntry(s, b);
    assert a.point in m.points && b.point in m.points;
  }

  /** The merge keeps the boxes and removes one component. */
  lemma MergeCounts(s: State, a: Entry, b: Entry)
    requires Valid(s) && a in Entries(s) && b in Entries(s)
    requires a.circuit.Some? && b.circuit.Some? && a.circuit != b.circuit
    ensures var t := Connect(s, a, b);
            Members(t) == Members(s) && Components(t) + 1 == Components(s)
  {
    var cs := s.circuits;
    var ka := TaggedEntry(s, a);
    var kb := TaggedEntry(s, b);
    var kept, dropped := Keep(cs, a.circuit, b.circuit), Drop(cs, a.circuit, b.circuit);
    var m := Circuit(s.nextId, CircuitPoints(kept));
    var t := Connect(s, a, b);
    assert t == State(s.points, dropped + [m], SqDist(a.point, b.point), s.nextId + 1);
    KeepSize(cs, a.circuit.value, b.circuit.value);
    KeepDropSize(cs, a.circuit, b.circuit);
    KeepDropPoints(cs, a.circuit, b.circuit);
    CircuitPointsAppend(dropped, m);
  }

  /** The merge keeps ids unique and below the counter, and keeps every
      circuit carrying neither tag. */
  lemma MergeIds(s: State, a: Entry, b: Entry)
    requires Valid(s)
    requires a.circuit.Some? && b.circuit.Some? && a.circuit != b.circuit
    ensures FreshIds(Connect(s, a, b).circuits, Connect(s, a, b).nextId)
    ensures var t := Connect(s, a, b);
            forall c :: c in s.circuits && !Belongs(c, a.circuit, b.circuit) ==> c in t.circuits
  {
    var cs := s.circuits;
    var kept, dropped := Keep(cs, a.circuit, b.circuit), Drop(cs, a.circuit, b.circuit);
    var m := Circuit(s.nextId, CircuitPoints(kept));
    var t := Connect(s, a, b);
    assert t == State(s.points, dropped + [m], SqDist(a.point, b.point), s.nextId + 1);
    KeepDropMembers(cs, a.circuit, b.circuit);
    OccursAbsent(cs, s.nextId);
    forall z ensures Occurs(t.circuits, z) <= 1 {
      KeepDropIds(cs, a.circuit, b.circuit, z);
      OccursAppend(dropped, m, z);
    }
    forall k | 0 <= k < |t.circuits| ensures t.circuits[k].id < t.nextId {
      if k < |dropped| {
        assert dropped[k] in dropped;
      }
    }
  }

  /** Two boxes of the same circuit: only the distance floor moves. */
  lemma ConnectSame(s: State, a: Entry, b: Entry)
    requires Valid(s) && a in Entries(s) && b in Entries(s)
    requires a.circuit.Some? && a.circuit == b.circuit
    ensures Connect(s, a, b) == s.(last := SqDist(a.point, b.point))
    ensures Valid(Connect(s, a, b))
    ensures Together(s, a.point, b.point)
  {
    var ka := TaggedEntry(s, a);
    var kb := TaggedEntry(s, b);
    OccursAt(s.circuits, ka, kb);
    var t := Connect(s, a, b);
    assert t.points == s.points && t.circuits == s.circuits;
    assert Members(t) == Members(s);
  }

  /** The step after a choice: the invariant and the boxes are kept, two
      components become one unless the boxes already shared a circuit, and
      afterwards they do. */
  lemma ConnectStep(s: State, a: Entry, b: Entry)
    requires Valid(s) && a in Entries(s) && b in Entries(s) && a != b
    requires a.circuit.Some? ==> b.circuit.Some?
    ensures var t := Connect(s, a, b);
            && Valid(t) && Members(t) == Members(s)
            && Components(t) == Components(s) - (if a.circuit.Some? && a.circuit == b.circuit then 0 else 1)
            && Together(t, a.point, b.point)
  {
    if a.circuit.None? && b.circuit.None? {
      ConnectNew(s, a, b);
    } else if a.circuit.None? {
      ConnectJoin(s, a, b);
    } else if a.circuit != b.circuit {
      ConnectMerge(s, a, b);
    } else {
      ConnectSame(s, a, b);
    }
  }

  // ---------------------------------------------------------------- step

  /** The masked key against the current distance floor. */
  function KeyAt(last: nat): (Entry, Entry) -> Key {
    (p: Entry, o: Entry) => MaskedKey(p, o, last)
  }

  lemma MaskedKeySymmetric(p: Entry, o: Entry, last: nat)
    ensures MaskedKey(p, o, last) == MaskedKey(o, p, last)
  {
    SqDistProperties(p.point, o.point);
  }

  /** Both `minBy`s over `allPoints`, then the swap: two different entries,
      the free one first. */
  function Choose(s: State): (r: Result<(Entry, Entry), Error>)
    ensures r.Ok? ==> r.value.0 in Entries(s) && r.value.1 in Entries(s) && r.value.0 != r.value.1
    ensures r.Ok? ==> (r.value.0.circuit.Some? ==> r.value.1.circuit.Some?)
  {
    var all := Entries(s);
    var best :- Select(all, KeyAt(s.last));
    Ok(Swap(all[best.0], all[best.1]))
  }

  /** There is nothing to choose exactly when all entries are the same box
      with the same tag, in particular when there are fewer than two. */
  lemma ChooseFails(s: State)
    ensures var all := Entries(s);
            Choose(s).Err? <==> forall i, j :: 0 <= i < |all| && 0 <= j < |all| ==> all[i] == all[j]
    ensures Choose(s).Err? ==> Choose(s).error == NoSuchElement
  {
  }

  /** No pair of different entries has a smaller masked key than the
      chosen pair. */
  lemma ChooseMinimal(s: State)
    requires Choose(s).Ok?
    ensures var all := Entries(s); var (a, b) := Choose(s).value;
            forall i, j :: 0 <= i < |all| && 0 <= j < |all| && all[i] != all[j] ==>
                             !Below(MaskedKey(all[i], all[j], s.last), MaskedKey(a, b, s.last))
  {
    var all := Entries(s);
    var best := Select(all, KeyAt(s.last)).value;
    MaskedKeySymmetric(all[best.0], all[best.1], s.last);
  }

  /** When some pair of different entries lies beyond the floor, the chosen
      pair does too, and no such pair is closer. */
  lemma ChooseAbove(s: State)
    requires Choose(s).Ok?
    ensures var all := Entries(s); var (a, b) := Choose(s).value;
            forall i, j :: 0 <= i < |all| && 0 <= j < |all| && all[i] != all[j]
                           && s.last < SqDist(all[i].point, all[j].point) ==>
                             s.last < SqDist(a.point, b.point) <= SqDist(all[i].point, all[j].point)
  {
    ChooseMinimal(s);
    var all := Entries(s);
    var (a, b) := Choose(s).value;
    forall i, j | 0 <= i < |all| && 0 <= j < |all| && all[i] != all[j] && s.last < SqDist(all[i].point, all[j].point)
      ensures s.last < SqDist(a.point, b.point) <= SqDist(all[i].point, all[j].point)
    {
      NotBelowAbove(all[i], all[j], a, b, s.last);
    }
  }

  /** A pair beyond the floor that is not below the chosen key bounds it. */
  lemma NotBelowAbove(p: Entry, o: Entry, a: Entry, b: Entry, last: nat)
    requires last < SqDist(p.point, o.point)
    requires !Below(MaskedKey(p, o, last), MaskedKey(a, b, last))
    ensures last < SqDist(a.point, b.point) <= SqDist(p.point, o.point)
  {
  }

  /** A snapshot of the loop: the state and the last pair joined. */
  datatype Snapshot = Snapshot(state: State, first: Point3D, second: Point3D)

  /** One iteration of the solvers' loop. */
  function Step(s: State): Result<Snapshot, Error> {
    var pair :- Choose(s);
    Ok(Snapshot(Connect(s, pair.0, pair.1), pair.0.point, pair.1.point))
  }

  /** A step keeps the partition and its boxes, removes at most one
      component, leaves the joined boxes in one circuit and sets the floor
      to their distance (above the old floor only when some pair was,
      see `ChooseAbove`). */
  lemma StepPreserves(s: State)
    requires Valid(s) && Step(s).Ok?
    ensures var t := Step(s).value;
            && Valid(t.state) && Members(t.state) == Members(s)
            && Components(s) - 1 <= Components(t.state) <= Components(s)
            && Together(t.state, t.first, t.second)
            && t.state.last == SqDist(t.first, t.second)
  {
    var pair := Choose(s).value;
    ConnectStep(s, pair.0, pair.1);
  }

  /** `n` iterations of a loop body in a row, stopping at the first
      failure. */
  function Iterate(step: State -> Result<Snapshot, Error>, snap: Snapshot, n: nat): Result<Snapshot, Error>
    decreases n
  {
    if n == 0 then Ok(snap)
    else
      var next :- step(snap.state);
      Iterate(step, next, n - 1)
  }

  /** Running `n + 1` iterations is running `n`, then one more. */
  lemma {:induction false} IterateSplit(step: State -> Result<Snapshot, Error>, snap: Snapshot, n: nat)
    requires Iterate(step, snap, n).Ok?
    ensures Iterate(step, snap, n + 1) == Iterate(step, Iterate(step, snap, n).value, 1)
    decreases n
  {
    if n > 0 {
      IterateSplit(step, step(snap.state).value, n - 1);
    }
  }

  /** What every successful iteration keeps holds after any number of them,
      and a measure that each iteration lowers by at most one is lowered by
      at most the number of iterations. */
  lemma {:induction false} IterateKeeps(step: State -> Result<Snapshot, Error>, inv: State -> bool,
                                        measure: State -> int, snap: Snapshot, n: nat)
    requires inv(snap.state)
    requires forall s :: inv(s) && step(s).Ok? ==>
                           inv(step(s).value.state)
                           && measure(s) - 1 <= measure(step(s).value.state) <= measure(s)
    requires Iterate(step, snap, n).Ok?
    ensures var t := Iterate(step, snap, n).value.state;
            inv(t) && measure(snap.state) - n <= measure(t) <= measure(snap.state)
    decreases n
  {
    if n > 0 {
      IterateKeeps(step, inv, measure, step(snap.state).value, n - 1);
    }
  }

  /** The solvers' loop: any number of steps keeps the partition and its
      boxes, and removes at most one component per step. */
  lemma StepsPreserve(snap: Snapshot, n: nat)
    requires Valid(snap.state) && Iterate(Step, snap, n).Ok?
    ensures var t := Iterate(Step, snap, n).value.state;
            Valid(t) && Members(t) == Members(snap.state)
            && Components(snap.state) - n <= Components(t) <= Components(snap.state)
  {
    var m := Members(snap.state);
    var inv := (s: State) => Valid(s) && Members(s) == m;
    var measure := (s: State) => Components(s) as int;
    forall s | inv(s) && Step(s).Ok?
      ensures inv(Step(s).value.state)
      ensures measure(s) - 1 <= measure(Step(s).value.state) <= measure(s)
    {
      StepPreserves(s);
    }
    IterateKeeps(Step, inv, measure, snap, n);
  }

  // -------------------------------------------------------------- part 1

  predicate Descending(s: seq<int>) {
    forall i, j :: 0 <= i < j < |s| ==> s[i] >= s[j]
  }

  function InsertDescending(x: int, s: seq<int>): (r: seq<int>)
    requires Descending(s)
    ensures Descending(r) && multiset(r) == multiset(s) + multiset{x}
  {
    if |s| == 0 then [x]
    else if x >= s[0] then [x] + s
    else
      var rest := InsertDescending(x, s[1..]);
      assert s == [s[0]] + s[1..];
      ConsDescending(s[0], rest, s[1..], x);
      [s[0]] + rest
  }

  lemma ConsDescending(h: int, r: seq<int>, t: seq<int>, x: int)
    requires Descending(r) && x < h && (forall i :: 0 <= i < |t| ==> t[i] <= h)
    requires multiset(r) == multiset(t) + multiset{x}
    ensures Descending([h] + r)
  {
    forall i | 0 <= i < |r| ensures r[i] <= h {
      assert r[i] in multiset(r);
      if r[i] != x {
        assert r[i] in multiset(t);
      }
    }
  }

  /** `sortedDescending()`. */
  function SortDescending(s: seq<int>): (r: seq<int>)
    ensures Descending(r) && multiset(r) == multiset(s)
  {
    if |s| == 0 then []
    else
      assert s == [s[0]] + s[1..];
      InsertDescending(s[0], SortDescending(s[1..]))
  }

  function Sizes(cs: seq<Circuit>): (r: seq<int>)
    ensures |r| == |cs| && forall k :: 0 <= k < |cs| ==> r[k] == |cs[k].points|
  {
    seq(|cs|, k requires 0 <= k < |cs| => |cs[k].points|)
  }

  /** `sortedDescending().take(3)`: up to three of the values, none smaller
      than a value left out. */
  function TopThree(s: seq<int>): (top: seq<int>)
    ensures |top| == if |s| < 3 then |s| else 3
    ensures Descending(top) && multiset(top) <= multiset(s)
    ensures forall x, y :: x in multiset(s) - multiset(top) && y in top ==> x <= y
  {
    var sorted := SortDescending(s);
    var m := if |sorted| < 3 then |sorted| else 3;
    TakeDescending(sorted, m);
    sorted[..m]
  }

  /** A prefix of a descending list is descending, and nothing left out of
      it is larger than anything in it. */
  lemma TakeDescending(s: seq<int>, m: nat)
    requires Descending(s) && m <= |s|
    ensures Descending(s[..m]) && multiset(s[..m]) <= multiset(s)
    ensures forall x, y :: x in multiset(s) - multiset(s[..m]) && y in s[..m] ==> x <= y
  {
    TakeMultiset(s, m);
    DescendingSplit(s, m);
    forall x, y | x in multiset(s) - multiset(s[..m]) && y in s[..m] ensures x <= y {
      assert x in multiset(s[m..]);
    }
  }

  /** What a prefix leaves out of a list is the rest of the list. */
  lemma TakeMultiset(s: seq<int>, m: nat)
    requires m <= |s|
    ensures multiset(s[..m]) <= multiset(s)
    ensures multiset(s) - multiset(s[..m]) == multiset(s[m..])
  {
    assert s == s[..m] + s[m..];
  }

  /** In a descending list, everything after position `m` is at most
      everything before it. */
  lemma DescendingSplit(s: seq<int>, m: nat)
    requires Descending(s) && m <= |s|
    ensures forall x, y :: x in s[m..] && y in s[..m] ==> x <= y
  {
    forall x, y | x in s[m..] && y in s[..m] ensures x <= y {
      var i :| 0 <= i < |s[m..]| && s[m..][i] == x;
      var j :| 0 <= j < |s[..m]| && s[..m][j] == y;
      assert s[m + i] == x && s[j] == y;
    }
  }

  /** `reduce { acc, i -> acc * i }`. */
  function Product(s: seq<int>): int
    requires |s| >= 1
  {
    if |s| == 1 then s[0] else Product(s[..|s| - 1]) * s[|s| - 1]
  }

  /** The product of the (up to) three largest circuit sizes; `reduce`
      throws when there is no circuit. */
  function LargestProduct(cs: seq<Circuit>): (r: Result<int, Error>)
    ensures r.Err? <==> |cs| == 0
    ensures r.Err? ==> r.error == EmptyReduce
    ensures r.Ok? ==> var top := TopThree(Sizes(cs)); |top| >= 1 && r.value == Product(top)
  {
    var top := TopThree(Sizes(cs));
    if |top| == 0 then Err(EmptyReduce) else Ok(Product(top))
  }

  /** The loop's starting point: every box free, no circuit, floor zero. */
  function Start(points: seq<Point3D>): Snapshot {
    Snapshot(Init(points), Point3D(0, 0, 0), Point3D(0, 0, 0))
  }

  /** `solvePart1`: exactly `iterations` steps (none when negative), then
      the product of the three largest circuit sizes. With distinct boxes,
      the circuits measured partition the input boxes, and each step has
      removed at most one component. */
  function Part1(lines: seq<string>, iterations: int): (r: Result<int, Error>)
    ensures ParsePoints(lines).Err? ==> r == Err(ParsePoints(lines).error)
    ensures r.Ok? ==>
              && ParsePoints(lines).Ok?
              && var points := ParsePoints(lines).value;
                 var n := if iterations < 0 then 0 else iterations;
                 && Iterate(Step, Start(points), n).Ok?
                 && var t := Iterate(Step, Start(points), n).value.state;
                    && |t.circuits| >= 1
                    && r.value == Product(TopThree(Sizes(t.circuits)))
                    && ((forall p :: multiset(points)[p] <= 1) ==>
                          Valid(t) && Members(t) == multiset(points) && |points| - n <= Components(t))
    ensures ParsePoints(lines).Ok? ==>
              var n := if iterations < 0 then 0 else iterations;
              var run := Iterate(Step, Start(ParsePoints(lines).value), n);
              && (run.Err? ==> r == Err(run.error))
              && (run.Ok? && |run.value.state.circuits| == 0 ==> r == Err(EmptyReduce))
              && (run.Ok? && |run.value.state.circuits| >= 1 ==> r.Ok?)
  {
    match ParsePoints(lines)
    case Err(e) => Err(e)
    case Ok(points) =>
      var n := if iterations < 0 then 0 else iterations;
      match Iterate(Step, Start(points), n)
      case Err(e) => Err(e)
      case Ok(final) =>
        Part1Partition(points, n);
        LargestProduct(final.state.circuits)
  }

  /** With distinct boxes, the circuits part 1 measures hold only input
      boxes, each at most once, and number at least `|boxes| - iterations`
      components together with the free boxes. */
  lemma Part1Partition(points: seq<Point3D>, n: nat)
    requires Iterate(Step, Start(points), n).Ok?
    ensures var t := Iterate(Step, Start(points), n).value.state;
            (forall p :: multiset(points)[p] <= 1) ==>
              Valid(t) && Members(t) == multiset(points) && |points| - n <= Components(t)
  {
    if forall p :: multiset(points)[p] <= 1 {
      StepsPreserve(Start(points), n);
    }
  }

  // -------------------------------------------------------------- part 2

  /** The loop condition of part 2 is false: no free box, one circuit. */
  predicate Done(s: State) {
    |s.points| == 0 && |s.circuits| == 1
  }

  /** Iterate until done, at most `fuel` times: the final snapshot and the
      number of iterations taken. The loop body itself never runs out of
      fuel. */
  function Settle(step: State -> Result<Snapshot, Error>, snap: Snapshot, fuel: nat): (r: Result<(Snapshot, nat), Error>)
    requires forall s :: step(s).Err? ==> step(s).error != OutOfFuel
    ensures r.Ok? ==> r.value.1 <= fuel && Iterate(step, snap, r.value.1) == Ok(r.value.0) && Done(r.value.0.state)
    ensures r.Ok? ==> forall m :: 0 <= m < r.value.1 ==>
                        Iterate(step, snap, m).Ok? && !Done(Iterate(step, snap, m).value.state)
    ensures r == Err(OutOfFuel) ==> forall m :: 0 <= m <= fuel ==>
                                      Iterate(step, snap, m).Ok? && !Done(Iterate(step, snap, m).value.state)
    ensures r.Err? && r.error != OutOfFuel ==> exists m :: 0 <= m < fuel && Iterate(step, snap, m).Ok?
                                                 && step(Iterate(step, snap, m).value.state) == Err(r.error)
    decreases fuel
  {
    if Done(snap.state) then Ok((snap, 0))
    else if fuel == 0 then Err(OutOfFuel)
    else
      match step(snap.state)
      case Err(e) =>
        assert Iterate(step, snap, 0) == Ok(snap);
        Err(e)
      case Ok(next) =>
        match Settle(step, next, fuel - 1)
        case Err(e) =>
          SettleFailsLater(step, snap, next, fuel, e);
          Err(e)
        case Ok(settled) => Ok((settled.0, settled.1 + 1))
  }

  /** A failure `m` iterations after the next snapshot is a failure `m + 1`
      iterations after this one. */
  lemma SettleFailsLater(step: State -> Result<Snapshot, Error>, snap: Snapshot, next: Snapshot, fuel: nat, e: Error)
    requires fuel >= 1 && step(snap.state) == Ok(next)
    requires e != OutOfFuel ==> exists m :: 0 <= m < fuel - 1 && Iterate(step, next, m).Ok?
                                            && step(Iterate(step, next, m).value.state) == Err(e)
    ensures e != OutOfFuel ==> exists m :: 0 <= m < fuel && Iterate(step, snap, m).Ok?
                                           && step(Iterate(step, snap, m).value.state) == Err(e)
  {
    if e != OutOfFuel {
      var m :| 0 <= m < fuel - 1 && Iterate(step, next, m).Ok? && step(Iterate(step, next, m).value.state) == Err(e);
      assert Iterate(step, snap, m + 1) == Iterate(step, next, m);
    }
  }

  /** When the loop did not start out done, it stopped right after a
      successful iteration. */
  lemma SettleLast(step: State -> Result<Snapshot, Error>, snap: Snapshot, fuel: nat)
    requires forall s :: step(s).Err? ==> step(s).error != OutOfFuel
    requires !Done(snap.state) && Settle(step, snap, fuel).Ok?
    ensures var (fin, n) := Settle(step, snap, fuel).value;
            n >= 1 && Iterate(step, snap, n - 1).Ok? && step(Iterate(step, snap, n - 1).value.state) == Ok(fin)
  {
    var (fin, n) := Settle(step, snap, fuel).value;
    IterateSplit(step, snap, n - 1);
  }

  /** A step only fails for want of a pair. */
  lemma StepErrors()
    ensures forall s :: Step(s).Err? ==> Step(s).error == NoSuchElement
  {
    forall s | Step(s).Err? ensures Step(s).error == NoSuchElement {
      ChooseFails(s);
    }
  }

  /** `solvePart2`: run until every box is in one circuit, then multiply
      the x coordinates of the last pair joined. With distinct boxes, that
      circuit holds every input box exactly once, the last pair included. */
  function Part2(lines: seq<string>, fuel: nat): (r: Result<int, Error>)
    ensures ParsePoints(lines).Err? ==> r == Err(ParsePoints(lines).error)
    ensures r.Ok? ==>
              && ParsePoints(lines).Ok?
              && (StepErrors();
                  var points := ParsePoints(lines).value;
                  && Settle(Step, Start(points), fuel).Ok?
                  && var fin := Settle(Step, Start(points), fuel).value.0;
                     && Done(fin.state)
                     && r.value == fin.first.x * fin.second.x
                     && ((forall p :: multiset(points)[p] <= 1) ==>
                           && |fin.state.circuits| == 1
                           && multiset(fin.state.circuits[0].points) == multiset(points)
                           && fin.first in fin.state.circuits[0].points
                           && fin.second in fin.state.circuits[0].points))
    ensures ParsePoints(lines).Ok? ==>
              (StepErrors();
               var settled := Settle(Step, Start(ParsePoints(lines).value), fuel);
               && (settled.Err? ==> r == Err(settled.error))
               && (settled.Ok? ==> r == Ok(settled.value.0.first.x * settled.value.0.second.x)))
  {
    var points :- ParsePoints(lines);
    StepErrors();
    var settled :- Settle(Step, Start(points), fuel);
    Part2Settles(points, fuel);
    Ok(settled.0.first.x * settled.0.second.x)
  }

  /** What every successful iteration keeps, and what it establishes
      about the snapshot it produces, hold when the loop stops after at
      least one iteration. */
  lemma SettleKeeps(step: State -> Result<Snapshot, Error>, inv: State -> bool, post: Snapshot -> bool,
                    snap: Snapshot, fuel: nat)
    requires forall s :: step(s).Err? ==> step(s).error != OutOfFuel
    requires inv(snap.state) && !Done(snap.state)
    requires forall s :: inv(s) && step(s).Ok? ==> inv(step(s).value.state) && post(step(s).value)
    requires Settle(step, snap, fuel).Ok?
    ensures var fin := Settle(step, snap, fuel).value.0;
            Done(fin.state) && inv(fin.state) && post(fin)
  {
    var (fin, n) := Settle(step, snap, fuel).value;
    SettleLast(step, snap, fuel);
    IterateKeeps(step, inv, (s: State) => 0, snap, n - 1);
  }

  /** Once done, the one circuit holds every box, and any two boxes that
      share a circuit are in it. */
  lemma DoneHoldsAll(t: State, p: Point3D, q: Point3D)
    requires Done(t) && Together(t, p, q)
    ensures multiset(t.circuits[0].points) == Members(t)
    ensures p in t.circuits[0].points && q in t.circuits[0].points
  {
    var c := t.circuits;
    assert CircuitPoints(c) == c[0].points by {
      assert |c[..0]| == 0;
      assert CircuitPoints(c) == CircuitPoints(c[..0]) + c[0].points;
    }
    assert multiset(t.points) == multiset{} by {
      assert |t.points| == 0;
    }
    var k :| 0 <= k < |c| && p in c[k].points && q in c[k].points;
    assert k == 0;
  }

  /** With distinct boxes, when part 2 stops its one circuit holds every
      box exactly once, including the last pair joined. */
  lemma Part2Settles(points: seq<Point3D>, fuel: nat)
    requires (StepErrors(); Settle(Step, Start(points), fuel).Ok?)
    ensures (StepErrors();
             var fin := Settle(Step, Start(points), fuel).value.0;
             (forall p :: multiset(points)[p] <= 1) ==>
               && |fin.state.circuits| == 1 && multiset(fin.state.circuits[0].points) == multiset(points)
               && fin.first in fin.state.circuits[0].points && fin.second in fin.state.circuits[0].points)
  {
    StepErrors();
    if forall p :: multiset(points)[p] <= 1 {
      Part2SettlesDistinct(points, fuel);
    }
  }

  lemma Part2SettlesDistinct(points: seq<Point3D>, fuel: nat)
    requires forall p :: multiset(points)[p] <= 1
    requires (StepErrors(); Settle(Step, Start(points), fuel).Ok?)
    ensures (StepErrors();
             var fin := Settle(Step, Start(points), fuel).value.0;
             && |fin.state.circuits| == 1 && multiset(fin.state.circuits[0].points) == multiset(points)
             && fin.first in fin.state.circuits[0].points && fin.second in fin.state.circuits[0].points)
  {
    StepErrors();
    var m := multiset(points);
    var inv := (s: State) => Valid(s) && Members(s) == m;
    var post := (n: Snapshot) => Together(n.state, n.first, n.second);
    forall s | inv(s) && Step(s).Ok?
      ensures inv(Step(s).value.state) && post(Step(s).value)
    {
      StepPreserves(s);
    }
    SettleKeeps(Step, inv, post, Start(points), fuel);
    var fin := Settle(Step, Start(points), fuel).value.0;
    DoneHoldsAll(fin.state, fin.first, fin.second);
  }
}

=== FILE: day9.dfy ===
/** Day 9, "Movie Theater": red tiles at integer coordinates. Part 1 is the
    largest rectangle with two red tiles as opposite corners. Part 2 only
    allows rectangles lying inside the loop the red tiles draw, decided on a
    compressed grid: the loop's cells are marked, the outside is flood-filled
    from the grid's edges, and every candidate rectangle is checked cell by
    cell. */
module Day9 {
  import opened Results
  import opened Text

  datatype Point = Point(x: int, y: int)

  /** A cell of the compressed grid: (index among the distinct x values,
      index among the distinct y values). */
  type Cell = (int, int)

  datatype Error =
    | NoSuchElement          // `maxBy` over an empty collection
    | BadNumber(token: string)
    | MissingCoordinate      // `val (x, y)` on a list with one element

  function Abs(v: int): nat {
    if v < 0 then -v else v
  }

  function Min(a: int, b: int): int {
    if a <= b then a else b
  }

  function Max(a: int, b: int): int {
    if a <= b then b else a
  }

  /** `Rectangle.area`: tiles are counted inclusively on both axes. */
  function Area(p1: Point, p2: Point): int {
    (Abs(p2.x - p1.x) + 1) * (Abs(p2.y - p1.y) + 1)
  }

  /** Every rectangle covers at least its corner tile, the corners can be
      swapped, and the area is what part 2 computes from the extremes. */
  lemma AreaProperties(p1: Point, p2: Point)
    ensures Area(p1, p2) >= 1
    ensures Area(p1, p2) == Area(p2, p1)
    ensures Area(p1, p2) == (Max(p1.x, p2.x) - Min(p1.x, p2.x) + 1) * (Max(p1.y, p2.y) - Min(p1.y, p2.y) + 1)
  {
    var w := Abs(p2.x - p1.x) + 1;
    var h := Abs(p2.y - p1.y) + 1;
    assert w * h >= 1 * 1 by {
      assert w >= 1 && h >= 1;
      assert w * h >= w * 1;
    }
  }

  // -------------------------------------------------------------- parsing

  /** One input line `x,y`: every comma-separated piece goes through
      `toInt()`, then the first two are the coordinates. */
  function ParseTile(line: string): (r: Result<Point, Error>)
    ensures var parts := Split(line, ',');
            r.Ok? <==> |parts| >= 2 && forall i :: 0 <= i < |parts| ==> ParseInteger(parts[i], INT_MIN, INT_MAX).Some?
    ensures var parts := Split(line, ',');
            r.Ok? ==> |parts| >= 2 && Some(r.value.x) == ParseInteger(parts[0], INT_MIN, INT_MAX)
                                   && Some(r.value.y) == ParseInteger(parts[1], INT_MIN, INT_MAX)
  {
    var values :- ParseInts(Split(line, ',')).MapError(t => BadNumber(t));
    if |values| < 2 then Err(MissingCoordinate) else Ok(Point(values[0], values[1]))
  }

  /** `input.map { ... }`: every line in order, or the error of the first
      line that does not parse. */
  function ParseTiles(lines: seq<string>): (r: Result<seq<Point>, Error>)
    ensures r.Ok? ==> |r.value| == |lines|
    ensures r.Ok? ==> forall i :: 0 <= i < |lines| ==> ParseTile(lines[i]) == Ok(r.value[i])
    ensures r.Err? <==> exists i :: 0 <= i < |lines| && ParseTile(lines[i]).Err?
    ensures r.Err? ==> exists i :: 0 <= i < |lines| && ParseTile(lines[i]) == Err(r.error)
                                   && forall j :: 0 <= j < i ==> ParseTile(lines[j]).Ok?
  {
    MapAll(ParseTile, lines)
  }

  /** A tile written back as `x,y` parses to itself. */
  lemma ParseShowTile(t: Point)
    requires INT_MIN <= t.x <= INT_MAX && INT_MIN <= t.y <= INT_MAX
    ensures ParseTile(ShowInt(t.x) + "," + ShowInt(t.y)) == Ok(t)
  {
    var parts := [ShowInt(t.x), ShowInt(t.y)];
    ShowIntChars(t.x);
    ShowIntChars(t.y);
    assert Join(parts[1..], ',') == ShowInt(t.y);
    assert Join(parts, ',') == ShowInt(t.x) + "," + ShowInt(t.y);
    SplitJoin(parts, ',');
    ParseShowInt(t.x, INT_MIN, INT_MAX);
    ParseShowInt(t.y, INT_MIN, INT_MAX);
  }

  // ---------------------------------------------------------------- part 1

  /** `maxBy` over the tiles different from tile `i`, among the first `k`:
      the index of the first one with the largest score, if there is one. */
  function RowBest(tiles: seq<Point>, score: (Point, Point) -> int, i: nat, k: nat): (r: Option<nat>)
    requires i < |tiles| && k <= |tiles|
    ensures r.Some? ==> r.value < k && tiles[i] != tiles[r.value]
  {
    if k == 0 then None
    else
      var prev := RowBest(tiles, score, i, k - 1);
      if tiles[i] == tiles[k - 1] then prev
      else if prev.None? || score(tiles[i], tiles[prev.value]) < score(tiles[i], tiles[k - 1]) then Some(k - 1)
      else prev
  }

  /** Any tile different from tile `i` among the first `k` makes `RowBest`
      find one, scoring at least as much. */
  lemma {:induction false} RowBestIsMax(tiles: seq<Point>, score: (Point, Point) -> int, i: nat, k: nat, j: nat)
    requires i < |tiles| && j < k <= |tiles| && tiles[i] != tiles[j]
    ensures RowBest(tiles, score, i, k).Some?
    ensures score(tiles[i], tiles[j]) <= score(tiles[i], tiles[RowBest(tiles, score, i, k).value])
    decreases k
  {
    if j < k - 1 {
      RowBestIsMax(tiles, score, i, k - 1, j);
      RowBestStep(tiles, score, i, k);
    }
  }

  /** Looking at one more tile never lowers the best row score. */
  lemma RowBestStep(tiles: seq<Point>, score: (Point, Point) -> int, i: nat, k: nat)
    requires i < |tiles| && 0 < k <= |tiles|
    ensures var prev, r := RowBest(tiles, score, i, k - 1), RowBest(tiles, score, i, k);
            prev.Some? ==> r.Some? && score(tiles[i], tiles[prev.value]) <= score(tiles[i], tiles[r.value])
  {
  }

  /** The outer `maxBy`: a pair of different tiles, the first among the
      first `k`, with the largest score, if there is one. */
  function AllBest(tiles: seq<Point>, score: (Point, Point) -> int, k: nat): (r: Option<(nat, nat)>)
    requires k <= |tiles|
    ensures r.Some? ==> r.value.0 < k && r.value.1 < |tiles| && tiles[r.value.0] != tiles[r.value.1]
  {
    if k == 0 then None
    else
      var prev := AllBest(tiles, score, k - 1);
      match RowBest(tiles, score, k - 1, |tiles|)
      case None => prev
      case Some(j) =>
        if prev.None? || score(tiles[prev.value.0], tiles[prev.value.1]) < score(tiles[k - 1], tiles[j])
        then Some((k - 1, j))
        else prev
  }

  /** The pair `AllBest` picks scores at least as much as every other pair
      whose first tile is among the first `k`. */
  lemma {:induction false} AllBestIsMax(tiles: seq<Point>, score: (Point, Point) -> int, k: nat, i: nat, j: nat)
    requires k <= |tiles| && i < k && j < |tiles| && tiles[i] != tiles[j]
    ensures AllBest(tiles, score, k).Some?
    ensures var p := AllBest(tiles, score, k).value;
            score(tiles[i], tiles[j]) <= score(tiles[p.0], tiles[p.1])
    decreases k
  {
    AllBestStep(tiles, score, k);
    if i < k - 1 {
      AllBestIsMax(tiles, score, k - 1, i, j);
    } else {
      RowBestIsMax(tiles, score, k - 1, |tiles|, j);
    }
  }

  /** Adding row `k - 1` never lowers the best score found so far. */
  lemma AllBestStep(tiles: seq<Point>, score: (Point, Point) -> int, k: nat)
    requires 0 < k <= |tiles|
    ensures var prev, row, p := AllBest(tiles, score, k - 1), RowBest(tiles, score, k - 1, |tiles|), AllBest(tiles, score, k);
            && (prev.Some? ==> p.Some? && score(tiles[prev.value.0], tiles[prev.value.1]) <= score(tiles[p.value.0], tiles[p.value.1]))
            && (row.Some? ==> p.Some? && score(tiles[k - 1], tiles[row.value]) <= score(tiles[p.value.0], tiles[p.value.1]))
  {
  }

  /** What part 1 answers for a list of tiles: an error exactly when no two
      tiles differ, and otherwise the area of some pair of different tiles
      that no such pair exceeds. */
  predicate AreaAnswer(tiles: seq<Point>, r: Result<int, Error>) {
    && (r.Err? <==> forall i, j :: 0 <= i < |tiles| && 0 <= j < |tiles| ==> tiles[i] == tiles[j])
    && (r.Err? ==> r.error == NoSuchElement)
    && (r.Ok? ==> exists i, j :: 0 <= i < |tiles| && 0 <= j < |tiles| && tiles[i] != tiles[j]
                                  && r.value == Area(tiles[i], tiles[j]))
    && (r.Ok? ==> forall i, j :: 0 <= i < |tiles| && 0 <= j < |tiles| && tiles[i] != tiles[j] ==>
                                   Area(tiles[i], tiles[j]) <= r.value)
  }

  /** The search of `solvePart1`: the largest area over ordered pairs of
      different red tiles; `maxBy` throws when there are not two different
      tiles. */
  function LargestArea(tiles: seq<Point>): (r: Result<int, Error>)
    ensures AreaAnswer(tiles, r)
  {
    forall i, j | 0 <= i < |tiles| && 0 <= j < |tiles| && tiles[i] != tiles[j]
      ensures AllBest(tiles, Area, |tiles|).Some?
      ensures var p := AllBest(tiles, Area, |tiles|).value;
              Area(tiles[i], tiles[j]) <= Area(tiles[p.0], tiles[p.1])
    {
      AllBestIsMax(tiles, Area, |tiles|, i, j);
    }
    match AllBest(tiles, Area, |tiles|)
    case None => Err(NoSuchElement)
    case Some((i, j)) => Ok(Area(tiles[i], tiles[j]))
  }

  /** `solvePart1`: every line is parsed first, then the largest area over
      pairs of different parsed tiles. */
  function Part1(lines: seq<string>): (r: Result<int, Error>)
    ensures ParseTiles(lines).Err? ==> r == Err(ParseTiles(lines).error)
    ensures ParseTiles(lines).Ok? ==> AreaAnswer(ParseTiles(lines).value, r)
  {
    match ParseTiles(lines)
    case Err(e) => Err(e)
    case Ok(tiles) => LargestArea(tiles)
  }

  // ----------------------------------------------------- coordinate lists

  predicate StrictlyIncreasing(s: seq<int>) {
    forall i, j :: 0 <= i < j < |s| ==> s[i] < s[j]
  }

  function Insert(s: seq<int>, v: int): (r: seq<int>)
    requires StrictlyIncreasing(s)
    ensures StrictlyIncreasing(r)
    ensures forall u :: u in r <==> u in s || u == v
  {
    if |s| == 0 then [v]
    else if v < s[0] then [v] + s
    else if v == s[0] then s
    else
      var rest := Insert(s[1..], v);
      assert forall u :: u in rest ==> s[0] < u by {
        forall u | u in s[1..] ensures s[0] < u {
          var k :| 0 <= k < |s[1..]| && s[1..][k] == u;
          assert s[k + 1] == u;
        }
      }
      ConsIncreasing(s[0], rest);
      [s[0]] + rest
  }

  /** A value below every element of an increasing list can go in front. */
  lemma ConsIncreasing(x: int, t: seq<int>)
    requires StrictlyIncreasing(t)
    requires forall u :: u in t ==> x < u
    ensures StrictlyIncreasing([x] + t)
  {
    var r := [x] + t;
    forall i, j | 0 <= i < j < |r| ensures r[i] < r[j] {
      assert r[j] == t[j - 1];
      if i > 0 {
        assert r[i] == t[i - 1];
      } else {
        assert t[j - 1] in t;
      }
    }
  }

  /** `distinct().sorted()`: each value once, in increasing order. */
  function SortedDistinct(s: seq<int>): (r: seq<int>)
    ensures StrictlyIncreasing(r)
    ensures forall u :: u in r <==> u in s
    ensures |r| == 0 <==> |s| == 0
  {
    if |s| == 0 then [] else Insert(SortedDistinct(s[..|s| - 1]), s[|s| - 1])
  }

  /** A strictly increasing list is fixed by its elements, so the list above
      is the only one the Kotlin solver could have built. */
  lemma {:induction false} IncreasingUnique(a: seq<int>, b: seq<int>)
    requires StrictlyIncreasing(a) && StrictlyIncreasing(b)
    requires forall u :: u in a <==> u in b
    ensures a == b
    decreases |a|
  {
    if |a| > 0 && |b| > 0 {
      assert a[0] == b[0] by {
        assert a[0] in a && b[0] in b;
        assert a[0] in b && b[0] in a;
      }
      forall u | u in a[1..] ensures u in b[1..] {
        assert u in b && u != b[0];
      }
      forall u | u in b[1..] ensures u in a[1..] {
        assert u in a && u != a[0];
      }
      IncreasingUnique(a[1..], b[1..]);
      assert a == [a[0]] + a[1..] && b == [b[0]] + b[1..];
    } else {
      HasMember(a);
      HasMember(b);
    }
  }

  lemma HasMember(s: seq<int>)
    ensures |s| > 0 ==> exists u :: u in s
  {
    if |s| > 0 {
      var u := s[0];
      assert u in s;
    }
  }

  /** `withIndex().associate { it.value to it.index }`. */
  function IndexMap(xs: seq<int>): (m: map<int, nat>)
    requires StrictlyIncreasing(xs)
    ensures forall u :: u in m <==> u in xs
    ensures forall i :: 0 <= i < |xs| ==> xs[i] in m && m[xs[i]] == i
    ensures forall u :: u in m ==> m[u] < |xs| && xs[m[u]] == u
  {
    map i | 0 <= i < |xs| :: xs[i] := i
  }

  /** Compression keeps the order of the coordinates, in both directions. */
  lemma IndexMapMonotone(xs: seq<int>, a: int, b: int)
    requires StrictlyIncreasing(xs) && a in xs && b in xs
    ensures a < b <==> IndexMap(xs)[a] < IndexMap(xs)[b]
    ensures a == b <==> IndexMap(xs)[a] == IndexMap(xs)[b]
  {
    var m := IndexMap(xs);
    assert xs[m[a]] == a && xs[m[b]] == b;
  }

  function XS(tiles: seq<Point>): seq<int> {
    SortedDistinct(Xs(tiles))
  }

  function YS(tiles: seq<Point>): seq<int> {
    SortedDistinct(Ys(tiles))
  }

  function Xs(tiles: seq<Point>): (r: seq<int>)
    ensures |r| == |tiles| && forall i :: 0 <= i < |tiles| ==> r[i] == tiles[i].x
  {
    seq(|tiles|, i requires 0 <= i < |tiles| => tiles[i].x)
  }

  function Ys(tiles: seq<Point>): (r: seq<int>)
    ensures |r| == |tiles| && forall i :: 0 <= i < |tiles| ==> r[i] == tiles[i].y
  {
    seq(|tiles|, i requires 0 <= i < |tiles| => tiles[i].y)
  }

  /** A red tile's cell on the compressed grid. */
  function CellOf(tiles: seq<Point>, i: nat): (c: Cell)
    requires i < |tiles|
    ensures 0 <= c.0 < |XS(tiles)| && XS(tiles)[c.0] == tiles[i].x
    ensures 0 <= c.1 < |YS(tiles)| && YS(tiles)[c.1] == tiles[i].y
  {
    assert Xs(tiles)[i] in Xs(tiles) && Ys(tiles)[i] in Ys(tiles);
    (IndexMap(XS(tiles))[tiles[i].x], IndexMap(YS(tiles))[tiles[i].y])
  }

  /** Every red tile on the compressed grid. */
  function Compress(tiles: seq<Point>): (cells: seq<Cell>)
    ensures |cells| == |tiles|
    ensures forall i :: 0 <= i < |tiles| ==> cells[i] == CellOf(tiles, i)
  {
    seq(|tiles|, i requires 0 <= i < |tiles| => CellOf(tiles, i))
  }

  // ------------------------------------------------------------- boundary

  /** The cells marked for one edge of the loop: the whole compressed
      column or row between the two ends, inclusive, when they share one;
      nothing for a diagonal pair. */
  function EdgeCells(a: Cell, b: Cell): set<Cell> {
    if a.0 == b.0 then set y | Min(a.1, b.1) <= y <= Max(a.1, b.1) :: (a.0, y)
    else if a.1 == b.1 then set x | Min(a.0, b.0) <= x <= Max(a.0, b.0) :: (x, a.1)
    else {}
  }

  lemma EdgeCellsShape(a: Cell, b: Cell)
    ensures a.0 != b.0 && a.1 != b.1 ==> EdgeCells(a, b) == {}
    ensures a.0 == b.0 || a.1 == b.1 ==> a in EdgeCells(a, b) && b in EdgeCells(a, b)
    ensures forall c :: c in EdgeCells(a, b) ==>
              Min(a.0, b.0) <= c.0 <= Max(a.0, b.0) && Min(a.1, b.1) <= c.1 <= Max(a.1, b.1)
  {
  }

  /** The edge from tile `i` to the next one, the last wrapping to the first. */
  function Edge(cells: seq<Cell>, i: nat): set<Cell>
    requires i < |cells|
  {
    EdgeCells(cells[i], cells[(i + 1) % |cells|])
  }

  /** The marks made by the first `k` rounds of the boundary loop. */
  function BoundaryUpTo(cells: seq<Cell>, k: nat): (b: set<Cell>)
    requires k <= |cells|
    ensures forall c :: c in b <==> exists i :: 0 <= i < k && c in Edge(cells, i)
  {
    if k == 0 then {} else BoundaryUpTo(cells, k - 1) + Edge(cells, k - 1)
  }

  function Boundary(cells: seq<Cell>): set<Cell> {
    BoundaryUpTo(cells, |cells|)
  }

  // ----------------------------------------------------------- flood fill

  function GridCells(w: nat, h: nat): set<Cell> {
    set x, y | 0 <= x < w && 0 <= y < h :: (x, y)
  }

  predicate Open(w: nat, h: nat, boundary: set<Cell>, c: Cell) {
    0 <= c.0 < w && 0 <= c.1 < h && c !in boundary
  }

  function OpenCells(w: nat, h: nat, boundary: set<Cell>): set<Cell> {
    set c | c in GridCells(w, h) && c !in boundary
  }

  /** The four neighbours in the order the Kotlin solver tries them: up, down,
      right, left. */
  function Neighbour(c: Cell, k: int): Cell {
    if k == 0 then (c.0, c.1 - 1)
    else if k == 1 then (c.0, c.1 + 1)
    else if k == 2 then (c.0 + 1, c.1)
    else (c.0 - 1, c.1)
  }

  /** The cells the flood fill starts from: open cells on the grid's edge. */
  predicate Seed(w: nat, h: nat, boundary: set<Cell>, c: Cell) {
    Open(w, h, boundary, c) && (c.0 == 0 || c.0 == w - 1 || c.1 == 0 || c.1 == h - 1)
  }

  predicate ClosedAt(w: nat, h: nat, boundary: set<Cell>, s: set<Cell>, c: Cell) {
    forall k :: 0 <= k < 4 && Open(w, h, boundary, Neighbour(c, k)) ==> Neighbour(c, k) in s
  }

  /** Holds every seed and every open cell next to a cell it holds. */
  ghost predicate Sealed(w: nat, h: nat, boundary: set<Cell>, s: set<Cell>) {
    && (forall c :: Seed(w, h, boundary, c) ==> c in s)
    && (forall c :: c in s ==> ClosedAt(w, h, boundary, s, c))
  }

  /** The exterior: the least sealed set, made only of open cells. */
  ghost predicate IsExterior(w: nat, h: nat, boundary: set<Cell>, outside: set<Cell>) {
    && Sealed(w, h, boundary, outside)
    && (forall c :: c in outside ==> Open(w, h, boundary, c))
    && (forall s: set<Cell> :: Sealed(w, h, boundary, s) ==> outside <= s)
  }

  /** There is only one exterior. */
  lemma ExteriorUnique(w: nat, h: nat, boundary: set<Cell>, o1: set<Cell>, o2: set<Cell>)
    requires IsExterior(w, h, boundary, o1) && IsExterior(w, h, boundary, o2)
    ensures o1 == o2
  {
    assert o1 <= o2 && o2 <= o1;
  }

  lemma StrictSubsetCard<T>(a: set<T>, b: set<T>)
    requires a < b
    ensures |a| < |b|
  {
    assert a + (b - a) == b;
    assert b - a != {};
    var x :| x in b - a;
    assert a <= b - {x};
    assert |b - {x}| == |b| - 1;
    SubsetLe(a, b - {x});
  }

  lemma SubsetLe<T>(a: set<T>, b: set<T>)
    requires a <= b
    ensures |a| <= |b|
  {
    assert b == a + (b - a);
  }

  /** Seeds one cell when it is open, as each test of the edge loops does. */
  method SeedCell(w: nat, h: nat, boundary: set<Cell>, outside: set<Cell>, queue: seq<Cell>, c: Cell)
    returns (outside': set<Cell>, queue': seq<Cell>)
    requires 0 <= c.0 < w && 0 <= c.1 < h
    ensures outside' == if c in boundary then outside else outside + {c}
    ensures queue' == if c in boundary then queue else queue + [c]
  {
    if c !in boundary {
      queue' := queue + [c];
      outside' := outside + {c};
    } else {
      queue', outside' := queue, outside;
    }
  }

  /** The two edge loops: every open cell of the grid's edge is marked and
      queued (corners, and rows of a one-cell-high grid, more than once). */
  method SeedEdges(w: nat, h: nat, boundary: set<Cell>) returns (outside: set<Cell>, queue: seq<Cell>)
    requires (w == 0) == (h == 0)
    ensures forall c :: c in outside <==> Seed(w, h, boundary, c)
    ensures forall c :: c in queue <==> c in outside
  {
    outside := {};
    queue := [];
    var x := 0;
    while x < w
      invariant 0 <= x <= w
      invariant forall c :: c in outside ==> Seed(w, h, boundary, c)
      invariant forall c :: c in queue <==> c in outside
      invariant forall c :: Seed(w, h, boundary, c) && (c.1 == 0 || c.1 == h - 1) && c.0 < x ==> c in outside
    {
      outside, queue := SeedCell(w, h, boundary, outside, queue, (x, 0));
      outside, queue := SeedCell(w, h, boundary, outside, queue, (x, h - 1));
      x := x + 1;
    }
    var y := 0;
    while y < h
      invariant 0 <= y <= h
      invariant forall c :: c in outside ==> Seed(w, h, boundary, c)
      invariant forall c :: c in queue <==> c in outside
      invariant forall c :: Seed(w, h, boundary, c) && (c.1 == 0 || c.1 == h - 1) ==> c in outside
      invariant forall c :: Seed(w, h, boundary, c) && (c.0 == 0 || c.0 == w - 1) && c.1 < y ==> c in outside
    {
      outside, queue := SeedCell(w, h, boundary, outside, queue, (0, y));
      outside, queue := SeedCell(w, h, boundary, outside, queue, (w - 1, y));
      y := y + 1;
    }
  }

  lemma SealedStep(w: nat, h: nat, boundary: set<Cell>, s: set<Cell>, p: Cell, k: int)
    requires Sealed(w, h, boundary, s) && p in s && 0 <= k < 4
    ensures Open(w, h, boundary, Neighbour(p, k)) ==> Neighbour(p, k) in s
  {
    assert ClosedAt(w, h, boundary, s, p);
  }

  lemma ClosedGrows(w: nat, h: nat, boundary: set<Cell>, s: set<Cell>, t: set<Cell>, c: Cell)
    requires ClosedAt(w, h, boundary, s, c) && s <= t
    ensures ClosedAt(w, h, boundary, t, c)
  {
  }

  lemma OpenSubset(w: nat, h: nat, boundary: set<Cell>, s: set<Cell>)
    requires forall c :: c in s ==> Open(w, h, boundary, c)
    ensures s <= OpenCells(w, h, boundary)
  {
    forall c | c in s ensures c in OpenCells(w, h, boundary) {
      assert c == (c.0, c.1);
      assert (c.0, c.1) in GridCells(w, h);
    }
  }

  /** One turn of the flood loop after `p` leaves the queue: each open,
      unmarked neighbour is marked and queued. Afterwards `p` is closed, and
      nothing was marked that every sealed set does not hold. */
  method VisitNeighbours(w: nat, h: nat, boundary: set<Cell>, p: Cell, outside: set<Cell>, queue: seq<Cell>)
    returns (outside': set<Cell>, queue': seq<Cell>)
    requires p in outside
    requires forall c :: c in outside ==> Open(w, h, boundary, c)
    requires forall c :: c in queue ==> c in outside
    requires forall s: set<Cell> :: Sealed(w, h, boundary, s) ==> outside <= s
    ensures outside <= outside'
    ensures forall c :: c in outside' ==> Open(w, h, boundary, c)
    ensures forall c :: c in queue' ==> c in outside'
    ensures forall c :: c in queue ==> c in queue'
    ensures forall c :: c in outside' && c !in outside ==> c in queue'
    ensures outside' == outside ==> queue' == queue
    ensures ClosedAt(w, h, boundary, outside', p)
    ensures forall s: set<Cell> :: Sealed(w, h, boundary, s) ==> outside' <= s
  {
    outside', queue' := outside, queue;
    var k := 0;
    while k < 4
      invariant 0 <= k <= 4
      invariant outside <= outside'
      invariant forall c :: c in outside' ==> Open(w, h, boundary, c)
      invariant forall c :: c in queue' ==> c in outside'
      invariant forall c :: c in queue ==> c in queue'
      invariant forall c :: c in outside' && c !in outside ==> c in queue'
      invariant outside' == outside ==> queue' == queue
      invariant forall j :: 0 <= j < k && Open(w, h, boundary, Neighbour(p, j)) ==> Neighbour(p, j) in outside'
      invariant forall s: set<Cell> :: Sealed(w, h, boundary, s) ==> outside' <= s
    {
      var n := Neighbour(p, k);
      if 0 <= n.0 < w && 0 <= n.1 < h && n !in boundary && n !in outside' {
        forall s: set<Cell> | Sealed(w, h, boundary, s) ensures outside' + {n} <= s {
          SealedStep(w, h, boundary, s, p, k);
        }
        outside' := outside' + {n};
        queue' := queue' + [n];
      }
      k := k + 1;
    }
  }

  /** The flood fill of `solvePart2`: seeds the open cells of the four edges,
      then takes cells off the front of the queue, marking and enqueueing
      their unmarked open neighbours. What it marks is the exterior. */
  method Flood(w: nat, h: nat, boundary: set<Cell>) returns (outside: set<Cell>)
    requires (w == 0) == (h == 0)
    ensures IsExterior(w, h, boundary, outside)
  {
    var queue;
    outside, queue := SeedEdges(w, h, boundary);
    while |queue| > 0
      invariant forall c :: c in outside ==> Open(w, h, boundary, c)
      invariant forall c :: c in queue ==> c in outside
      invariant forall c :: Seed(w, h, boundary, c) ==> c in outside
      invariant forall c :: c in outside && c !in queue ==> ClosedAt(w, h, boundary, outside, c)
      invariant forall s: set<Cell> :: Sealed(w, h, boundary, s) ==> outside <= s
      decreases |OpenCells(w, h, boundary) - outside|, |queue|
    {
      var before := outside;
      var p := queue[0];
      var rest := queue[1..];
      outside, queue := VisitNeighbours(w, h, boundary, p, outside, rest);
      forall c | c in outside && c !in queue ensures ClosedAt(w, h, boundary, outside, c) {
        if c != p {
          assert c in before && c !in rest;
          assert c !in queue[..0] + [p] + rest;
          ClosedGrows(w, h, boundary, before, outside, c);
        }
      }
      if outside != before {
        assert before + (outside - before) == outside;
        assert outside - before != {};
        var n :| n in outside - before;
        assert n in OpenCells(w, h, boundary) - before by {
          OpenSubset(w, h, boundary, outside);
        }
        OpenSubset(w, h, boundary, outside);
        StrictSubsetCard(OpenCells(w, h, boundary) - outside, OpenCells(w, h, boundary) - before);
      }
    }
  }

  // ------------------------------------------------------- rectangle search

  /** `allowed`: cells on the loop or not reached from outside. */
  function AllowedCells(w: nat, h: nat, boundary: set<Cell>, outside: set<Cell>): (a: set<Cell>)
    ensures forall c :: c in a <==> 0 <= c.0 < w && 0 <= c.1 < h && (c in boundary || c !in outside)
  {
    var a := set c | c in GridCells(w, h) && (c in boundary || c !in outside);
    assert forall c: Cell :: 0 <= c.0 < w && 0 <= c.1 < h ==> c in GridCells(w, h) by {
      forall c: Cell | 0 <= c.0 < w && 0 <= c.1 < h ensures c in GridCells(w, h) {
        assert c == (c.0, c.1);
      }
    }
    a
  }

  /** Every compressed cell between two corners, inclusive, is allowed. */
  predicate RectAllowed(allowed: set<Cell>, a: Cell, b: Cell) {
    forall x, y :: Min(a.0, b.0) <= x <= Max(a.0, b.0) && Min(a.1, b.1) <= y <= Max(a.1, b.1) ==> (x, y) in allowed
  }

  /** `best` is 0 or the area of an allowed pair `i < j`, and no allowed pair
      has a larger area. */
  predicate IsLargestAllowed(tiles: seq<Point>, cells: seq<Cell>, allowed: set<Cell>, best: int)
    requires |cells| == |tiles|
  {
    && best >= 0
    && (best == 0 || exists i, j :: 0 <= i < j < |tiles| && RectAllowed(allowed, cells[i], cells[j])
                                    && best == Area(tiles[i], tiles[j]))
    && (forall i, j :: 0 <= i < j < |tiles| && RectAllowed(allowed, cells[i], cells[j])
                       ==> Area(tiles[i], tiles[j]) <= best)
  }

  /** The area as `solvePart2` computes it, from the extremes. */
  method SpanArea(a: Point, b: Point) returns (area: int)
    ensures area == Area(a, b) && area >= 1
  {
    var width := Max(a.x, b.x) - Min(a.x, b.x) + 1;
    var height := Max(a.y, b.y) - Min(a.y, b.y) + 1;
    area := width * height;
    AreaProperties(a, b);
  }

  /** The pair loop of `solvePart2`. */
  method LargestAllowed(tiles: seq<Point>, cells: seq<Cell>, allowed: set<Cell>) returns (best: int)
    requires |cells| == |tiles|
    ensures IsLargestAllowed(tiles, cells, allowed, best)
  {
    best := 0;
    ghost var bi, bj := 0, 0;
    for i := 0 to |tiles|
      invariant best >= 0
      invariant best != 0 ==> 0 <= bi < bj < |tiles| && RectAllowed(allowed, cells[bi], cells[bj])
                              && best == Area(tiles[bi], tiles[bj])
      invariant forall i', j :: 0 <= i' < i && i' < j < |tiles| && RectAllowed(allowed, cells[i'], cells[j])
                                ==> Area(tiles[i'], tiles[j]) <= best
    {
      for j := i + 1 to |tiles|
        invariant best >= 0
        invariant best != 0 ==> 0 <= bi < bj < |tiles| && RectAllowed(allowed, cells[bi], cells[bj])
                                && best == Area(tiles[bi], tiles[bj])
        invariant forall i', j' :: 0 <= i' < i && i' < j' < |tiles| && RectAllowed(allowed, cells[i'], cells[j'])
                                   ==> Area(tiles[i'], tiles[j']) <= best
        invariant forall j' :: i < j' < j && RectAllowed(allowed, cells[i], cells[j'])
                               ==> Area(tiles[i], tiles[j']) <= best
      {
        if RectAllowed(allowed, cells[i], cells[j]) {
          var area := SpanArea(tiles[i], tiles[j]);
          if area > best {
            best := area;
            bi, bj := i, j;
          }
        }
      }
    }
  }

  /** `solvePart2`: compress, mark the loop, flood the outside, then search
      the allowed rectangles. The exterior is returned alongside the answer
      to name the set the answer depends on; `ExteriorUnique` shows it is
      the only one possible. */
  method LargestInside(tiles: seq<Point>) returns (best: int, outside: set<Cell>)
    ensures var w, h := |XS(tiles)|, |YS(tiles)|;
            var boundary := Boundary(Compress(tiles));
            && IsExterior(w, h, boundary, outside)
            && IsLargestAllowed(tiles, Compress(tiles), AllowedCells(w, h, boundary, outside), best)
  {
    var cells := Compress(tiles);
    var w, h := |XS(tiles)|, |YS(tiles)|;
    var boundary := Boundary(cells);
    outside := Flood(w, h, boundary);
    var allowed := AllowedCells(w, h, boundary, outside);
    best := LargestAllowed(tiles, cells, allowed);
  }

  /** `solvePart2`: every line is parsed first, then the largest rectangle
      inside the loop, with the exterior it was measured against. */
  method Part2(lines: seq<string>) returns (r: Result<int, Error>, outside: set<Cell>)
    ensures ParseTiles(lines).Err? ==> r == Err(ParseTiles(lines).error)
    ensures ParseTiles(lines).Ok? ==>
              var tiles := ParseTiles(lines).value;
              var w, h := |XS(tiles)|, |YS(tiles)|;
              var boundary := Boundary(Compress(tiles));
              && r.Ok?
              && IsExterior(w, h, boundary, outside)
              && IsLargestAllowed(tiles, Compress(tiles), AllowedCells(w, h, boundary, outside), r.value)
  {
    var parsed := ParseTiles(lines);
    if parsed.Err? {
      return Err(parsed.error), {};
    }
    var best;
    best, outside := LargestInside(parsed.value);
    r := Ok(best);
  }

  lemma BoundaryInRange(cells: seq<Cell>, w: int, h: int)
    requires forall i :: 0 <= i < |cells| ==> 0 <= cells[i].0 < w && 0 <= cells[i].1 < h
    ensures forall c :: c in Boundary(cells) ==> 0 <= c.0 < w && 0 <= c.1 < h
  {
    forall c | c in Boundary(cells) ensures 0 <= c.0 < w && 0 <= c.1 < h {
      var i :| 0 <= i < |cells| && c in Edge(cells, i);
      EdgeCellsShape(cells[i], cells[(i + 1) % |cells|]);
    }
  }

  /** The loop itself lies on the grid, so every boundary cell is allowed. */
  lemma BoundaryAllowed(tiles: seq<Point>, outside: set<Cell>)
    ensures var w, h := |XS(tiles)|, |YS(tiles)|;
            var boundary := Boundary(Compress(tiles));
            boundary <= AllowedCells(w, h, boundary, outside)
  {
    BoundaryInRange(Compress(tiles), |XS(tiles)|, |YS(tiles)|);
  }
}

=== FILE: results.dfy ===
/** Failure-carrying values shared by every solver: Kotlin's nullable returns
    become `Option`, and the exceptions a solver throws become `Result.Err`. */
module Results {

  datatype Option<+T> = None | Some(value: T) {

    predicate IsFailure() {
      None?
    }

    function PropagateFailure<U>(): Option<U>
      requires None?
    {
      None
    }

    function Extract(): T
      requires Some?
    {
      value
    }
  }

  datatype Result<+T, +E> = Ok(value: T) | Err(error: E) {

    predicate IsFailure() {
      Err?
    }

    function PropagateFailure<U>(): Result<U, E>
      requires Err?
    {
      Err(error)
    }

    function Extract(): T
      requires Ok?
    {
      value
    }

    /** The same outcome with the error, if any, converted by `f`. */
    function MapError<E2>(f: E -> E2): (r: Result<T, E2>)
      ensures r.Ok? <==> Ok?
      ensures Ok? ==> r.value == value
      ensures Err? ==> r.error == f(error)
    {
      match this
      case Ok(v) => Ok(v)
      case Err(e) => Err(f(e))
    }
  }

  /** Applies a failing conversion to every element, in order: all the
      results, or the error of the first element that fails. */
  function MapAll<A, T, E>(f: A -> Result<T, E>, xs: seq<A>): (r: Result<seq<T>, E>)
    ensures r.Ok? <==> forall i :: 0 <= i < |xs| ==> f(xs[i]).Ok?
    ensures r.Ok? ==> |r.value| == |xs| && forall i :: 0 <= i < |xs| ==> f(xs[i]) == Ok(r.value[i])
    ensures r.Err? ==> exists i :: 0 <= i < |xs| && f(xs[i]) == Err(r.error)
                                   && forall j :: 0 <= j < i ==> f(xs[j]).Ok?
  {
    if |xs| == 0 then Ok([])
    else
      match f(xs[0])
      case Err(e) => Err(e)
      case Ok(v) =>
        match MapAll(f, xs[1..])
        case Err(e) =>
          assert exists i :: 0 <= i < |xs| && f(xs[i]) == Err(e)
                             && forall j :: 0 <= j < i ==> f(xs[j]).Ok? by {
            var i :| 0 <= i < |xs[1..]| && f(xs[1..][i]) == Err(e)
                     && forall j :: 0 <= j < i ==> f(xs[1..][j]).Ok?;
            assert f(xs[i + 1]) == Err(e);
            assert forall j :: 1 <= j < i + 1 ==> f(xs[j]) == f(xs[1..][j - 1]);
          }
          Err(e)
        case Ok(rest) => Ok([v] + rest)
  }
}

=== FILE: text.dfy ===
/** The few pieces of Kotlin's string library the solvers lean on:
    `split` on one delimiter character, `trim`, and `toInt`/`toLong`. */
module Text {
  import opened Results

  const INT_MIN: int := -0x8000_0000
  const INT_MAX: int := 0x7fff_ffff
  const LONG_MIN: int := -0x8000_0000_0000_0000
  const LONG_MAX: int := 0x7fff_ffff_ffff_ffff

  // ---------------------------------------------------------------- digits

  predicate IsDigit(c: char) {
    '0' <= c <= '9'
  }

  predicate AllDigits(s: string) {
    forall i :: 0 <= i < |s| ==> IsDigit(s[i])
  }

  function DigitValue(c: char): (d: nat)
    requires IsDigit(c)
    ensures d < 10
  {
    (c as int) - ('0' as int)
  }

  function DigitChar(d: nat): (c: char)
    requires d < 10
    ensures IsDigit(c) && DigitValue(c) == d
  {
    (('0' as int) + d) as char
  }

  /** The value of a decimal digit string, most significant digit first. */
  function DigitsValue(s: string): nat
    requires AllDigits(s)
  {
    if |s| == 0 then 0 else 10 * DigitsValue(s[..|s| - 1]) + DigitValue(s[|s| - 1])
  }

  /** Decimal rendering of a natural number, without leading zeros. */
  function ShowNat(n: nat): (s: string)
    ensures |s| >= 1 && AllDigits(s)
  {
    if n < 10 then [DigitChar(n)] else ShowNat(n / 10) + [DigitChar(n % 10)]
  }

  /** Decimal rendering of an integer, with a leading '-' when negative. */
  function ShowInt(v: int): (s: string)
    ensures |s| >= 1
  {
    if v < 0 then "-" + ShowNat(-v) else ShowNat(v)
  }

  lemma {:induction false} ShowNatValue(n: nat)
    ensures DigitsValue(ShowNat(n)) == n
  {
    if n >= 10 {
      var s := ShowNat(n);
      assert s[..|s| - 1] == ShowNat(n / 10);
      ShowNatValue(n / 10);
    }
  }

  /** Kotlin's `String.toInt()` / `String.toLong()`: an optional leading '+'
      or '-' followed by at least one decimal digit, whose value lies in
      [lo, hi]; anything else is a NumberFormatException, here `None`. */
  function ParseInteger(s: string, lo: int, hi: int): (r: Option<int>)
    ensures r.Some? ==> lo <= r.value <= hi
    ensures r.Some? && AllDigits(s) ==> |s| >= 1 && r.value == DigitsValue(s)
    ensures r.Some? && !AllDigits(s) ==>
              |s| >= 2 && (s[0] == '+' || s[0] == '-') && AllDigits(s[1..])
    ensures r.Some? && |s| >= 1 && s[0] == '-' ==> r.value == -(DigitsValue(s[1..]) as int)
    ensures r.Some? && |s| >= 1 && s[0] == '+' ==> r.value == DigitsValue(s[1..])
    ensures |s| >= 1 && AllDigits(s) && lo <= DigitsValue(s) <= hi ==> r == Some(DigitsValue(s))
    ensures |s| >= 2 && s[0] == '+' && AllDigits(s[1..]) && lo <= DigitsValue(s[1..]) <= hi ==>
              r == Some(DigitsValue(s[1..]))
    ensures |s| >= 2 && s[0] == '-' && AllDigits(s[1..]) && lo <= -(DigitsValue(s[1..]) as int) <= hi ==>
              r == Some(-(DigitsValue(s[1..]) as int))
  {
    if |s| == 0 then None
    else if s[0] == '+' || s[0] == '-' then
      if |s| == 1 || !AllDigits(s[1..]) then None
      else
        var v: int := if s[0] == '-' then -(DigitsValue(s[1..]) as int) else DigitsValue(s[1..]);
        if lo <= v <= hi then Some(v) else None
    else if AllDigits(s) then
      var v := DigitsValue(s);
      if lo <= v <= hi then Some(v) else None
    else None
  }

  /** Rendering then parsing gives the number back, whenever it is in range. */
  lemma ParseShowInt(v: int, lo: int, hi: int)
    requires lo <= v <= hi
    ensures ParseInteger(ShowInt(v), lo, hi) == Some(v)
  {
    var s := ShowInt(v);
    if v < 0 {
      var t := ShowNat(-v);
      assert s == "-" + t && s[1..] == t;
      ShowNatValue(-v);
      assert |s| >= 2 && s[0] == '-' && AllDigits(s[1..]);
      assert -(DigitsValue(s[1..]) as int) == v;
    } else {
      ShowNatValue(v);
      assert s == ShowNat(v) && |s| >= 1 && AllDigits(s) && DigitsValue(s) == v;
    }
  }

  /** `map { it.toInt() }` (or `toLong()`) over a list of pieces: all
      values, or the position of the first piece that does not parse. */
  function ParseAll(parts: seq<string>, lo: int, hi: int): (r: Result<seq<int>, nat>)
    ensures r.Ok? <==> forall i :: 0 <= i < |parts| ==> ParseInteger(parts[i], lo, hi).Some?
    ensures r.Ok? ==> |r.value| == |parts|
                      && forall i :: 0 <= i < |parts| ==> ParseInteger(parts[i], lo, hi) == Some(r.value[i])
    ensures r.Err? ==> r.error < |parts| && ParseInteger(parts[r.error], lo, hi).None?
                       && forall i :: 0 <= i < r.error ==> ParseInteger(parts[i], lo, hi).Some?
  {
    if |parts| == 0 then Ok([])
    else
      match ParseInteger(parts[0], lo, hi)
      case None => Err(0)
      case Some(v) =>
        match ParseAll(parts[1..], lo, hi)
        case Err(i) => Err(i + 1)
        case Ok(rest) => Ok([v] + rest)
  }

  /** `map { it.toInt() }` over the pieces of a line: all values, or the
      first piece that is not an `Int`. */
  function ParseInts(parts: seq<string>): (r: Result<seq<int>, string>)
    ensures r.Ok? <==> forall i :: 0 <= i < |parts| ==> ParseInteger(parts[i], INT_MIN, INT_MAX).Some?
    ensures r.Ok? ==> |r.value| == |parts|
                      && forall i :: 0 <= i < |parts| ==> Some(r.value[i]) == ParseInteger(parts[i], INT_MIN, INT_MAX)
    ensures r.Err? ==> r.error in parts && ParseInteger(r.error, INT_MIN, INT_MAX).None?
  {
    match ParseAll(parts, INT_MIN, INT_MAX)
    case Err(i) => Err(parts[i])
    case Ok(values) => Ok(values)
  }

  /** The rendering uses only digits and a leading '-', and ends in a digit. */
  lemma ShowIntChars(v: int)
    ensures var s := ShowInt(v);
            && (forall i :: 0 <= i < |s| ==> IsDigit(s[i]) || (i == 0 && s[i] == '-'))
            && IsDigit(s[|s| - 1])
  {
    var s := ShowInt(v);
    if v < 0 {
      var t := ShowNat(-v);
      assert s == "-" + t;
      assert forall i :: 1 <= i < |s| ==> s[i] == t[i - 1];
    }
  }

  // ----------------------------------------------------------- split, join

  function FirstIndex(s: string, c: char): (k: nat)
    requires c in s
    ensures k < |s| && s[k] == c
    ensures forall i :: 0 <= i < k ==> s[i] != c
  {
    if s[0] == c then 0 else 1 + FirstIndex(s[1..], c)
  }

  /** Inverse of `Split`: the parts glued back with the separator. */
  function Join(parts: seq<string>, sep: char): string
    requires |parts| >= 1
  {
    if |parts| == 1 then parts[0] else parts[0] + [sep] + Join(parts[1..], sep)
  }

  /** Kotlin's `s.split(sep)` for a one-character delimiter: every occurrence
      of `sep` cuts, and empty pieces are kept. */
  function Split(s: string, sep: char): (parts: seq<string>)
    ensures |parts| >= 1
    ensures forall i :: 0 <= i < |parts| ==> sep !in parts[i]
    ensures Join(parts, sep) == s
    decreases |s|
  {
    if sep !in s then [s]
    else
      var k := FirstIndex(s, sep);
      assert s == s[..k] + [sep] + s[k + 1..];
      [s[..k]] + Split(s[k + 1..], sep)
  }

  /** Splitting a joined list of separator-free parts gives the parts back. */
  lemma {:induction false} SplitJoin(parts: seq<string>, sep: char)
    requires |parts| >= 1
    requires forall i :: 0 <= i < |parts| ==> sep !in parts[i]
    ensures Split(Join(parts, sep), sep) == parts
  {
    var s := Join(parts, sep);
    if |parts| == 1 {
      assert s == parts[0];
    } else {
      var rest := Join(parts[1..], sep);
      assert s == parts[0] + [sep] + rest;
      assert sep in s by { assert s[|parts[0]|] == sep; }
      var k := FirstIndex(s, sep);
      assert forall i :: 0 <= i < |parts[0]| ==> s[i] == parts[0][i];
      assert k >= |parts[0]|;
      assert k <= |parts[0]| by { assert s[|parts[0]|] == sep; }
      assert s[..k] == parts[0];
      assert s[k + 1..] == rest;
      SplitJoin(parts[1..], sep);
    }
  }

  /** A character other than the separator that no part holds is not in
      the joined string either. */
  lemma {:induction false} JoinAvoids(parts: seq<string>, sep: char, c: char)
    requires |parts| >= 1 && c != sep
    requires forall i :: 0 <= i < |parts| ==> c !in parts[i]
    ensures c !in Join(parts, sep)
  {
    if |parts| > 1 {
      JoinAvoids(parts[1..], sep, c);
    }
  }

  /** The joined string starts with the first part and ends with the last. */
  lemma {:induction false} JoinEnds(parts: seq<string>, sep: char)
    requires |parts| >= 1 && forall i :: 0 <= i < |parts| ==> |parts[i]| >= 1
    ensures var s := Join(parts, sep);
            |s| >= 1 && s[0] == parts[0][0] && s[|s| - 1] == parts[|parts| - 1][|parts[|parts| - 1]| - 1]
  {
    if |parts| > 1 {
      JoinEnds(parts[1..], sep);
    }
  }

  /** Joining two lists of parts is joining each and putting the separator
      between them. */
  lemma {:induction false} JoinAppend(x: seq<string>, y: seq<string>, sep: char)
    requires |x| >= 1 && |y| >= 1
    ensures Join(x + y, sep) == Join(x, sep) + [sep] + Join(y, sep)
  {
    if |x| > 1 {
      assert (x + y)[1..] == x[1..] + y;
      JoinAppend(x[1..], y, sep);
    } else {
      assert (x + y)[1..] == y;
    }
  }

  /** A separator cuts a string into the pieces before it and the pieces
      after it. */
  lemma SplitAppend(a: string, b: string, sep: char)
    ensures Split(a + [sep] + b, sep) == Split(a, sep) + Split(b, sep)
  {
    var pa, pb := Split(a, sep), Split(b, sep);
    JoinAppend(pa, pb, sep);
    SplitJoin(pa + pb, sep);
  }

  /** The non-empty space-separated tokens of a line:
      `line.split(" ").filter { it.isNotEmpty() }`. Each non-empty piece
      occurs as often as among the pieces. */
  function Tokens(line: string): (toks: seq<string>)
    ensures forall t :: t in toks ==> |t| >= 1 && ' ' !in t
    ensures forall t :: |t| > 0 ==> multiset(toks)[t] == multiset(Split(line, ' '))[t]
  {
    NonEmpty(Split(line, ' '))
  }

  /** A line without spaces is one token, or none when it is empty. */
  lemma TokensWord(w: string)
    requires ' ' !in w
    ensures Tokens(w) == if |w| == 0 then [] else [w]
  {
  }

  /** The tokens on either side of a space, in order: so the tokens are the
      line's space-free words, left to right, each as often as it occurs. */
  lemma TokensSpace(a: string, b: string)
    ensures Tokens(a + " " + b) == Tokens(a) + Tokens(b)
  {
    SplitAppend(a, b, ' ');
    NonEmptyAppend(Split(a, ' '), Split(b, ' '));
  }

  /** `filter { it.isNotEmpty() }`: the non-empty parts, each as often as it
      occurs. */
  function NonEmpty(parts: seq<string>): (r: seq<string>)
    ensures forall t :: t in r <==> t in parts && |t| > 0
    ensures forall t :: |t| > 0 ==> multiset(r)[t] == multiset(parts)[t]
    ensures |r| <= |parts|
  {
    if |parts| == 0 then []
    else
      assert parts == [parts[0]] + parts[1..];
      if |parts[0]| == 0 then NonEmpty(parts[1..])
      else [parts[0]] + NonEmpty(parts[1..])
  }

  /** The filter keeps the order: it works piece by piece. */
  lemma {:induction false} NonEmptyAppend(a: seq<string>, b: seq<string>)
    ensures NonEmpty(a + b) == NonEmpty(a) + NonEmpty(b)
  {
    if |a| == 0 {
      assert a + b == b;
    } else {
      assert (a + b)[0] == a[0] && (a + b)[1..] == a[1..] + b;
      NonEmptyAppend(a[1..], b);
    }
  }

  // ------------------------------------------------------------------ trim

  /** `Char.isWhitespace()` restricted to the ASCII range. */
  predicate IsWhitespace(c: char) {
    c == ' ' || '\t' <= c <= '\r' || '\U{1C}' <= c <= '\U{1F}'
  }

  function TrimStart(s: string): (r: string)
    ensures |r| <= |s| && r == s[|s| - |r|..]
    ensures forall i :: 0 <= i < |s| - |r| ==> IsWhitespace(s[i])
    ensures |r| > 0 ==> !IsWhitespace(r[0])
  {
    if |s| > 0 && IsWhitespace(s[0]) then TrimStart(s[1..]) else s
  }

  function TrimEnd(s: string): (r: string)
    ensures |r| <= |s| && r == s[..|r|]
    ensures forall i :: |r| <= i < |s| ==> IsWhitespace(s[i])
    ensures |r| > 0 ==> !IsWhitespace(r[|r| - 1])
  {
    if |s| > 0 && IsWhitespace(s[|s| - 1]) then TrimEnd(s[..|s| - 1]) else s
  }

  /** Kotlin's `trim()`: the longest infix that neither starts nor ends with
      whitespace, obtained by dropping whitespace from both ends. */
  function Trim(s: string): (r: string)
    ensures exists a :: 0 <= a <= |s| - |r| && r == s[a..][..|r|]
                         && (forall i :: 0 <= i < a ==> IsWhitespace(s[i]))
                         && (forall i :: a + |r| <= i < |s| ==> IsWhitespace(s[i]))
    ensures |r| > 0 ==> !IsWhitespace(r[0]) && !IsWhitespace(r[|r| - 1])
  {
    var t := TrimStart(s);
    var r := TrimEnd(t);
    var a := |s| - |t|;
    assert r == s[a..][..|r|];
    r
  }

  /** Trimming a string with one space in front gives the string back when
      it neither starts nor ends with whitespace. */
  lemma TrimPadded(s: string)
    requires |s| > 0 ==> !IsWhitespace(s[0]) && !IsWhitespace(s[|s| - 1])
    ensures Trim(" " + s) == s
  {
    assert (" " + s)[1..] == s;
  }

  /** A string that neither starts nor ends with whitespace is its own trim. */
  lemma TrimUnchanged(s: string)
    requires |s| > 0 ==> !IsWhitespace(s[0]) && !IsWhitespace(s[|s| - 1])
    ensures Trim(s) == s
  {
  }
}
